=== FILE: README.md ===
# Insurance-Claims access control, in Dafny

A model of the access-control core of the Insurance-Claims web application,
with the properties its code and tests promise proved about it.

- **Permission resolver, database variant.** A user's role is flattened with
  every role it `extends` into one table `name -> is_allowed`, and a dotted
  key is matched against that table.
  - The modules are `OrmPermissions` (the flattening) and `PermissionMatch`
    (the matching).
  - The matching tries the whole key, then shorter and shorter prefixes, then
    the literal `.*`.
- **Permission resolver, YAML variant (`YamlRoles`).** Roles are built from
  grant lists in which `~k` denies `k`. At load time a parent's key names
  are appended to the child's list.
- **Guards built on the resolver.**
  - The account views' `test_func`s (`AccountViews`).
  - The ML views' `test_func`s and the owner assignment on upload
    (`MlViews`).
  - `group_required`, the role-name predicates and their `*_required`
    wrappers (`Decorators`).
  - The group template filters and `get_visible_links` (`GroupTags`).
  - The public-path gate of the authentication middleware (`Middleware`).
- **Forms and validators.**
  - The role rules and password change of the user forms (`UserForms`).
  - The username, password and full-name validators (`Validators`).
  - The ML upload checks (`MlModels`).
  - The CSV import's `parse_boolean` and header normalisation (`CsvImport`).
- **State commands.**
  - The single-active-model rule of `MLModel.save` (`MlModels`).
  - The role and group canonicalisation and per-user group sync of
    `sync_roles_and_groups` (`RoleSync`).
  - The post-migrate seeding of roles, grants and the superuser admin role
    (`RoleSeeding`).
- **Shared helpers and fixtures.**
  - `PyStr` models the Python string operations the code relies on:
    `split`, `join`, `strip`, `lower`, `split()` into words, and `str(int)`.
  - `Results` holds `Option`, `Result` and `Outcome`.
  - `OrmScenarios`, `SeedingScenarios` and `CsvScenarios` replay the
    repository's test scenarios as lemmas.

The database and YAML resolvers disagree on precedence.
- **Database variant.** The role's own grants are written first and every
  parent's flattened table is written over them, so an ancestor's value
  wins. Among several parents, the later one wins.
- **YAML variant.** A parent's keys are appended as bare names, so every
  inherited key is allowed in the child, whatever either role said.

The walk over `extends` has no visited set. The model carries an
acyclicity witness: a ghost `rank` map under which every parent ranks below
its child. Every resolver member requires it.

## Model

| member | source | states |
|---|---|---|
| PermissionMatch.LongestPrefixDecides | InsuranceClaimsUser/models.py:75-90 | the longest prefix of the requested segments that has an entry decides; when none has one, the value of `.*` decides, and false when that is absent too |
| PermissionMatch.ExactKeyFirst | InsuranceClaimsUser/models.py:58-59 | a key present in the table is answered by its own entry, since joining the split key gives the key back |
| PermissionMatch.CheckJoinedKey | InsuranceClaimsUser/models.py:58-59 | a key written as dot-free segments joined by dots is matched segment by segment |
| PermissionMatch.PrefixBeatsWildcard | InsuranceClaimsUser/models.py:75-90 | an explicit entry for a prefix, allow or deny, beats the wildcard when no longer prefix has an entry |
| PermissionMatch.EmptyTableRefuses | InsuranceClaimsUser/models.py:82 | an empty table refuses every request |
| PermissionMatch.WildcardOnlyAllows | InsuranceClaimsUser/models.py:76-82 | a table holding only an allowing `.*` allows every request none of whose prefixes is `.*` itself |
| PermissionMatch.CheckSplit | InsuranceClaimsUser/models.py:75-90 | the whole key's entry answers first; whatever the answer, it is the value of some candidate prefix's entry or of the wildcard |
| PermissionMatch.CheckKey | InsuranceClaimsUser/models.py:58-59 | the matching of a split key satisfies the declarative prefix rule: the longest prefix with an entry decides, else the wildcard, else false |
| PermissionMatch.PrefixRuleDecidesUniquely | InsuranceClaimsUser/models.py:75-90 | the prefix rule admits exactly one answer for any segments and table, so it describes the matching completely |
| PermissionMatch.LongestEntryExists | InsuranceClaimsUser/models.py:84-88 | when some candidate key has an entry, a longest one with an entry exists, the one the shortening loop stops at |
| PermissionMatch.PrefixOfPrefix | InsuranceClaimsUser/models.py:84-88 | dropping trailing segments leaves the shorter candidate keys unchanged |
| OrmPermissions.CollectFrom | InsuranceClaimsUser/models.py:61-73 | flattening into any starting dict overlays the role's flattened table on that dict |
| OrmPermissions.CollectParentsFrom | InsuranceClaimsUser/models.py:70-71 | the loop over parents, started from any dict, overlays their tables on it |
| OrmPermissions.Collect | InsuranceClaimsUser/models.py:61-73 | walking a role into a dict keeps every key already there and adds every key the role grants itself |
| OrmPermissions.CollectParents | InsuranceClaimsUser/models.py:70-71 | the loop over `extends` keeps every key already in the dict and adds every key each listed parent grants itself |
| OrmPermissions.AllRolePermissions | InsuranceClaimsUser/models.py:61-73 | the flattened table holds every key the role grants itself and every key each direct parent grants itself |
| OrmPermissions.ResolvedIsOwnThenParents | InsuranceClaimsUser/models.py:61-73 | a role's table is its own grants overwritten by each parent's flattened table, in `extends` order |
| OrmPermissions.CollectParentsIsOverlay | InsuranceClaimsUser/models.py:70-71 | the recursive parent loop equals the independent overlay definition |
| OrmPermissions.OverlayValue | InsuranceClaimsUser/models.py:66-71 | in the overlay, a key takes the value of the last parent whose table holds it, else the starting dict's value |
| OrmPermissions.ResolvedKeys | InsuranceClaimsUser/models.py:61-73 | the flattened table holds exactly the grant names of the roles reachable through `extends` |
| OrmPermissions.InheritedGrantPresent | InsuranceClaimsUser/models.py:61-73 | a grant of any reachable ancestor appears in the flattened table |
| OrmPermissions.LaterParentWins | InsuranceClaimsUser/models.py:70-71 | a key in parent j's table and in no later parent's table takes parent j's value, overriding the child's own grant |
| OrmPermissions.OwnGrantKeptWhenUnshadowed | InsuranceClaimsUser/models.py:66-67 | a role's own grant survives exactly when no parent's table holds the key |
| OrmPermissions.CheckPermission | InsuranceClaimsUser/models.py:50-59 | a user without a role is refused; otherwise the flattened table answers by the prefix rule (longest prefix with an entry, else `.*`), so an entry for the exact key decides |
| OrmPermissions.RaiseWithoutPermission | InsuranceClaimsUser/models.py:92-94 | the error is raised exactly when the check fails, and its message names the key |
| OrmPermissions.PermissionString | InsuranceClaimsUser/models.py:40-42 | an allowed grant prints as its name; a denied grant prints as `~` followed by its name |
| OrmPermissions.CreateUser | InsuranceClaimsUser/models.py:8-14 | creation fails exactly for an empty username, with the source's message; otherwise the fields are taken from the arguments |
| OrmPermissions.CreateSuperuser | InsuranceClaimsUser/models.py:16-26 | creation succeeds iff the username is non-empty and neither flag is explicitly false; the staff check comes first; a created superuser is staff, superuser and has no role |
| OrmScenarios.TestRoleTable | InsuranceClaimsUser/tests.py:106-134 | the test fixture's role resolves granted, denied, nested and inherited keys to the values the tests expect |
| OrmScenarios.GrantedDeniedNestedInherited | InsuranceClaimsUser/tests.py:114-134 | the test user is allowed the granted, nested and inherited keys and refused the denied one |
| OrmScenarios.NoRoleRefused | InsuranceClaimsUser/tests.py:106-112 | a user without a role is refused |
| OrmScenarios.WildcardAllowsUnlistedKey | InsuranceClaimsUser/tests.py:140-146 | an allowing `.*` lets through a key no prefix of which is listed |
| OrmScenarios.ParentAllowOverridesChildDeny | InsuranceClaimsUser/models.py:66-71 | a child's deny is overwritten by its parent's allow of the same key, the opposite of what the shadowed precedence test at `InsuranceClaimsUser/tests.py` line 148 expects |
| YamlRoles.Put | src/user/Role.py:113-115 | a dict write stores the value and keeps the first-insertion key order |
| YamlRoles.AddPermission | src/user/Role.py:111-115 | a grant entry keeps the dict well formed and only adds keys |
| YamlRoles.AddPermissionList | src/user/Role.py:107-109 | a grant list keeps the dict well formed and only adds keys |
| YamlRoles.ListPresence | src/user/Role.py:107-115 | after a list, a key is present iff it was present before or some entry names it |
| YamlRoles.UnnamedKeyKept | src/user/Role.py:107-115 | a key no entry of the list names keeps its earlier value |
| YamlRoles.LastEntryDecides | src/user/Role.py:107-115 | the last entry naming a key decides it: `~k` denies `k`, any other entry allows it |
| YamlRoles.NewRole | src/user/Role.py:64-69 | a new role's keys are exactly the keys its entries name, with `~` removed |
| YamlRoles.CheckPermission | src/user/Role.py:71-91 | the role's own dict answers by the prefix rule: the longest prefix with an entry decides, else `.*`, else false; so an entry for the exact key decides |
| YamlRoles.GetAllPermissions | src/user/Role.py:99-100 | the result lists every key of the role exactly once, with no allow or deny marker |
| YamlRoles.GetById | src/user/Role.py:60-62 | a registered id gives its role; an unregistered id gives nothing |
| YamlRoles.ExtendAll | src/user/Role.py:44-58 | extension succeeds iff every parent is registered, and then appends the parents' key names after the child's list in parent order; an unknown parent is an error naming the first unknown parent in `extends` order |
| YamlRoles.HandleExtends | src/user/Role.py:44-50 | no `extends` leaves the list as it is; a single id or a list succeeds iff every named parent is registered, and then the parents' keys are appended in order |
| YamlRoles.LoadRoleFile | src/user/Role.py:36-40 | loading succeeds iff every parent is registered; it adds or replaces exactly the file's id and leaves every other role alone |
| YamlRoles.LoadRoles | src/user/Role.py:13-22 | files load in order, each into the registry the earlier ones built: a first file that fails to load fails the run; on success the registered ids are exactly the earlier ids plus the files' ids, no earlier id is lost, an id no file names keeps its role, and the last file naming an id decides the id and name registered there (`_roles[id] = role` replaces) |
| YamlRoles.LoadRolesAppend | src/user/Role.py:18-20 | loading two lists one after the other is loading their concatenation; a failure in the first list is the failure of the whole |
| YamlRoles.LoadRolesFirstFileKept | src/user/Role.py:39-40 | a file whose id no later file names keeps the role it registered to the end of the run |
| YamlRoles.LoadRolesLastFileDecides | src/user/Role.py:18-40 | the last file naming an id decides its whole role: that file's own entries followed by its parents' keys as registered by the files before it |
| YamlRoles.ParentKeysAllowed | src/user/Role.py:36-58 | every key a parent holds is allowed in the child, even when the child's own list denies it |
| YamlRoles.OwnEntryDecidesUninheritedKey | src/user/Role.py:36-40 | a key no parent holds takes the value of the child's own last entry for it |
| YamlRoles.TransitiveInheritance | src/user/Role.py:53-58 | a grandparent's key is allowed in the grandchild, because the parent's table is already flattened |
| YamlRoles.DenyShapedParentKeyFlips | src/user/Role.py:58 | a parent key that itself starts with `~` is re-read as a deny in the child |
| YamlRoles.GrantTextRoundTrip | src/user/Role.py:111-115 | reading back the printed form of a grant gives the same name and allow value |
| AccountViews.HasPermission | InsuranceClaimsUser/views.py:54-60 | a superuser passes every key; anyone else passes exactly when the resolver allows the key; a non-superuser without a role passes nothing |
| AccountViews.PermissionRequired | InsuranceClaimsUser/views.py:67-132 | the list, create and delete views of users ask for `account.view.all`, `account.create` and `account.delete.all`; both role views ask for `role.view.all` |
| AccountViews.MixinAccess | InsuranceClaimsUser/views.py:54-132 | anonymous visitors are sent to log in; a superuser is let into every mixin view; anyone else is let in iff the resolver allows the view's key, and a role-less non-superuser never |
| AccountViews.RoleViewsAgree | InsuranceClaimsUser/views.py:121-132 | the role list and role detail let in exactly the same visitors |
| AccountViews.UserListLikeOthersDetail | InsuranceClaimsUser/views.py:63-85 | a visitor gets the user list iff the detail test passes on someone else's pk |
| AccountViews.Guard | InsuranceClaimsUser/views.py:62-63 | anonymous visitors are sent to the login page; a logged-in visitor is granted iff the view's test passes |
| AccountViews.SelfOrAllAsWritten | InsuranceClaimsUser/views.py:75-84 | with the int argument the routes deliver, a non-superuser is always checked against the all key |
| AccountViews.UserDetailTestAsWritten | InsuranceClaimsUser/views.py:75-84 | the detail test as written checks `account.view.all` for every int argument |
| AccountViews.UserUpdateTestAsWritten | InsuranceClaimsUser/views.py:101-110 | the update test as written checks `account.update.all` for every int argument |
| AccountViews.SelfOrAll | InsuranceClaimsUser/views.py:75-84 | with the intended comparison, a non-superuser is checked against the self key on their own id and the all key otherwise |
| AccountViews.IsSelfAsWritten | InsuranceClaimsUser/views.py:80 | only a string argument can match; a match names the user's own pk, and the user's decimal pk as a string matches |
| AccountViews.IsSelf | InsuranceClaimsUser/views.py:80 | an int argument matches iff it equals the user's pk; a string argument matches as in the written comparison; a missing one never |
| AccountViews.UserDetailTest | InsuranceClaimsUser/views.py:75-85 | with the intended comparison: superusers pass; others need `account.view.self` on their own pk and `account.view.all` otherwise |
| AccountViews.UserUpdateTest | InsuranceClaimsUser/views.py:100-110 | with the intended comparison: superusers pass; others need `account.update.self` on their own pk and `account.update.all` otherwise |
| AccountViews.SelfComparisonsAgreeOnStrings | InsuranceClaimsUser/views.py:80 | the written and intended self comparisons agree on every string argument |
| AccountViews.OwnProfileRefusedAsWritten | InsuranceClaimsUser/views.py:80 | a user holding only the self keys is refused their own profile in both views, as written |
| AccountViews.OwnProfileAllowedWhenCorrected | InsuranceClaimsUser/views.py:75-110 | with the corrected comparison that user reaches their own profile in both views and nobody else's |
| MlViews.RequiredKey | InsuranceClaimsML/views.py:14-50 | listing needs `ml.view`, uploading `ml.upload`, and deleting and updating a model both need `ml.update` |
| MlViews.MlViewTest | InsuranceClaimsML/views.py:14-50 | a user without a role is refused every ML view; otherwise the flattened table answers the view's key by the prefix rule, so an entry for the exact key decides |
| MlViews.NoSuperuserBypass | InsuranceClaimsML/views.py:14-50 | the superuser flag does not change the outcome of any ML view test |
| MlViews.DeleteGatedOnUpdate | InsuranceClaimsML/views.py:49-50 | deleting needs exactly what updating needs |
| MlViews.DeleteGrantAloneCannotDelete | InsuranceClaimsML/views.py:49-50 | a role holding only `ml.delete` cannot delete a model |
| MlViews.UploadFormValid | InsuranceClaimsML/views.py:26-29 | the uploaded model is stored under its new key with the requesting user as owner, so its upload path exists |
| MlViews.UploadStoredUnderUploader | InsuranceClaimsML/views.py:26-29 | the uploaded file's path reads back as the uploader's id and the file name |
| MlModels.NewModel | InsuranceClaimsML/models.py:9-18 | a new model is inactive and has no owner |
| MlModels.DeactivateOthers | InsuranceClaimsML/models.py:29 | every other model loses its active flag and nothing else; the saved key is untouched |
| MlModels.Save | InsuranceClaimsML/models.py:26-30 | saving an active model leaves it the only active one; saving an inactive one changes no other model; other models change at most in their active flag |
| MlModels.SavePreservesSingleActive | InsuranceClaimsML/models.py:26-30 | every save keeps at most one model active |
| MlModels.SavedActiveIsTheActiveOne | InsuranceClaimsML/models.py:26-30 | after saving an active model, the set of active models is exactly that model |
| MlModels.UploadPath | InsuranceClaimsML/models.py:5-7 | a path exists iff the model has an owner, and it starts with `ml_models/user_` |
| MlModels.UploadPathRoundTrip | InsuranceClaimsML/models.py:5-7 | reading the path back gives the owner id and the file name |
| MlModels.ParseUploadPath | InsuranceClaimsML/models.py:5-7 | a path that parses starts with `ml_models/user_`, and the file name read back is the text after a `/` at the end of the path |
| MlModels.UploadPathsSeparateOwners | InsuranceClaimsML/models.py:5-7 | different owners never share an upload path |
| MlModels.CleanModelFile | InsuranceClaimsML/forms.py:13-23 | a missing file passes; a bad extension is refused first, then a size above 100 MiB; a file that passes is returned unchanged |
| MlModels.Extension | InsuranceClaimsML/forms.py:17 | the extension holds no dot, is already lower case, and is never longer than the name |
| MlModels.ExtensionAfterLastDot | InsuranceClaimsML/forms.py:17 | the extension is the lower-cased text after the last dot |
| MlModels.DotlessNameIsExtension | InsuranceClaimsML/forms.py:17 | a name without a dot is its own extension |
| MlModels.UpperCaseExtensionAccepted | InsuranceClaimsML/forms.py:17-18 | `m.PKL` is accepted |
| MlModels.BareExtensionNameAccepted | InsuranceClaimsML/forms.py:17-18 | a file named just `pkl` is accepted |
| MlModels.SizeLimitInclusive | InsuranceClaimsML/forms.py:21-22 | exactly 100 MiB is accepted and one byte more is refused |
| MlModels.ExtensionErrorFirst | InsuranceClaimsML/forms.py:18-22 | a wrong extension is reported even when the size is also too large |
| Decorators.GroupRequired | InsuranceClaimsUser/decorators.py:6-22 | anonymous visitors go to the login page; a logged-in visitor runs the view iff they are in some listed group, and is denied otherwise |
| Decorators.AnyListed | InsuranceClaimsUser/decorators.py:17 | the scan over the names finds a match iff some listed name is a group of the visitor |
| Decorators.NoNamesDeniesEveryone | InsuranceClaimsUser/decorators.py:17-18 | with no names listed every logged-in visitor is denied |
| Decorators.CategoryOf | InsuranceClaimsUser/decorators.py:24-34 | a role name falls in the category whose name equals its lower-cased form, and in none when no category name does |
| Decorators.IsAdmin | InsuranceClaimsUser/decorators.py:24-25 | `is_admin` holds iff the visitor is a superuser or the role name falls in the admin category |
| Decorators.IsFinance | InsuranceClaimsUser/decorators.py:27-28 | `is_finance` holds iff the role name falls in the finance category |
| Decorators.IsCustomer | InsuranceClaimsUser/decorators.py:30-31 | `is_customer` holds iff the role name falls in the customer category |
| Decorators.IsAiEngineer | InsuranceClaimsUser/decorators.py:33-34 | `is_ai_engineer` holds iff the role name falls in the `ai engineer` category |
| Decorators.AtMostOneRolePredicate | InsuranceClaimsUser/decorators.py:24-34 | a non-superuser satisfies at most one predicate |
| Decorators.PredicatesIgnoreCase | InsuranceClaimsUser/decorators.py:24-34 | lower-casing the role name changes no predicate |
| Decorators.PredicatesDoNotTrim | InsuranceClaimsUser/decorators.py:27-28 | ` finance` is not finance while `FINANCE` is |
| Decorators.RoleRequired | InsuranceClaimsUser/decorators.py:36-46 | a logged-in visitor runs the view iff the predicate holds and is sent to the login page otherwise; an anonymous visitor has no role attribute |
| Decorators.RoleRequiredFollowsCategory | InsuranceClaimsUser/decorators.py:24-46 | a logged-in visitor passes a wrapper iff their role name is in its category, or, for the admin wrapper, they are a superuser |
| GroupTags.HasGroup | InsuranceClaimsUser/templatetags/group_tags.py:7-16 | true iff the visitor is logged in and in the group |
| GroupTags.HasGroupIsSingletonAll | InsuranceClaimsUser/templatetags/group_tags.py:7-38 | `has_group` on a name agrees with `has_all_groups` on the one-name list |
| GroupTags.HasGroupIsAnyWithoutComma | InsuranceClaimsUser/templatetags/group_tags.py:7-27 | on a name without a comma, `has_group` and `has_any_group` agree |
| GroupTags.HasAnyGroup | InsuranceClaimsUser/templatetags/group_tags.py:18-27 | false for anonymous visitors; otherwise true iff some comma-separated piece, untrimmed, is a group of the visitor |
| GroupTags.AllListed | InsuranceClaimsUser/templatetags/group_tags.py:38 | the scan holds iff every listed name is a group of the visitor |
| GroupTags.HasAllGroups | InsuranceClaimsUser/templatetags/group_tags.py:29-38 | false for anonymous visitors; otherwise true iff every listed name is a group of the visitor |
| GroupTags.SpaceAfterCommaIsPartOfName | InsuranceClaimsUser/templatetags/group_tags.py:27 | for a visitor in `finance` only, `"admin, finance"` fails while `"admin,finance"` passes |
| GroupTags.NoNamesAllGroups | InsuranceClaimsUser/templatetags/group_tags.py:38 | with no names, `has_all_groups` holds for every logged-in visitor |
| GroupTags.GetVisibleLinks | InsuranceClaimsUser/templatetags/group_tags.py:40-86 | no links for anonymous visitors; otherwise the three common links come first, then the customer, finance, ai_engineer and admin blocks in that order, each present iff the visitor is in that group; the length is 3, plus 2 for the customer group and 3 for each of the other groups |
| GroupTags.CountNamedAppend | InsuranceClaimsUser/templatetags/group_tags.py:52-84 | counting links by name distributes over concatenation |
| GroupTags.AllRecordsOncePerGroup | InsuranceClaimsUser/templatetags/group_tags.py:69-83 | "All Records" appears once for each of the finance, ai_engineer and admin groups the visitor is in |
| GroupTags.AiEngineerRoleGroupGetsNoAiLinks | InsuranceClaimsUser/templatetags/group_tags.py:72 | a visitor whose only group is `ai engineer`, the role name, sees only the common links |
| Middleware.Gate | InsuranceClaimsUser/middleware.py:8-21 | logged-in requests pass; an anonymous request passes iff its path is exactly the login, signup or home path |
| Middleware.SubPathsAreNotPublic | InsuranceClaimsUser/middleware.py:17 | any path that extends a public path, and the login path without its slash, redirects an anonymous request |
| UserForms.FirstAdmin | InsuranceClaimsUser/forms.py:103 | the first row in key order named exactly `admin`, and none iff no row is |
| UserForms.WithoutAdmin | InsuranceClaimsUser/forms.py:111 | the rows not named `admin`, every other row kept |
| UserForms.RoleFieldFor | InsuranceClaimsUser/forms.py:96-111 | a superuser or missing editor sees all roles; for any other editor the field is disabled iff the edited user's role is the admin role, and otherwise offers every role not named `admin` |
| UserForms.NoAdminRoleDisablesFieldForRoleless | InsuranceClaimsUser/forms.py:101-107 | when no admin role exists, a role-less user's field is disabled for a non-superuser editor |
| UserForms.CleanRole | InsuranceClaimsUser/forms.py:113-136 | an empty choice keeps the old role; an admin keeps their role under a non-superuser editor, and a superuser editor's choice is saved; a promotion to admin fails iff the editor is neither superuser nor admin, and is saved otherwise; any other choice is saved; a branch that needs the editor fails without one |
| UserForms.OnlyAdminsPromote | InsuranceClaimsUser/forms.py:131-134 | an editor who is neither superuser nor admin never makes a non-admin admin |
| UserForms.OnlySuperusersDemote | InsuranceClaimsUser/forms.py:125-128 | only a superuser changes an admin's role |
| UserForms.NoAdminRoleFreezesRoleless | InsuranceClaimsUser/forms.py:125-128 | when no admin role exists, a non-superuser cannot give a role-less user any role |
| UserForms.CleanFullNameField | InsuranceClaimsUser/forms.py:138-141 | the field passes iff the validator accepts the name, with the validator's message otherwise; the saved name has the same words, single-spaced |
| UserForms.SavedNameIsCleanedOnce | InsuranceClaimsUser/forms.py:138-141 | a saved name is already in clean form |
| UserForms.CleanProfilePassword | InsuranceClaimsUser/forms.py:161-181 | nothing changes iff all three fields are empty; otherwise the checks run in order: a missing field, then a wrong current password, then a mismatch, then strength; a new password is set only after all pass |
| UserForms.WeakPasswordReportedLast | InsuranceClaimsUser/forms.py:167-177 | a weak password is reported only once the earlier checks pass |
| Validators.Core | InsuranceClaimsUser/utils.py:24 | the string without one trailing newline, which is where `$` can match |
| Validators.RunLength | InsuranceClaimsUser/utils.py:24 | the longest prefix of characters in a class |
| Validators.RunToDollar | InsuranceClaimsUser/utils.py:24 | a class run followed by `$` matches iff every character before an optional final newline is in the class |
| Validators.ValidateUsername | InsuranceClaimsUser/utils.py:17-26 | the username passes iff it is a string meeting the length and pattern rules; the type, short, long and pattern errors come in that order |
| Validators.UsernamePatternMatch | InsuranceClaimsUser/utils.py:24 | a match starts with an ASCII letter, and a letter followed only by letters, digits, `-` and `_` always matches |
| Validators.UsernameCheckMeaning | InsuranceClaimsUser/utils.py:24-25 | the pattern and forbidden-character checks together accept exactly a letter followed by letters, digits, `-` or `_` |
| Validators.UsernameRejectsTrailingNewline | InsuranceClaimsUser/utils.py:24-25 | `alice\n` matches the pattern but is refused by the second check |
| Validators.LookaheadOnCore | InsuranceClaimsUser/utils.py:33 | each lookahead finds its class iff the core holds a character of it |
| Validators.PasswordPatternMeaning | InsuranceClaimsUser/utils.py:8-11 | the password pattern matches iff the core has a lower-case letter, an upper-case letter, a digit and a special, and only those classes |
| Validators.PasswordPatternMatch | InsuranceClaimsUser/utils.py:10-11 | a matching password holds a lower-case letter, an upper-case letter, a digit and a special character |
| Validators.ValidatePassword | InsuranceClaimsUser/utils.py:28-35 | the password passes iff its length is 8 to 100 and the pattern matches; the short, long and pattern errors come in order |
| Validators.PasswordExamples | InsuranceClaimsUser/utils.py:28-35 | `TestPass123!` passes, with or without a trailing newline; `weak` is too short |
| Validators.CollapseKeepsOthers | InsuranceClaimsUser/utils.py:38 | the double-space replacement keeps every non-space character, in order |
| Validators.CollapseIsSinglePass | InsuranceClaimsUser/utils.py:38 | the replacement is one pass: three spaces become two |
| Validators.CollapseDoubleSpaces | InsuranceClaimsUser/utils.py:38 | the replacement never lengthens the name; CollapseSpacesRun and CollapseSplitsAtNonSpace fix its value on every string |
| Validators.CollapseSpacesRun | InsuranceClaimsUser/utils.py:38 | a run of n spaces keeps (n + 1) / 2 of them: four become two, three become two |
| Validators.CollapseSplitsAtNonSpace | InsuranceClaimsUser/utils.py:38 | a character other than a space ends every run, so the replacement works on each side of it independently |
| Validators.NameBacktrackMeaning | InsuranceClaimsUser/utils.py:43 | the backtracking over the middle class agrees with the shape rule |
| Validators.FullNamePatternMeaning | InsuranceClaimsUser/utils.py:13-15 | the name pattern matches iff the core starts and ends with a letter and has only letters, spaces and `-` between |
| Validators.FullNamePatternMatch | InsuranceClaimsUser/utils.py:15 | a matching name has at least two characters and starts with an ASCII letter |
| Validators.ValidateFullName | InsuranceClaimsUser/utils.py:37-45 | after the replacement, the name passes iff its length is 2 to 50 and the pattern matches; the short, long and pattern errors come in that order |
| Validators.CollapseWithoutDoubleSpace | InsuranceClaimsUser/utils.py:38 | a name with no double space is left unchanged |
| Validators.PlainFullNameAccepted | InsuranceClaimsUser/utils.py:37-45 | `Test User` passes |
| Validators.FullNameTrailingNewlineAccepted | InsuranceClaimsUser/utils.py:43 | `Test User` with a trailing newline passes |
| Validators.FullNameLeadingSpaceRejected | InsuranceClaimsUser/utils.py:43 | ` Test User` is refused |
| Validators.CleanFullName | InsuranceClaimsUser/utils.py:47-48 | the result has the same words as the input, single-spaced |
| Validators.CleanFullNameIdempotent | InsuranceClaimsUser/utils.py:47-48 | cleaning twice is cleaning once |
| Validators.CleanFullNameHasNoDoubleSpace | InsuranceClaimsUser/utils.py:47-48 | the result has no two adjacent spaces and no leading whitespace |
| CsvImport.ParseBooleanAsWritten | InsuranceClaimsRecords/management/commands/import_csv.py:7-10 | a string is true iff its stripped, lower-cased form is `yes`, `true` or `1`; a missing cell is false; a number is true iff non-zero |
| CsvImport.EmptyCellReadAsTrue | InsuranceClaimsRecords/management/commands/import_csv.py:10 | an empty cell, which pandas reads as NaN, is read as true, while an empty string is false |
| CsvImport.ParseBoolean | InsuranceClaimsRecords/management/commands/import_csv.py:7-10 | an empty cell is false; every other value reads as the code reads it |
| CsvImport.TrueHasAReason | InsuranceClaimsRecords/management/commands/import_csv.py:7-10 | a true reading always comes from a true word or a non-zero number |
| CsvImport.StripPadded | InsuranceClaimsRecords/management/commands/import_csv.py:9 | surrounding whitespace does not change what `strip` returns |
| CsvImport.ParseBooleanIgnoresPadding | InsuranceClaimsRecords/management/commands/import_csv.py:9 | surrounding whitespace does not change the reading |
| CsvImport.StripLower | InsuranceClaimsRecords/management/commands/import_csv.py:9 | lower-casing and stripping commute |
| CsvImport.ParseBooleanIgnoresCase | InsuranceClaimsRecords/management/commands/import_csv.py:9 | two strings equal up to case read the same |
| CsvImport.SpacesToUnderscores | InsuranceClaimsRecords/management/commands/import_csv.py:52 | no space is left: each space becomes `_` and every other character stays in place |
| CsvImport.KeepHeaderChars | InsuranceClaimsRecords/management/commands/import_csv.py:52 | the filter keeps exactly the `[a-z0-9_]` characters, never lengthening the string |
| CsvImport.KeepHeaderCharsAppend | InsuranceClaimsRecords/management/commands/import_csv.py:52 | the filter of a concatenation is the concatenation of the filters, so the kept characters keep their order |
| CsvImport.KeepHeaderCharsOne | InsuranceClaimsRecords/management/commands/import_csv.py:52 | a single character is kept iff it is in `[a-z0-9_]` |
| CsvImport.KeepHeaderCharsOfHeader | InsuranceClaimsRecords/management/commands/import_csv.py:52 | a string of `[a-z0-9_]` characters passes the filter unchanged |
| CsvImport.NormalizeHeader | InsuranceClaimsRecords/management/commands/import_csv.py:52 | a normalised header contains only `[a-z0-9_]` |
| CsvImport.CleanAppend | InsuranceClaimsRecords/management/commands/import_csv.py:52 | lower-casing, the space replacement and the filter together work character by character |
| CsvImport.InnerSpaceBecomesUnderscore | InsuranceClaimsRecords/management/commands/import_csv.py:52 | a space inside the stripped name becomes `_`, between the normalised text before and after it |
| CsvImport.NormalizeHeaderIgnoresPadding | InsuranceClaimsRecords/management/commands/import_csv.py:52 | surrounding whitespace does not change a header |
| CsvImport.NormalizeHeaderIgnoresCase | InsuranceClaimsRecords/management/commands/import_csv.py:52 | letter case does not change a header |
| CsvImport.HeaderFixedPoint | InsuranceClaimsRecords/management/commands/import_csv.py:52 | a string of header characters is its own normal form |
| CsvImport.NormalizeHeaderIdempotent | InsuranceClaimsRecords/management/commands/import_csv.py:52 | normalising twice is normalising once |
| CsvScenarios.TrueWordsRead | InsuranceClaimsRecords/management/commands/import_csv.py:9 | `Yes`, `TRUE` and `1` read as true |
| CsvScenarios.ShortWordsRead | InsuranceClaimsRecords/management/commands/import_csv.py:9 | `y`, `on` and the empty string read as false |
| CsvScenarios.FalseWordsRead | InsuranceClaimsRecords/management/commands/import_csv.py:9 | `no` and `0` read as false |
| CsvScenarios.DominantInjuryHeader | InsuranceClaimsRecords/management/commands/import_csv.py:52-80 | `Dominant injury` normalises to the lookup key `dominant_injury` |
| CsvScenarios.SettlementValueHeader | InsuranceClaimsRecords/management/commands/import_csv.py:52-58 | `SettlementValue` normalises to the lookup key `settlementvalue` |
| CsvScenarios.PunctuationDropped | InsuranceClaimsRecords/management/commands/import_csv.py:52 | punctuation is dropped: `x-y` normalises to `xy` |
| RoleSync.CanonicalRoleNames | InsuranceClaimsUser/management/commands/sync_roles_and_groups.py:18-25 | every role name becomes its stripped, lower-cased form, nothing else changes, and an already canonical role is untouched |
| RoleSync.UnknownRoles | InsuranceClaimsUser/management/commands/sync_roles_and_groups.py:20-21 | the warned roles are those whose canonical name is not in the canonical list |
| RoleSync.WarningsStable | InsuranceClaimsUser/management/commands/sync_roles_and_groups.py:20-25 | renaming the roles does not change which roles are warned about |
| RoleSync.RenameGroupsFrom | InsuranceClaimsUser/management/commands/sync_roles_and_groups.py:28-33 | each group from the current one on is renamed to its canonical name; a rename fails only when two groups share a canonical name |
| RoleSync.RenameGroups | InsuranceClaimsUser/management/commands/sync_roles_and_groups.py:28-33 | on success every group has its canonical name; a failure means two groups share a canonical name |
| RoleSync.RenameGroupsSucceedsIff | InsuranceClaimsUser/management/commands/sync_roles_and_groups.py:28-33 | renaming distinct groups succeeds iff their canonical names are distinct |
| RoleSync.RenameCanonicalGroupsFrom | InsuranceClaimsUser/management/commands/sync_roles_and_groups.py:30 | groups already canonical are left alone |
| RoleSync.FindGroup | InsuranceClaimsUser/management/commands/sync_roles_and_groups.py:42 | the first group with the name, and none iff no group has it |
| RoleSync.GetOrCreate | InsuranceClaimsUser/management/commands/sync_roles_and_groups.py:42 | an existing group is reused; otherwise one group with a fresh id is appended; either way the named group exists afterwards |
| RoleSync.SyncAccount | InsuranceClaimsUser/management/commands/sync_roles_and_groups.py:36-52 | a user without a role is skipped; any other user ends in the group named after their canonical role, and new groups name a role |
| RoleSync.SyncAccountsFrom | InsuranceClaimsUser/management/commands/sync_roles_and_groups.py:36-52 | the loop syncs every user from the current one on, skips role-less users, and only appends groups named after roles |
| RoleSync.SyncSyncedAccounts | InsuranceClaimsUser/management/commands/sync_roles_and_groups.py:36-52 | already synced users and groups are left as they are |
| RoleSync.Sync | InsuranceClaimsUser/management/commands/sync_roles_and_groups.py:16-54 | role names become canonical, existing groups are renamed, every user with a role is synced, role-less users keep their groups, and a failure means two groups clash |
| RoleSync.SyncedGroupsCanonical | InsuranceClaimsUser/management/commands/sync_roles_and_groups.py:28-52 | after the command every group name is canonical |
| RoleSync.SyncChangesOnlyGroups | InsuranceClaimsUser/management/commands/sync_roles_and_groups.py:36-52 | the command changes no user field but the groups |
| RoleSync.OneGroupPerUser | InsuranceClaimsUser/management/commands/sync_roles_and_groups.py:40-52 | a user with a role ends in exactly one group, the one named after their canonical role |
| RoleSync.SyncIdempotent | InsuranceClaimsUser/management/commands/sync_roles_and_groups.py:16-54 | running the command twice gives the state of running it once |
| RoleSeeding.FindRole | InsuranceClaimsUser/apps.py:64 | the lowest id in range with the name, and one exists iff some role in range has it |
| RoleSeeding.Lookup | InsuranceClaimsUser/apps.py:64 | a lookup by name finds the only such role, or none; two or more is an error |
| RoleSeeding.GetOrCreateRole | InsuranceClaimsUser/apps.py:64 | an existing role is reused; otherwise one empty role with a fresh id is added; afterwards the lookup finds it and no other role changed |
| RoleSeeding.AddGrants | InsuranceClaimsUser/apps.py:69-74 | an existing grant keeps its value; a new grant is added as allowed; the keys are the old ones plus the listed names |
| RoleSeeding.AddGrantsPresent | InsuranceClaimsUser/apps.py:69-74 | adding grants that are all present already changes nothing |
| RoleSeeding.SeedRole | InsuranceClaimsUser/apps.py:63-76 | seeding one role fails exactly when its lower-cased name is ambiguous, and otherwise keeps every existing role's name and parents |
| RoleSeeding.SeedRoleEstablishes | InsuranceClaimsUser/apps.py:63-76 | after seeding a role, its lower-cased name finds a role holding every configured grant |
| RoleSeeding.SeedRoleCreates | InsuranceClaimsUser/apps.py:63-76 | on a database without the role, seeding adds it under the next id, with every configured grant allowed |
| RoleSeeding.SeedRoleConfigured | InsuranceClaimsUser/apps.py:63-76 | seeding an already configured role changes nothing |
| RoleSeeding.SeedRoles | InsuranceClaimsUser/apps.py:63-76 | seeding the roles keeps the users and every existing role's name and parents |
| RoleSeeding.SeedRolesEstablishes | InsuranceClaimsUser/apps.py:63-76 | after seeding every configured role is present with its grants |
| RoleSeeding.SeedRolesSeeded | InsuranceClaimsUser/apps.py:63-76 | seeding an already seeded database changes nothing |
| RoleSeeding.AssignAdminTo | InsuranceClaimsUser/apps.py:79-84 | every superuser without a role gets the given admin role; a superuser with a role and every other user are untouched; only the role field changes |
| RoleSeeding.AssignAdmin | InsuranceClaimsUser/apps.py:79-84 | the assignment needs exactly one role named admin, and changes only the users |
| RoleSeeding.AssignAdminGivesFoundRole | InsuranceClaimsUser/apps.py:79-84 | after the superuser loop `get` still finds the same admin role, and every role-less superuser holds it |
| RoleSeeding.AssignAdminKeepsSeeded | InsuranceClaimsUser/apps.py:14-84 | the superuser loop after the role loop keeps every configured role in place and hands the admin role to every role-less superuser |
| RoleSeeding.ConfiguredNamesLower | InsuranceClaimsUser/apps.py:16-64 | every configured role name is already lower case |
| RoleSeeding.Seed | InsuranceClaimsUser/apps.py:14-84 | after seeding every configured role is present with its grants, each superuser who had no role holds the role that `get(name="admin")` finds, every other user is untouched, and no earlier role is lost |
| RoleSeeding.SeedIdempotent | InsuranceClaimsUser/apps.py:14-84 | seeding twice gives the state of seeding once |
| SeedingScenarios.SeedFreshDatabase | InsuranceClaimsUser/apps.py:14-84 | seeding an empty database creates the four configured roles under ids 0 to 3 and gives every role-less superuser the admin role |
| SeedingScenarios.AdminRoleRefusesClaimsView | InsuranceClaimsUser/apps.py:18-25 | the seeded admin role does not allow `claims.view`: its grants are literal names like `claims.*` |
| SeedingScenarios.AdminRoleAllowsLiteralClaimsStar | InsuranceClaimsUser/apps.py:18-25 | the seeded admin role allows the literal key `claims.*` |
| SeedingScenarios.FinanceRoleAllowsClaimsViewAll | InsuranceClaimsUser/apps.py:27-39 | the seeded finance role allows `claims.view.all` through its `claims.view` grant |
| PyStr.Split | InsuranceClaimsUser/models.py:58 | `str.split` gives at least one piece, two or more when the separator occurs, and no piece holds the separator |
| PyStr.Join | InsuranceClaimsUser/models.py:84 | the join starts with the first piece, contains the separator once there are two pieces, and is at least as long as any piece |
| PyStr.JoinSplit | InsuranceClaimsUser/models.py:58 | joining the pieces of a split gives the string back |
| PyStr.SplitJoin | src/user/Role.py:85 | splitting a join of separator-free pieces gives the pieces back |
| PyStr.LastPieceAfterSep | InsuranceClaimsML/forms.py:17 | the last piece is the text after the last separator |
| PyStr.Words | InsuranceClaimsUser/utils.py:48 | `str.split()` gives non-empty pieces without whitespace; with the three lemmas below and `"".split() == []` its value is fixed on every string |
| PyStr.WordsSkipSpace | InsuranceClaimsUser/utils.py:48 | leading whitespace contributes no word |
| PyStr.WordsOfWordThenSpace | InsuranceClaimsUser/utils.py:48 | a whitespace-free word followed by whitespace is the first piece, and splitting continues after the whitespace |
| PyStr.WordsOfWord | InsuranceClaimsUser/utils.py:48 | a non-empty string without whitespace is a single word |
| PyStr.WordsOfJoin | InsuranceClaimsUser/utils.py:48 | splitting a single-spaced join of words gives the words back |
| PyStr.Strip | InsuranceClaimsUser/management/commands/sync_roles_and_groups.py:19 | a stripped string neither starts nor ends with whitespace |
| PyStr.StripUnpadded | InsuranceClaimsUser/management/commands/sync_roles_and_groups.py:19 | stripping a string without surrounding whitespace changes nothing |
| PyStr.Lower | InsuranceClaimsUser/decorators.py:25 | lower-casing maps each character on its own and keeps the length |
| PyStr.LowerTwice | InsuranceClaimsUser/decorators.py:25 | lower-casing twice is lower-casing once |
| PyStr.Canonical | InsuranceClaimsUser/management/commands/sync_roles_and_groups.py:19 | the canonical form is already lower case, has no whitespace at either end, and is never longer than the name |
| PyStr.CanonicalIdempotent | InsuranceClaimsUser/management/commands/sync_roles_and_groups.py:19 | the stripped, lower-cased form is its own canonical form |
| PyStr.DecimalRoundTrip | InsuranceClaimsUser/views.py:80 | `str` of a non-negative int reads back as that int |
| PyStr.DecimalInjective | InsuranceClaimsUser/views.py:80 | different ids have different decimal strings |

## Left out

- Framework machinery is not modelled: request dispatch, template rendering, redirects, messages and ORM querysets. Users, roles and groups are plain records, maps and sequences.
- Password hashing and `check_password` are not modelled. Whether the current password is correct enters `UserForms.CleanProfilePassword` as a boolean input.
- YAML parsing, directory scanning and file order in `Role.load_roles` are not modelled. `YamlRoles.LoadRoles` takes the parsed files in the order given.
- YamlRoles.LoadRoles: on a failure the model returns the error and no registry. In the source, the files loaded before the failing one stay in the class-level `Role._roles` when the exception propagates (`src/user/Role.py:14-22`).
- The debug `print`s of the YAML variant are not modelled, nor the warnings and messages the commands write.
- An unknown parent in `_extend_permissions` prints a message and then raises `AttributeError` on `None`. The model reports it as an `UnknownParent` error.
- `MLModel.delete` removing the file on disk is not modelled, nor the timestamps and ordering of the model table.
- The numeric and date CSV helpers `safe_int`, `safe_decimal`, `safe_date` and `safe_str` are not modelled. They depend on pandas and floating-point behaviour.
- Numeric CSV cells are reduced to whether they are non-zero, the only thing `parse_boolean` looks at.
- The ML code (the KNN model, the trainers, pickle loading) and the records, claims and feedback CRUD are not modelled.
- The SQL-backed user layer under `src/user` and `src/utils` is not modelled. It is I/O and global state.
- `role_tags.py` is not modelled: it imports a function the utilities do not define.
- PyStr.Lower: `lower()` and `\d` are modelled for ASCII only. Unicode case mapping and Unicode digits are out of scope.
- CsvImport.NormalizeHeader: pandas' Unicode lower-casing is modelled as ASCII lower-casing, like the other string helpers.
- RoleSeeding.AddGrants: the model holds at most one grant row per (name, role) pair, as a map from name to value for each role. `Permission.name` is declared unique across all roles (`InsuranceClaimsUser/models.py:36`); under that declaration, seeding a second role with an already used name such as `claims.view` would fail. The migration `InsuranceClaimsUser/migrations/0002_roles_and_permissions.py:72-76` drops the uniqueness without adding a (name, role) constraint, so a role could then hold two rows with one name. `get_or_create` would then fail with more than one match (`InsuranceClaimsUser/apps.py:70`), and flattening would keep the later row (`InsuranceClaimsUser/models.py:66-67`). The map cannot represent such duplicates.
- RoleSync.Sync: Django's unique group names turn a rename clash into a database error. The model reports it as a `Failure` and does not model the partial rename before it.
- OrmPermissions.Collect: the ghost `rank` argument stands for an acyclic `extends` graph. On a cyclic graph the source recurses without end, and that case is not modelled.
- Decorators.RoleRequired: the anonymous case is modelled as the predicate failing on the missing `role` attribute. In the running application the middleware redirects anonymous visitors before any decorated view, except on the public paths.

## Findings

| source | as written | input that shows it | evidently intended | confidence | as-written member | corrected member |
|---|---|---|---|---|---|---|
| InsuranceClaimsUser/views.py:80 | the self test compares the `pk` URL argument with `str(user.pk)`, but the routes declare `<int:pk>`, so an int is compared with a string and the self branch never fires | a user whose role grants only `account.view.self` and `account.update.self` opens their own detail and update pages, `users/5/`, as user 5: both views check the `.all` key and refuse | a user's own id selects the self key | high (not executed) | AccountViews.OwnProfileRefusedAsWritten | AccountViews.OwnProfileAllowedWhenCorrected |
| InsuranceClaimsRecords/management/commands/import_csv.py:10 | a non-string value goes through `bool(value)`, and pandas reads an empty cell as NaN, where `bool(nan)` is true | an empty `whiplash` cell is imported as `whiplash=True` | an empty cell reads as false, like a missing column | medium (not executed) | CsvImport.EmptyCellReadAsTrue | CsvImport.ParseBoolean |

=== FILE: account_views.dfy ===
/** The access tests of the account views
    (`InsuranceClaimsUser/views.py`): a superuser short-circuit followed by
    a role permission check through the database resolver. The login
    requirement wrapped around every view is `Guard`. */
module AccountViews {
  import opened Results
  import PyStr
  import PermissionMatch
  import opened OrmPermissions

  /** What a guarded view does with a request. */
  datatype Access = RedirectToLogin | Forbidden | Granted

  // The `permission_required` keys of the views that use the mixin's test.
  const UserListKey: string := "account.view.all"
  const UserCreateKey: string := "account.create"
  const UserDeleteKey: string := "account.delete.all"
  const RoleListKey: string := "role.view.all"
  const RoleDetailKey: string := "role.view.all"

  // The keys of the two self-or-all tests.
  const ViewSelfKey: string := "account.view.self"
  const ViewAllKey: string := "account.view.all"
  const UpdateSelfKey: string := "account.update.self"
  const UpdateAllKey: string := "account.update.all"

  /** `HasPermissionMixin.test_func`: a superuser passes every key; anyone
      else passes exactly when the role resolver allows the key, so a
      non-superuser without a role passes nothing. */
  function HasPermission(roles: RoleTable, ghost rank: map<RoleId, nat>, user: User, key: string): (ok: bool)
    requires Ranked(roles, rank) && RoleKnown(roles, user)
    ensures user.isSuperuser ==> ok
    ensures !user.isSuperuser ==> (ok <==> CheckPermission(roles, rank, user, key))
    ensures user.role.None? ==> (ok <==> user.isSuperuser)
  {
    user.isSuperuser || CheckPermission(roles, rank, user, key)
  }

  /** `login_required` around a test: anonymous visitors go to the login
      page, a failed test is a 403. */
  function Guard(visitor: Option<User>, passes: User -> bool): (a: Access)
    ensures a == RedirectToLogin <==> visitor.None?
    ensures a == Granted <==> visitor.Some? && passes(visitor.value)
  {
    match visitor
    case None => RedirectToLogin
    case Some(u) => if passes(u) then Granted else Forbidden
  }

  /** The views whose test is the mixin's own, unchanged. */
  datatype MixinView = UserList | UserCreate | UserDelete | RoleList | RoleDetail

  /** The `permission_required` each mixin view declares. */
  function PermissionRequired(view: MixinView): (key: string)
    ensures view == UserList ==> key == UserListKey
    ensures view == UserCreate ==> key == UserCreateKey
    ensures view == UserDelete ==> key == UserDeleteKey
    ensures view == RoleList ==> key == RoleListKey
    ensures view == RoleDetail ==> key == RoleDetailKey
  {
    match view
    case UserList => UserListKey
    case UserCreate => UserCreateKey
    case UserDelete => UserDeleteKey
    case RoleList => RoleListKey
    case RoleDetail => RoleDetailKey
  }

  /** A mixin view behind `login_required`: anonymous visitors are sent to
      log in; a signed-in visitor is let in when a superuser or when the
      role resolver allows the view's key, and refused with a 403
      otherwise. */
  function MixinAccess(roles: RoleTable, ghost rank: map<RoleId, nat>, visitor: Option<User>, view: MixinView): (a: Access)
    requires Ranked(roles, rank) && (visitor.Some? ==> RoleKnown(roles, visitor.value))
    ensures a == RedirectToLogin <==> visitor.None?
    ensures visitor.Some? && visitor.value.isSuperuser ==> a == Granted
    ensures visitor.Some? && !visitor.value.isSuperuser
            ==> (a == Granted <==> CheckPermission(roles, rank, visitor.value, PermissionRequired(view)))
    ensures visitor.Some? && visitor.value.role.None? ==> (a == Granted <==> visitor.value.isSuperuser)
  {
    match visitor
    case None => RedirectToLogin
    case Some(u) => if HasPermission(roles, rank, u, PermissionRequired(view)) then Granted else Forbidden
  }

  /** The role list and the role detail ask for the same key, so nobody is
      let into one and refused the other. */
  lemma RoleViewsAgree(roles: RoleTable, rank: map<RoleId, nat>, visitor: Option<User>)
    requires Ranked(roles, rank) && (visitor.Some? ==> RoleKnown(roles, visitor.value))
    ensures MixinAccess(roles, rank, visitor, RoleList) == MixinAccess(roles, rank, visitor, RoleDetail)
  {
  }

  /** The `pk` URL argument as the view receives it: the routes declare it
      `<int:pk>`, so it arrives as an int; a string is what the self test
      compares against. */
  datatype UrlArg = IntArg(n: int) | StrArg(s: string) | NoArg

  /** `self.kwargs.get('pk') == str(self.request.user.pk)`: only a string
      argument can equal a string, so an int argument never matches. */
  function IsSelfAsWritten(pk: UrlArg, user: User): (same: bool)
    ensures !pk.StrArg? ==> !same
    ensures same ==> PyStr.AllDigits(pk.s) && PyStr.DecimalValue(pk.s) == user.pk
    ensures pk == StrArg(PyStr.DecimalString(user.pk)) ==> same
  {
    PyStr.DecimalRoundTrip(user.pk);
    pk.StrArg? && pk.s == PyStr.DecimalString(user.pk)
  }

  /** The shape shared by the detail and update tests, as written:
      superuser first, then the self key when the argument is the
      visitor's own pk as a string, otherwise the all key. */
  function SelfOrAllAsWritten(roles: RoleTable, ghost rank: map<RoleId, nat>, user: User, pk: UrlArg,
                              selfKey: string, allKey: string): (ok: bool)
    requires Ranked(roles, rank) && RoleKnown(roles, user)
    ensures user.isSuperuser ==> ok
    ensures !user.isSuperuser && pk.IntArg? ==> (ok <==> CheckPermission(roles, rank, user, allKey))
  {
    if user.isSuperuser then true
    else if IsSelfAsWritten(pk, user) then CheckPermission(roles, rank, user, selfKey)
    else CheckPermission(roles, rank, user, allKey)
  }

  /** `UserDetailView.test_func` as written. */
  function UserDetailTestAsWritten(roles: RoleTable, ghost rank: map<RoleId, nat>, user: User, pk: UrlArg): (ok: bool)
    requires Ranked(roles, rank) && RoleKnown(roles, user)
    ensures user.isSuperuser ==> ok
    ensures !user.isSuperuser && pk.IntArg? ==> (ok <==> CheckPermission(roles, rank, user, ViewAllKey))
  {
    SelfOrAllAsWritten(roles, rank, user, pk, ViewSelfKey, ViewAllKey)
  }

  /** `UserUpdateView.test_func` as written. */
  function UserUpdateTestAsWritten(roles: RoleTable, ghost rank: map<RoleId, nat>, user: User, pk: UrlArg): (ok: bool)
    requires Ranked(roles, rank) && RoleKnown(roles, user)
    ensures user.isSuperuser ==> ok
    ensures !user.isSuperuser && pk.IntArg? ==> (ok <==> CheckPermission(roles, rank, user, UpdateAllKey))
  {
    SelfOrAllAsWritten(roles, rank, user, pk, UpdateSelfKey, UpdateAllKey)
  }

  /** The comparison the self test evidently means: the argument names the
      visitor's own pk, whether it arrives as an int or as its decimal text. */
  function IsSelf(pk: UrlArg, user: User): (same: bool)
    ensures pk.IntArg? ==> (same <==> pk.n == user.pk)
    ensures pk.NoArg? ==> !same
    ensures pk.StrArg? ==> (same <==> IsSelfAsWritten(pk, user))
  {
    match pk
    case IntArg(n) => n == user.pk
    case StrArg(s) => s == PyStr.DecimalString(user.pk)
    case NoArg => false
  }

  /** The self-or-all test with the intended comparison. */
  function SelfOrAll(roles: RoleTable, ghost rank: map<RoleId, nat>, user: User, pk: UrlArg,
                     selfKey: string, allKey: string): (ok: bool)
    requires Ranked(roles, rank) && RoleKnown(roles, user)
    ensures user.isSuperuser ==> ok
    ensures !user.isSuperuser && IsSelf(pk, user) ==> (ok <==> CheckPermission(roles, rank, user, selfKey))
    ensures !user.isSuperuser && !IsSelf(pk, user) ==> (ok <==> CheckPermission(roles, rank, user, allKey))
  {
    if user.isSuperuser then true
    else if IsSelf(pk, user) then CheckPermission(roles, rank, user, selfKey)
    else CheckPermission(roles, rank, user, allKey)
  }

  /** The detail test with the intended self comparison. */
  function UserDetailTest(roles: RoleTable, ghost rank: map<RoleId, nat>, user: User, pk: UrlArg): (ok: bool)
    requires Ranked(roles, rank) && RoleKnown(roles, user)
    ensures user.isSuperuser ==> ok
    ensures !user.isSuperuser && IsSelf(pk, user) ==> (ok <==> CheckPermission(roles, rank, user, ViewSelfKey))
    ensures !user.isSuperuser && !IsSelf(pk, user) ==> (ok <==> CheckPermission(roles, rank, user, ViewAllKey))
  {
    SelfOrAll(roles, rank, user, pk, ViewSelfKey, ViewAllKey)
  }

  /** The update test with the intended self comparison. */
  function UserUpdateTest(roles: RoleTable, ghost rank: map<RoleId, nat>, user: User, pk: UrlArg): (ok: bool)
    requires Ranked(roles, rank) && RoleKnown(roles, user)
    ensures user.isSuperuser ==> ok
    ensures !user.isSuperuser && IsSelf(pk, user) ==> (ok <==> CheckPermission(roles, rank, user, UpdateSelfKey))
    ensures !user.isSuperuser && !IsSelf(pk, user) ==> (ok <==> CheckPermission(roles, rank, user, UpdateAllKey))
  {
    SelfOrAll(roles, rank, user, pk, UpdateSelfKey, UpdateAllKey)
  }

  /** The user list asks for the key that the detail of someone else's
      account asks for: a signed-in visitor gets the list exactly when
      the detail test passes on another user's pk. */
  lemma UserListLikeOthersDetail(roles: RoleTable, rank: map<RoleId, nat>, user: User, pk: UrlArg)
    requires Ranked(roles, rank) && RoleKnown(roles, user)
    requires !IsSelf(pk, user)
    ensures MixinAccess(roles, rank, Some(user), UserList) == Granted <==> UserDetailTest(roles, rank, user, pk)
  {
  }

  /** The two comparisons agree on string arguments; they differ only on
      the int arguments the routes actually deliver. */
  lemma SelfComparisonsAgreeOnStrings(pk: UrlArg, user: User)
    requires !pk.IntArg?
    ensures IsSelfAsWritten(pk, user) <==> IsSelf(pk, user)
  {
  }

  // ------------------------------------------------------------------
  // A visitor who may see and edit only their own account
  // ------------------------------------------------------------------

  /** A role granting only the self keys. */
  function SelfOnlyRoles(): RoleTable
  {
    map[1 := Role("self service", SelfOnlyTableValue(), [])]
  }

  function SelfOnlyRank(): map<RoleId, nat>
  {
    map[1 := 0]
  }

  function SelfOnlyUser(): User
  {
    User(5, "sam", "Sam Lee", false, false, true, Some(1))
  }

  lemma SelfOnlyTable()
    ensures Ranked(SelfOnlyRoles(), SelfOnlyRank())
    ensures AllRolePermissions(SelfOnlyRoles(), SelfOnlyRank(), 1) == SelfOnlyTableValue()
  {
    var roles, rank := SelfOnlyRoles(), SelfOnlyRank();
    assert Collect(roles, rank, 1, map[]) == map[] + roles[1].grants;
  }

  function SelfOnlyTableValue(): map<string, bool>
  {
    map[ViewSelfKey := true, UpdateSelfKey := true]
  }

  /** None of the three candidate keys of `account.<verb>.all` has an
      entry in the self-only table, and there is no wildcard. */
  lemma AllSegmentsRefused(verb: string, table: map<string, bool>)
    requires verb == "view" || verb == "update"
    requires table == SelfOnlyTableValue()
    ensures !PermissionMatch.CheckSplit(["account", verb, "all"], table)
  {
    var segments := ["account", verb, "all"];
    assert PyStr.Join(segments[2..], '.') == "all";
    assert PyStr.Join(segments[1..], '.') == verb + ".all";
    assert segments[..1] == ["account"];
    assert segments[..2] == ["account", verb];
    assert PyStr.Join(["account", verb][1..], '.') == verb;
    assert PermissionMatch.Prefix(segments, 1) == "account";
    assert PermissionMatch.Prefix(segments, 2) == "account." + verb;
    assert segments[..3] == segments;
    assert PermissionMatch.Prefix(segments, 3) == "account." + verb + ".all";
  }

  /** `account.<verb>.all` is refused by the self-only table. */
  lemma AllKeyRefused(verb: string)
    requires verb == "view" || verb == "update"
    ensures !PermissionMatch.CheckKey("account." + verb + ".all", SelfOnlyTableValue())
  {
    var segments := ["account", verb, "all"];
    assert PyStr.Join(segments[2..], '.') == "all";
    assert PyStr.Join(segments[1..], '.') == verb + ".all";
    assert PyStr.Join(segments, '.') == "account." + verb + ".all";
    PermissionMatch.CheckJoinedKey(segments, SelfOnlyTableValue());
    AllSegmentsRefused(verb, SelfOnlyTableValue());
  }

  /** The self-only role does not allow `account.view.all`. */
  lemma SelfOnlyRefusesViewAll()
    ensures Ranked(SelfOnlyRoles(), SelfOnlyRank())
    ensures !CheckPermission(SelfOnlyRoles(), SelfOnlyRank(), SelfOnlyUser(), ViewAllKey)
  {
    SelfOnlyTable();
    AllKeyRefused("view");
    assert ViewAllKey == "account." + "view" + ".all";
  }

  /** The self-only role does not allow `account.update.all`. */
  lemma SelfOnlyRefusesUpdateAll()
    ensures Ranked(SelfOnlyRoles(), SelfOnlyRank())
    ensures !CheckPermission(SelfOnlyRoles(), SelfOnlyRank(), SelfOnlyUser(), UpdateAllKey)
  {
    SelfOnlyTable();
    AllKeyRefused("update");
    assert UpdateAllKey == "account." + "update" + ".all";
  }

  /** Finding: with the int argument the route delivers, a visitor whose
      role grants only the self keys is refused their own detail and
      update pages. */
  lemma OwnProfileRefusedAsWritten()
    ensures Ranked(SelfOnlyRoles(), SelfOnlyRank())
    ensures !UserDetailTestAsWritten(SelfOnlyRoles(), SelfOnlyRank(), SelfOnlyUser(), IntArg(5))
    ensures !UserUpdateTestAsWritten(SelfOnlyRoles(), SelfOnlyRank(), SelfOnlyUser(), IntArg(5))
  {
    SelfOnlyRefusesViewAll();
    SelfOnlyRefusesUpdateAll();
  }

  /** With the intended comparison the same visitor reaches their own
      detail and update pages, and still not anyone else's. */
  lemma OwnProfileAllowedWhenCorrected()
    ensures Ranked(SelfOnlyRoles(), SelfOnlyRank())
    ensures UserDetailTest(SelfOnlyRoles(), SelfOnlyRank(), SelfOnlyUser(), IntArg(5))
    ensures UserUpdateTest(SelfOnlyRoles(), SelfOnlyRank(), SelfOnlyUser(), IntArg(5))
    ensures !UserDetailTest(SelfOnlyRoles(), SelfOnlyRank(), SelfOnlyUser(), IntArg(6))
    ensures !UserUpdateTest(SelfOnlyRoles(), SelfOnlyRank(), SelfOnlyUser(), IntArg(6))
  {
    SelfOnlyTable();
    SelfOnlyRefusesViewAll();
    SelfOnlyRefusesUpdateAll();
    assert CheckPermission(SelfOnlyRoles(), SelfOnlyRank(), SelfOnlyUser(), ViewSelfKey);
    assert CheckPermission(SelfOnlyRoles(), SelfOnlyRank(), SelfOnlyUser(), UpdateSelfKey);
  }
}

=== FILE: csv_import.dfy ===
/** The string helpers of the CSV record import
    (`InsuranceClaimsRecords/management/commands/import_csv.py`): the
    boolean reading of a cell and the normalisation of the header row. */
module CsvImport {
  import PyStr

  /** A cell as `row.get(...)` hands it to the helpers. Only the
      truthiness of a number matters to `parse_boolean`. */
  datatype Cell =
    | Text(s: string)
      /** `None`: the column is absent from the file. */
    | Missing
      /** `float('nan')`: pandas' value for an empty cell. */
    | Nan
    | Number(nonzero: bool)

  const TrueWords: set<string> := {"yes", "true", "1"}

  // ------------------------------------------------------------------
  // parse_boolean
  // ------------------------------------------------------------------

  /** `parse_boolean` as written: a string is true when its stripped,
      lower-cased form is one of the true words; anything else goes
      through `bool(...)`, and `bool(float('nan'))` is true. */
  function ParseBooleanAsWritten(v: Cell): (b: bool)
    ensures v.Text? ==> (b <==> PyStr.Canonical(v.s) == "yes" || PyStr.Canonical(v.s) == "true" || PyStr.Canonical(v.s) == "1")
    ensures v.Missing? ==> !b
    ensures v.Number? ==> (b <==> v.nonzero)
  {
    match v
    case Text(s) => PyStr.Canonical(s) in TrueWords
    case Missing => false
    case Nan => true
    case Number(nonzero) => nonzero
  }

  /** An empty cell of a boolean column is imported as true. */
  lemma EmptyCellReadAsTrue()
    ensures ParseBooleanAsWritten(Nan)
    ensures !ParseBooleanAsWritten(Text(""))
  {
  }

  /** `parse_boolean` with an empty cell read like a missing one, as the
      other helpers of the import read it. */
  function ParseBoolean(v: Cell): (b: bool)
    ensures v.Nan? ==> !b
    ensures !v.Nan? ==> b == ParseBooleanAsWritten(v)
  {
    if v.Nan? then false else ParseBooleanAsWritten(v)
  }

  /** A true reading always comes from a true word or a non-zero number. */
  lemma TrueHasAReason(v: Cell)
    requires ParseBoolean(v)
    ensures (v.Text? && PyStr.Canonical(v.s) in TrueWords) || (v.Number? && v.nonzero)
  {
  }

  // ------------------------------------------------------------------
  // Case and padding do not matter
  // ------------------------------------------------------------------

  predicate AllSpace(s: string)
  {
    forall i :: 0 <= i < |s| ==> PyStr.IsSpace(s[i])
  }

  lemma {:induction false} TrimStartPadded(a: string, s: string)
    requires AllSpace(a)
    ensures PyStr.TrimStart(a + s) == PyStr.TrimStart(s)
    decreases |a|
  {
    if |a| > 0 {
      assert (a + s)[0] == a[0];
      assert (a + s)[1..] == a[1..] + s;
      TrimStartPadded(a[1..], s);
    } else {
      assert a + s == s;
    }
  }

  lemma {:induction false} TrimEndPadded(s: string, b: string)
    requires AllSpace(b)
    ensures PyStr.TrimEnd(s + b) == PyStr.TrimEnd(s)
    decreases |b|
  {
    if |b| > 0 {
      assert (s + b)[|s + b| - 1] == b[|b| - 1];
      assert (s + b)[..|s + b| - 1] == s + b[..|b| - 1];
      TrimEndPadded(s, b[..|b| - 1]);
    } else {
      assert s + b == s;
    }
  }

  /** Stripping a string that starts with a non-space keeps its tail. */
  lemma {:induction false} TrimStartAppend(s: string, b: string)
    ensures PyStr.TrimStart(s + b) == PyStr.TrimStart(s) + b || (AllSpace(s) && PyStr.TrimStart(s) == [])
    decreases |s|
  {
    if |s| > 0 && PyStr.IsSpace(s[0]) {
      assert (s + b)[1..] == s[1..] + b;
      TrimStartAppend(s[1..], b);
    }
  }

  lemma TrimEndAllSpace(s: string)
    requires AllSpace(s)
    ensures PyStr.TrimEnd(s) == []
  {
  }

  /** Surrounding whitespace does not change what `strip` returns. */
  lemma StripPadded(a: string, s: string, b: string)
    requires AllSpace(a) && AllSpace(b)
    ensures PyStr.Strip(a + s + b) == PyStr.Strip(s)
  {
    assert a + s + b == a + (s + b);
    TrimStartPadded(a, s + b);
    TrimStartAppend(s, b);
    if PyStr.TrimStart(s + b) == PyStr.TrimStart(s) + b {
      TrimEndPadded(PyStr.TrimStart(s), b);
    } else {
      TrimStartPadded(s, b);
      assert s + [] == s;
      TrimStartPadded(s, []);
      TrimEndAllSpace(b);
      var t := PyStr.TrimStart(b);
      assert t == b[|b| - |t|..];
      assert AllSpace(t);
      TrimEndAllSpace(t);
    }
  }

  /** `parse_boolean` ignores surrounding whitespace. */
  lemma ParseBooleanIgnoresPadding(a: string, s: string, b: string)
    requires AllSpace(a) && AllSpace(b)
    ensures ParseBoolean(Text(a + s + b)) == ParseBoolean(Text(s))
  {
    StripPadded(a, s, b);
  }

  lemma {:induction false} TrimStartLower(s: string)
    ensures PyStr.Lower(PyStr.TrimStart(s)) == PyStr.TrimStart(PyStr.Lower(s))
    decreases |s|
  {
    if |s| > 0 {
      assert PyStr.IsSpace(s[0]) <==> PyStr.IsSpace(PyStr.Lower(s)[0]);
      if PyStr.IsSpace(s[0]) {
        assert PyStr.Lower(s)[1..] == PyStr.Lower(s[1..]);
        TrimStartLower(s[1..]);
      }
    }
  }

  lemma {:induction false} TrimEndLower(s: string)
    ensures PyStr.Lower(PyStr.TrimEnd(s)) == PyStr.TrimEnd(PyStr.Lower(s))
    decreases |s|
  {
    if |s| > 0 {
      var n := |s| - 1;
      assert PyStr.IsSpace(s[n]) <==> PyStr.IsSpace(PyStr.Lower(s)[n]);
      if PyStr.IsSpace(s[n]) {
        assert PyStr.Lower(s)[..n] == PyStr.Lower(s[..n]);
        TrimEndLower(s[..n]);
      }
    }
  }

  /** Lower-casing and stripping commute. */
  lemma StripLower(s: string)
    ensures PyStr.Lower(PyStr.Strip(s)) == PyStr.Strip(PyStr.Lower(s))
  {
    TrimEndLower(PyStr.TrimStart(s));
    TrimStartLower(s);
  }

  /** `parse_boolean` ignores letter case: two strings equal up to case
      read the same. */
  lemma ParseBooleanIgnoresCase(s: string, t: string)
    requires PyStr.Lower(s) == PyStr.Lower(t)
    ensures ParseBoolean(Text(s)) == ParseBoolean(Text(t))
  {
    StripLower(s);
    StripLower(t);
  }

  // ------------------------------------------------------------------
  // Header normalisation
  // ------------------------------------------------------------------

  /** The characters a normalised header keeps: `[a-z0-9_]`. */
  predicate HeaderChar(c: char)
  {
    'a' <= c <= 'z' || '0' <= c <= '9' || c == '_'
  }

  predicate IsHeader(s: string)
  {
    forall i :: 0 <= i < |s| ==> HeaderChar(s[i])
  }

  /** `.str.replace(" ", "_")`. */
  function SpacesToUnderscores(s: string): (r: string)
    ensures |r| == |s|
    ensures ' ' !in r
    ensures forall i :: 0 <= i < |s| && s[i] == ' ' ==> r[i] == '_'
    ensures forall i :: 0 <= i < |s| && s[i] != ' ' ==> r[i] == s[i]
  {
    seq(|s|, i requires 0 <= i < |s| => if s[i] == ' ' then '_' else s[i])
  }

  /** `.str.replace(r'[^a-z0-9_]', '', regex=True)`: the header
      characters of `s`, in order. */
  function KeepHeaderChars(s: string): (r: string)
    ensures IsHeader(r)
    ensures |r| <= |s|
    ensures forall c :: c in r <==> c in s && HeaderChar(c)
    decreases |s|
  {
    if |s| == 0 then []
    else if HeaderChar(s[0]) then [s[0]] + KeepHeaderChars(s[1..])
    else KeepHeaderChars(s[1..])
  }

  /** A string of header characters passes the filter unchanged. */
  lemma {:induction false} KeepHeaderCharsOfHeader(s: string)
    requires IsHeader(s)
    ensures KeepHeaderChars(s) == s
    decreases |s|
  {
    if |s| > 0 {
      KeepHeaderCharsOfHeader(s[1..]);
    }
  }

  /** The filter works character by character: filtering a concatenation
      concatenates the filtered parts, so the kept characters stay in
      their original order. */
  lemma {:induction false} KeepHeaderCharsAppend(a: string, b: string)
    ensures KeepHeaderChars(a + b) == KeepHeaderChars(a) + KeepHeaderChars(b)
    decreases |a|
  {
    if |a| == 0 {
      assert a + b == b;
    } else {
      assert (a + b)[0] == a[0];
      assert (a + b)[1..] == a[1..] + b;
      KeepHeaderCharsAppend(a[1..], b);
    }
  }

  /** On one character the filter keeps it exactly when it is a header
      character. */
  lemma KeepHeaderCharsOne(c: char)
    ensures HeaderChar(c) ==> KeepHeaderChars([c]) == [c]
    ensures !HeaderChar(c) ==> KeepHeaderChars([c]) == []
  {
    assert [c][1..] == [];
  }

  /** The part of the normalisation after `strip()`: lower-case, spaces
      to underscores, then the character filter. */
  function Clean(s: string): string
  {
    KeepHeaderChars(SpacesToUnderscores(PyStr.Lower(s)))
  }

  /** The header normalisation applied to every column name. */
  function NormalizeHeader(s: string): (r: string)
    ensures IsHeader(r)
  {
    Clean(PyStr.Strip(s))
  }

  /** Every step after `strip()` works character by character. */
  lemma CleanAppend(a: string, b: string)
    ensures Clean(a + b) == Clean(a) + Clean(b)
  {
    assert PyStr.Lower(a + b) == PyStr.Lower(a) + PyStr.Lower(b);
    var la, lb := PyStr.Lower(a), PyStr.Lower(b);
    assert SpacesToUnderscores(la + lb) == SpacesToUnderscores(la) + SpacesToUnderscores(lb);
    KeepHeaderCharsAppend(SpacesToUnderscores(la), SpacesToUnderscores(lb));
  }

  /** A space inside the stripped name becomes `_` in the header, between
      the normalised text before it and the normalised text after it. */
  lemma InnerSpaceBecomesUnderscore(s: string, x: string, y: string)
    requires PyStr.Strip(s) == x + " " + y
    ensures NormalizeHeader(s) == Clean(x) + "_" + Clean(y)
  {
    CleanAppend(x + " ", y);
    CleanAppend(x, " ");
    assert PyStr.Lower(" ") == " ";
    assert SpacesToUnderscores(" ") == "_";
    KeepHeaderCharsOne('_');
  }

  /** Surrounding whitespace does not change a header. */
  lemma NormalizeHeaderIgnoresPadding(a: string, s: string, b: string)
    requires AllSpace(a) && AllSpace(b)
    ensures NormalizeHeader(a + s + b) == NormalizeHeader(s)
  {
    StripPadded(a, s, b);
  }

  /** Letter case does not change a header. */
  lemma NormalizeHeaderIgnoresCase(s: string)
    ensures NormalizeHeader(PyStr.Lower(s)) == NormalizeHeader(s)
  {
    StripLower(s);
    PyStr.LowerTwice(PyStr.Strip(s));
  }

  /** A normalised header is its own normal form; so is every key the row
      lookups use. */
  lemma HeaderFixedPoint(s: string)
    requires IsHeader(s)
    ensures NormalizeHeader(s) == s
  {
    PyStr.StripUnpadded(s);
    assert PyStr.Lower(s) == s;
    assert SpacesToUnderscores(s) == s;
    KeepHeaderCharsOfHeader(s);
  }

  /** Normalising twice is normalising once. */
  lemma NormalizeHeaderIdempotent(s: string)
    ensures NormalizeHeader(NormalizeHeader(s)) == NormalizeHeader(s)
  {
    HeaderFixedPoint(NormalizeHeader(s));
  }

}

=== FILE: csv_scenarios.dfy ===
/** Worked examples of the CSV import helpers: how single cells read as
    booleans and how the data file's headers normalise. Each string fact
    is a lemma of its own; the examples combine them. */
module CsvScenarios {
  import PyStr
  import opened CsvImport

  lemma StripYes() ensures PyStr.Strip("Yes") == "Yes" { PyStr.StripUnpadded("Yes"); }
  lemma StripTrue() ensures PyStr.Strip("TRUE") == "TRUE" { PyStr.StripUnpadded("TRUE"); }
  lemma StripOne() ensures PyStr.Strip("1") == "1" { PyStr.StripUnpadded("1"); }
  lemma StripY() ensures PyStr.Strip("y") == "y" { PyStr.StripUnpadded("y"); }
  lemma StripOn() ensures PyStr.Strip("on") == "on" { PyStr.StripUnpadded("on"); }
  lemma StripNo() ensures PyStr.Strip("no") == "no" { PyStr.StripUnpadded("no"); }
  lemma StripZero() ensures PyStr.Strip("0") == "0" { PyStr.StripUnpadded("0"); }

  lemma LowerWords()
    ensures PyStr.Lower("Yes") == "yes" && PyStr.Lower("TRUE") == "true" && PyStr.Lower("1") == "1"
  {
  }

  lemma LowerOtherWords()
    ensures PyStr.Lower("y") == "y" && PyStr.Lower("on") == "on" && PyStr.Lower("no") == "no"
    ensures PyStr.Lower("0") == "0"
  {
  }

  /** The true words are true, whatever their case. */
  lemma TrueWordsRead()
    ensures ParseBoolean(Text("Yes")) && ParseBoolean(Text("TRUE")) && ParseBoolean(Text("1"))
  {
    StripYes();
    StripTrue();
    StripOne();
    LowerWords();
  }

  /** `y`, `on` and the empty string are false. */
  lemma ShortWordsRead()
    ensures !ParseBoolean(Text("y")) && !ParseBoolean(Text("on")) && !ParseBoolean(Text(""))
  {
    StripY();
    StripOn();
    LowerOtherWords();
  }

  /** `no` and `0` are false. */
  lemma FalseWordsRead()
    ensures !ParseBoolean(Text("no")) && !ParseBoolean(Text("0"))
  {
    StripNo();
    StripZero();
    LowerOtherWords();
  }

  lemma StripDominantInjury() ensures PyStr.Strip("Dominant injury") == "Dominant injury" { PyStr.StripUnpadded("Dominant injury"); }
  lemma LowerDominantInjury() ensures PyStr.Lower("Dominant injury") == "dominant injury" { }
  lemma UnderscoreDominantInjury() ensures SpacesToUnderscores("dominant injury") == "dominant_injury" { }

  lemma KeepDominantInjury()
    ensures KeepHeaderChars("dominant_injury") == "dominant_injury"
  {
    assert IsHeader("dominant_injury");
    KeepHeaderCharsOfHeader("dominant_injury");
  }

  /** The headers of the data file map to the keys the record fields are
      read under: `Dominant injury` becomes `dominant_injury`. */
  lemma DominantInjuryHeader()
    ensures NormalizeHeader("Dominant injury") == "dominant_injury"
  {
    StripDominantInjury();
    LowerDominantInjury();
    UnderscoreDominantInjury();
    KeepDominantInjury();
  }

  lemma StripSettlementValue() ensures PyStr.Strip("SettlementValue") == "SettlementValue" { PyStr.StripUnpadded("SettlementValue"); }
  lemma LowerSettlementValue() ensures PyStr.Lower("SettlementValue") == "settlementvalue" { }
  lemma UnderscoreSettlementValue() ensures SpacesToUnderscores("settlementvalue") == "settlementvalue" { }

  lemma KeepSettlementValue()
    ensures KeepHeaderChars("settlementvalue") == "settlementvalue"
  {
    assert IsHeader("settlementvalue");
    KeepHeaderCharsOfHeader("settlementvalue");
  }

  /** `SettlementValue` becomes `settlementvalue`. */
  lemma SettlementValueHeader()
    ensures NormalizeHeader("SettlementValue") == "settlementvalue"
  {
    StripSettlementValue();
    LowerSettlementValue();
    UnderscoreSettlementValue();
    KeepSettlementValue();
  }

  lemma StripPunctuated() ensures PyStr.Strip("x-y") == "x-y" { PyStr.StripUnpadded("x-y"); }
  lemma LowerPunctuated() ensures PyStr.Lower("x-y") == "x-y" { }
  lemma UnderscorePunctuated() ensures SpacesToUnderscores("x-y") == "x-y" { }

  lemma KeepPunctuated()
    ensures KeepHeaderChars("x-y") == "xy"
  {
    assert "x-y"[1..] == "-y";
    assert "-y"[1..] == "y";
    assert "y"[1..] == [];
  }

  /** Punctuation is dropped, not replaced: `x-y` becomes `xy`. */
  lemma PunctuationDropped()
    ensures NormalizeHeader("x-y") == "xy"
  {
    StripPunctuated();
    LowerPunctuated();
    UnderscorePunctuated();
    KeepPunctuated();
  }
}

=== FILE: decorators.dfy ===
/** The group decorator and the role-name predicates
    (`InsuranceClaimsUser/decorators.py`). A visitor is reduced to what
    these look at: whether they are logged in, the superuser flag, the name
    of their role if they have one, and the names of their groups. */
module Decorators {
  import opened Results
  import PyStr

  /** The request's user as the decorators, template tags and middleware
      see it. */
  datatype Visitor = Visitor(authenticated: bool, isSuperuser: bool, roleName: Option<string>, groups: set<string>)

  /** What `group_required` does with a request. */
  datatype Gate = RedirectToLogin | Denied | RunView

  /** `any(...)` over the listed group names. */
  predicate InAnyGroup(groups: set<string>, names: seq<string>)
  {
    exists i :: 0 <= i < |names| && names[i] in groups
  }

  /** `group_required(*names)`: anonymous visitors are sent to the login
      page whatever their groups; a logged-in visitor runs the view iff they
      belong to at least one listed group, and is denied otherwise. */
  function GroupRequired(v: Visitor, names: seq<string>): (g: Gate)
    ensures !v.authenticated ==> g == RedirectToLogin
    ensures v.authenticated ==> (g == RunView <==> InAnyGroup(v.groups, names))
    ensures v.authenticated ==> g != RedirectToLogin
  {
    if !v.authenticated then RedirectToLogin
    else if AnyListed(v.groups, names) then RunView
    else Denied
  }

  /** The generator loop of `any`, scanning the names in order. */
  function AnyListed(groups: set<string>, names: seq<string>): (found: bool)
    ensures found <==> InAnyGroup(groups, names)
    decreases |names|
  {
    if |names| == 0 then false
    else if names[0] in groups then true
    else
      var found := AnyListed(groups, names[1..]);
      assert found <==> InAnyGroup(groups, names) by {
        if InAnyGroup(groups, names) {
          var i :| 0 <= i < |names| && names[i] in groups;
          assert i > 0 && names[1..][i - 1] == names[i];
        }
        if found {
          var i :| 0 <= i < |names[1..]| && names[1..][i] in groups;
          assert names[i + 1] in groups;
        }
      }
      found
  }

  /** With no names listed every logged-in visitor is denied. */
  lemma NoNamesDeniesEveryone(v: Visitor)
    requires v.authenticated
    ensures GroupRequired(v, []) == Denied
  {
  }

  // ------------------------------------------------------------------
  // Role-name predicates
  // ------------------------------------------------------------------

  const AdminName: string := "admin"
  const FinanceName: string := "finance"
  const CustomerName: string := "customer"
  const AiEngineerName: string := "ai engineer"

  /** `user.role and user.role.name.lower() == name`. */
  predicate RoleNameIs(v: Visitor, name: string)
  {
    v.roleName.Some? && PyStr.Lower(v.roleName.value) == name
  }

  /** `is_admin`: every superuser, and anyone whose role is named admin in
      any letter case. */
  function IsAdmin(v: Visitor): (b: bool)
    ensures b <==> v.isSuperuser || CategoryOf(v.roleName) == Some(AdminRole)
  {
    v.isSuperuser || RoleNameIs(v, AdminName)
  }

  function IsFinance(v: Visitor): (b: bool)
    ensures b <==> CategoryOf(v.roleName) == Some(FinanceRole)
  {
    RoleNameIs(v, FinanceName)
  }

  function IsCustomer(v: Visitor): (b: bool)
    ensures b <==> CategoryOf(v.roleName) == Some(CustomerRole)
  {
    RoleNameIs(v, CustomerName)
  }

  function IsAiEngineer(v: Visitor): (b: bool)
    ensures b <==> CategoryOf(v.roleName) == Some(AiEngineerRole)
  {
    RoleNameIs(v, AiEngineerName)
  }

  /** The four role names as one table, the reference the predicates are
      checked against. */
  datatype Category = AdminRole | FinanceRole | CustomerRole | AiEngineerRole

  function CategoryName(c: Category): string
  {
    match c
    case AdminRole => AdminName
    case FinanceRole => FinanceName
    case CustomerRole => CustomerName
    case AiEngineerRole => AiEngineerName
  }

  /** The category a role name falls in once lowercased, if any. */
  function CategoryOf(roleName: Option<string>): (c: Option<Category>)
    ensures c.Some? ==> roleName.Some? && PyStr.Lower(roleName.value) == CategoryName(c.value)
    ensures c.None? ==> forall k: Category :: !(roleName.Some? && PyStr.Lower(roleName.value) == CategoryName(k))
  {
    match roleName
    case None => None
    case Some(n) =>
      var l := PyStr.Lower(n);
      if l == AdminName then Some(AdminRole)
      else if l == FinanceName then Some(FinanceRole)
      else if l == CustomerName then Some(CustomerRole)
      else if l == AiEngineerName then Some(AiEngineerRole)
      else None
  }

  /** A non-superuser satisfies at most one predicate. */
  lemma AtMostOneRolePredicate(v: Visitor)
    requires !v.isSuperuser
    ensures (if IsAdmin(v) then 1 else 0) + (if IsFinance(v) then 1 else 0)
            + (if IsCustomer(v) then 1 else 0) + (if IsAiEngineer(v) then 1 else 0) <= 1
  {
  }

  /** Letter case of the role name does not matter. */
  lemma PredicatesIgnoreCase(v: Visitor, name: string)
    ensures var w := v.(roleName := Some(PyStr.Lower(name)));
            var u := v.(roleName := Some(name));
            && (IsAdmin(w) <==> IsAdmin(u)) && (IsFinance(w) <==> IsFinance(u))
            && (IsCustomer(w) <==> IsCustomer(u)) && (IsAiEngineer(w) <==> IsAiEngineer(u))
  {
    PyStr.LowerTwice(name);
  }

  /** ... but surrounding spaces do: nothing is trimmed. */
  lemma PredicatesDoNotTrim(v: Visitor)
    ensures !IsFinance(v.(roleName := Some(" finance")))
    ensures IsFinance(v.(roleName := Some("FINANCE")))
  {
    assert PyStr.Lower(" finance")[0] == ' ';
    assert PyStr.Lower("FINANCE") == "finance";
  }

  // ------------------------------------------------------------------
  // admin_required and the other role wrappers
  // ------------------------------------------------------------------

  /** What a `user_passes_test` wrapper does with a request. An anonymous
      visitor has no `role` attribute, so every predicate but the superuser
      clause raises `AttributeError` on one. */
  datatype TestGate = ViewRuns | LoginRedirect | MissingRoleAttribute

  /** The predicate a wrapper applies. */
  predicate Holds(v: Visitor, c: Category)
  {
    match c
    case AdminRole => IsAdmin(v)
    case FinanceRole => IsFinance(v)
    case CustomerRole => IsCustomer(v)
    case AiEngineerRole => IsAiEngineer(v)
  }

  /** `admin_required`, `finance_required`, `customer_required`,
      `ai_engineer_required`: `user_passes_test` runs the view when the
      predicate holds and redirects to the login page otherwise, logged in
      or not. */
  function RoleRequired(v: Visitor, c: Category): (g: TestGate)
    ensures !v.authenticated ==> g == MissingRoleAttribute
    ensures v.authenticated ==> (g == ViewRuns <==> Holds(v, c))
    ensures v.authenticated ==> g != MissingRoleAttribute
  {
    if !v.authenticated then MissingRoleAttribute
    else if Holds(v, c) then ViewRuns
    else LoginRedirect
  }

  /** A logged-in visitor passes a role wrapper exactly when their role
      name falls in the wrapper's category; only `admin_required` also lets
      every superuser through. */
  lemma RoleRequiredFollowsCategory(v: Visitor, c: Category)
    requires v.authenticated
    ensures RoleRequired(v, c) == ViewRuns <==> (c == AdminRole && v.isSuperuser) || CategoryOf(v.roleName) == Some(c)
  {
  }
}

=== FILE: group_tags.dfy ===
/** The group template filters and the navigation-link tag
    (`InsuranceClaimsUser/templatetags/group_tags.py`). */
module GroupTags {
  import PyStr
  import opened Decorators

  /** `has_group`: false for anonymous visitors, else group membership. */
  function HasGroup(v: Visitor, name: string): (b: bool)
    ensures b <==> v.authenticated && name in v.groups
  {
    v.authenticated && name in v.groups
  }

  /** `has_any_group`: the argument is split on `,` with nothing trimmed,
      and each piece is looked up as a group name. */
  function HasAnyGroup(v: Visitor, names: string): (b: bool)
    ensures !v.authenticated ==> !b
    ensures v.authenticated ==> (b <==> InAnyGroup(v.groups, PyStr.Split(names, ',')))
  {
    v.authenticated && AnyListed(v.groups, PyStr.Split(names, ','))
  }

  /** A single name is a one-element list for `has_all_groups`. */
  lemma HasGroupIsSingletonAll(v: Visitor, name: string)
    ensures HasGroup(v, name) == HasAllGroups(v, [name])
  {
    assert InAllGroups(v.groups, [name]) <==> name in v.groups by {
      assert [name][0] == name;
    }
  }

  /** A name without a comma is one piece for `has_any_group`, so the two
      filters agree on it. */
  lemma HasGroupIsAnyWithoutComma(v: Visitor, name: string)
    requires ',' !in name
    ensures HasGroup(v, name) == HasAnyGroup(v, name)
  {
    PyStr.SplitWithoutSep(name, ',');
    assert InAnyGroup(v.groups, [name]) <==> name in v.groups by {
      assert [name][0] == name;
    }
  }

  /** Every listed name is a group of the visitor. */
  predicate InAllGroups(groups: set<string>, names: seq<string>)
  {
    forall i :: 0 <= i < |names| ==> names[i] in groups
  }

  /** `all(...)` over the listed names, scanning in order. */
  function AllListed(groups: set<string>, names: seq<string>): (all: bool)
    ensures all <==> InAllGroups(groups, names)
    decreases |names|
  {
    if |names| == 0 then true
    else if names[0] !in groups then false
    else
      var all := AllListed(groups, names[1..]);
      assert all <==> InAllGroups(groups, names) by {
        if all {
          forall i | 0 <= i < |names|
            ensures names[i] in groups
          {
            if i > 0 {
              assert names[i] == names[1..][i - 1];
            }
          }
        }
        if InAllGroups(groups, names) {
          forall i | 0 <= i < |names[1..]|
            ensures names[1..][i] in groups
          {
            assert names[1..][i] == names[i + 1];
          }
        }
      }
      all
  }

  /** `has_all_groups`: false for anonymous visitors, else membership in
      every listed group (vacuously true with none). */
  function HasAllGroups(v: Visitor, names: seq<string>): (b: bool)
    ensures !v.authenticated ==> !b
    ensures v.authenticated ==> (b <==> InAllGroups(v.groups, names))
  {
    v.authenticated && AllListed(v.groups, names)
  }

  lemma SplitSpacedList()
    ensures PyStr.Split("admin, finance", ',') == ["admin", " finance"]
  {
    PyStr.SplitJoin(["admin", " finance"], ',');
    assert PyStr.Join(["admin", " finance"][1..], ',') == " finance";
    assert PyStr.Join(["admin", " finance"], ',') == "admin, finance";
  }

  lemma SplitTightList()
    ensures PyStr.Split("admin,finance", ',') == ["admin", "finance"]
  {
    PyStr.SplitJoin(["admin", "finance"], ',');
    assert PyStr.Join(["admin", "finance"][1..], ',') == "finance";
    assert PyStr.Join(["admin", "finance"], ',') == "admin,finance";
  }

  /** A comma-separated argument with a space after the comma tests the
      name with the leading space, which no canonical group carries. */
  lemma SpaceAfterCommaIsPartOfName(v: Visitor)
    requires v.authenticated && v.groups == {"finance"}
    ensures !HasAnyGroup(v, "admin, finance")
    ensures HasAnyGroup(v, "admin,finance")
  {
    SplitSpacedList();
    SplitTightList();
    assert " finance" != "finance";
    assert ["admin", "finance"][1] in v.groups;
  }

  /** `has_all_groups` with no names holds for every logged-in visitor. */
  lemma NoNamesAllGroups(v: Visitor)
    requires v.authenticated
    ensures HasAllGroups(v, [])
  {
  }

  // ------------------------------------------------------------------
  // get_visible_links
  // ------------------------------------------------------------------

  datatype Link = Link(url: string, name: string)

  const CommonLinks: seq<Link> := [
    Link("accounts:profile", "Profile"),
    Link("accounts:profile_edit", "Edit Profile"),
    Link("accounts:logout", "Logout")]

  const CustomerLinks: seq<Link> := [
    Link("customer:submit_claim", "Submit Claim"),
    Link("customer:my_claims", "My Claims")]

  const FinanceLinks: seq<Link> := [
    Link("records:process_claims", "Process Claims"),
    Link("records:financial_reports", "Financial Reports"),
    Link("records:all_records", "All Records")]

  const AiEngineerLinks: seq<Link> := [
    Link("ml:ai_dashboard", "AI Dashboard"),
    Link("ml:model_training", "Model Training"),
    Link("records:all_records", "All Records")]

  const AdminLinks: seq<Link> := [
    Link("accounts:admin_dashboard", "Admin Dashboard"),
    Link("accounts:user_list", "User Management"),
    Link("records:all_records", "All Records")]

  /** A block of links when the visitor is in the group, nothing otherwise. */
  function IfGroup(v: Visitor, group: string, links: seq<Link>): seq<Link>
  {
    if group in v.groups then links else []
  }

  function Indicator(b: bool): nat
  {
    if b then 1 else 0
  }

  /** How many links carry `name`. */
  function CountNamed(links: seq<Link>, name: string): nat
    decreases |links|
  {
    if |links| == 0 then 0
    else (if links[0].name == name then 1 else 0) + CountNamed(links[1..], name)
  }

  lemma {:induction false} CountNamedAppend(a: seq<Link>, b: seq<Link>, name: string)
    ensures CountNamed(a + b, name) == CountNamed(a, name) + CountNamed(b, name)
    decreases |a|
  {
    if |a| > 0 {
      assert (a + b)[1..] == a[1..] + b;
      CountNamedAppend(a[1..], b, name);
    } else {
      assert a + b == b;
    }
  }

  /** `get_visible_links`: nothing for anonymous visitors; otherwise the
      three common links, then the customer, finance, `ai_engineer` and
      admin blocks in that order, each present iff the visitor is in that
      group. */
  function GetVisibleLinks(v: Visitor): (links: seq<Link>)
    ensures !v.authenticated ==> links == []
    ensures v.authenticated ==> |links| == 3 + 2 * Indicator("customer" in v.groups)
                                         + 3 * Indicator("finance" in v.groups)
                                         + 3 * Indicator("ai_engineer" in v.groups)
                                         + 3 * Indicator("admin" in v.groups)
    ensures v.authenticated ==> links[..3] == CommonLinks
    ensures v.authenticated && "customer" in v.groups ==> links[3..5] == CustomerLinks
    ensures v.authenticated && "finance" in v.groups
            ==> var c := 2 * Indicator("customer" in v.groups);
                links[3 + c..6 + c] == FinanceLinks
    ensures v.authenticated && "ai_engineer" in v.groups
            ==> var c, f := 2 * Indicator("customer" in v.groups), 3 * Indicator("finance" in v.groups);
                links[3 + c + f..6 + c + f] == AiEngineerLinks
    ensures v.authenticated && "admin" in v.groups ==> links[|links| - 3..] == AdminLinks
  {
    if !v.authenticated then []
    else
      var c, f := IfGroup(v, "customer", CustomerLinks), IfGroup(v, "finance", FinanceLinks);
      var a, d := IfGroup(v, "ai_engineer", AiEngineerLinks), IfGroup(v, "admin", AdminLinks);
      var links := CommonLinks + c + f + a + d;
      assert links[3..3 + |c|] == c;
      assert links[3 + |c|..3 + |c| + |f|] == f;
      assert links[3 + |c| + |f|..3 + |c| + |f| + |a|] == a;
      assert links[|links| - |d|..] == d;
      links
  }

  /** "All Records" is not deduplicated: it appears once for each of the
      finance, `ai_engineer` and admin groups the visitor is in. */
  lemma AllRecordsOncePerGroup(v: Visitor)
    requires v.authenticated
    ensures CountNamed(GetVisibleLinks(v), "All Records")
            == Indicator("finance" in v.groups) + Indicator("ai_engineer" in v.groups) + Indicator("admin" in v.groups)
  {
    var c, f, a, d := IfGroup(v, "customer", CustomerLinks), IfGroup(v, "finance", FinanceLinks),
                      IfGroup(v, "ai_engineer", AiEngineerLinks), IfGroup(v, "admin", AdminLinks);
    CountNamedAppend(CommonLinks, c, "All Records");
    CountNamedAppend(CommonLinks + c, f, "All Records");
    CountNamedAppend(CommonLinks + c + f, a, "All Records");
    CountNamedAppend(CommonLinks + c + f + a, d, "All Records");
    assert CountNamed(CommonLinks, "All Records") == 0;
    assert CountNamed(c, "All Records") == 0;
    assert CountNamed(f, "All Records") == Indicator("finance" in v.groups);
    assert CountNamed(a, "All Records") == Indicator("ai_engineer" in v.groups);
    assert CountNamed(d, "All Records") == Indicator("admin" in v.groups);
  }

  /** The AI block keys on `ai_engineer`; a visitor whose only group is the
      role name `ai engineer` sees just the common links. */
  lemma AiEngineerRoleGroupGetsNoAiLinks(v: Visitor)
    requires v.authenticated && v.groups == {"ai engineer"}
    ensures GetVisibleLinks(v) == CommonLinks
  {
    assert "ai engineer" != "ai_engineer";
  }
}

=== FILE: middleware.dfy ===
/** The login gate applied to every request
    (`InsuranceClaimsUser/middleware.py`). The public paths are the
    reversed URLs of the login, signup and home routes. */
module Middleware {

  datatype Decision = PassThrough | RedirectToLogin

  // `reverse('accounts:login')`, `reverse('accounts:signup')` and
  // `reverse('home')` under the project's URL configuration.
  const LoginPath: string := "/accounts/login/"
  const SignupPath: string := "/accounts/signup/"
  const HomePath: string := "/"

  const PublicPaths: seq<string> := [LoginPath, SignupPath, HomePath]

  /** `AuthenticationMiddleware.__call__`: an anonymous request to a path
      outside the public list is redirected to the login page; everything
      else reaches the view. */
  function Gate(authenticated: bool, path: string): (d: Decision)
    ensures authenticated ==> d == PassThrough
    ensures !authenticated ==> (d == PassThrough <==> path == LoginPath || path == SignupPath || path == HomePath)
  {
    if !authenticated && path !in PublicPaths then RedirectToLogin else PassThrough
  }

  /** Only the exact public paths are public: anything below them, or the
      same path without its trailing slash, is not. */
  lemma SubPathsAreNotPublic(suffix: string)
    requires |suffix| > 0
    ensures Gate(false, LoginPath + suffix) == RedirectToLogin
    ensures Gate(false, SignupPath + suffix) == RedirectToLogin
    ensures Gate(false, HomePath + suffix) == RedirectToLogin
            <==> HomePath + suffix != LoginPath && HomePath + suffix != SignupPath
    ensures Gate(false, "/accounts/login") == RedirectToLogin
  {
    assert |LoginPath + suffix| > |LoginPath|;
    assert |SignupPath + suffix| > |SignupPath|;
    assert (LoginPath + suffix)[10] == 'l' && SignupPath[10] == 's';
    assert (SignupPath + suffix)[10] == 's' && LoginPath[10] == 'l';
  }
}

=== FILE: ml_models.dfy ===
/** Uploaded models (`InsuranceClaimsML/models.py`, `InsuranceClaimsML/forms.py`):
    the storage path of an upload, the single-active rule applied on save,
    and the upload form's extension and size check. Model rows are kept
    in a map from primary key to row. */
module MlModels {
  import opened Results
  import PyStr

  // ------------------------------------------------------------------
  // Rows and the single-active rule
  // ------------------------------------------------------------------

  /** An `MLModel` row; `uploadedBy` is the uploader's user id, `None`
      once that user is deleted (`SET_NULL`). */
  datatype MlModel = MlModel(name: string, description: string, fileName: string, version: string,
                             isActive: bool, uploadedBy: Option<nat>)

  type Store = map<nat, MlModel>

  /** A model as the form creates it before the owner is set: `is_active`
      unless ticked is the field default, false. */
  function NewModel(name: string, description: string, fileName: string, version: string): (m: MlModel)
    ensures !m.isActive && m.uploadedBy.None?
    ensures m.name == name && m.fileName == fileName && m.version == version
  {
    MlModel(name, description, fileName, version, false, None)
  }

  ghost predicate AtMostOneActive(store: Store)
  {
    forall p, q :: p in store && q in store && store[p].isActive && store[q].isActive ==> p == q
  }

  /** `MLModel.objects.exclude(pk=self.pk).update(is_active=False)`. */
  function DeactivateOthers(store: Store, pk: nat): (r: Store)
    ensures r.Keys == store.Keys
    ensures forall q :: q in store && q != pk ==> r[q] == store[q].(isActive := false)
    ensures pk in store ==> r[pk] == store[pk]
  {
    map q | q in store :: if q == pk then store[q] else store[q].(isActive := false)
  }

  /** `MLModel.save`: saving an active model first deactivates every other
      row; then the row itself is written (inserted under a fresh key for a
      new model). */
  function Save(store: Store, pk: nat, m: MlModel): (r: Store)
    ensures r.Keys == store.Keys + {pk} && r[pk] == m
    ensures m.isActive ==> forall q :: q in r && r[q].isActive ==> q == pk
    ensures !m.isActive ==> forall q :: q in store && q != pk ==> r[q] == store[q]
    ensures forall q :: q in store && q != pk ==> r[q] == store[q].(isActive := r[q].isActive)
  {
    var s := if m.isActive then DeactivateOthers(store, pk) else store;
    s[pk := m]
  }

  /** Every save keeps at most one model active. */
  lemma SavePreservesSingleActive(store: Store, pk: nat, m: MlModel)
    requires AtMostOneActive(store)
    ensures AtMostOneActive(Save(store, pk, m))
  {
    var r := Save(store, pk, m);
    forall p, q | p in r && q in r && r[p].isActive && r[q].isActive
      ensures p == q
    {
      if !m.isActive {
        assert p != pk && q != pk;
        assert store[p].isActive && store[q].isActive;
      }
    }
  }

  /** After saving an active model it is the active model. */
  lemma SavedActiveIsTheActiveOne(store: Store, pk: nat, m: MlModel)
    requires m.isActive
    ensures ActiveModels(Save(store, pk, m)) == {pk}
  {
  }

  ghost function ActiveModels(store: Store): set<nat>
  {
    set q | q in store && store[q].isActive
  }

  // ------------------------------------------------------------------
  // Upload path
  // ------------------------------------------------------------------

  const UploadRoot: string := "ml_models/user_"

  /** `ml_model_upload_path`: `ml_models/user_<id>/<filename>`; an upload
      whose owner is unset fails reading `.id` of `None`. */
  function UploadPath(uploadedBy: Option<nat>, filename: string): (r: Result<string, string>)
    ensures r.Success? <==> uploadedBy.Some?
    ensures r.Success? ==> |r.value| > |UploadRoot| && r.value[..|UploadRoot|] == UploadRoot
  {
    match uploadedBy
    case None => Failure("'NoneType' object has no attribute 'id'")
    case Some(id) => Success(UploadRoot + PyStr.DecimalString(id) + "/" + filename)
  }

  /** The index of the first `c` in `s`, or `|s|` when there is none. */
  function IndexOf(s: string, c: char): (i: nat)
    ensures i <= |s|
    ensures forall j :: 0 <= j < i ==> s[j] != c
    ensures i < |s| ==> s[i] == c
  {
    if |s| == 0 then 0
    else if s[0] == c then 0
    else 1 + IndexOf(s[1..], c)
  }

  /** Reads an upload path back into the owner id and the file name. */
  function ParseUploadPath(path: string): (r: Option<(nat, string)>)
    ensures r.Some? ==> |path| > |UploadRoot| + |r.value.1| && path[..|UploadRoot|] == UploadRoot
    ensures r.Some? ==> path[|path| - |r.value.1|..] == r.value.1 && path[|path| - |r.value.1| - 1] == '/'
  {
    if |path| < |UploadRoot| || path[..|UploadRoot|] != UploadRoot then None
    else
      var rest := path[|UploadRoot|..];
      var i := IndexOf(rest, '/');
      if i == 0 || i == |rest| || !PyStr.AllDigits(rest[..i]) then None
      else Some((PyStr.DecimalValue(rest[..i]), rest[i + 1..]))
  }

  /** The path names its owner and its file unambiguously: reading it back
      gives the owner id and the whole original file name (which may itself
      contain `/`). */
  lemma UploadPathRoundTrip(id: nat, filename: string)
    ensures UploadPath(Some(id), filename).Success?
    ensures ParseUploadPath(UploadPath(Some(id), filename).value) == Some((id, filename))
  {
    var digits := PyStr.DecimalString(id);
    var path := UploadRoot + digits + "/" + filename;
    assert path[..|UploadRoot|] == UploadRoot;
    var rest := path[|UploadRoot|..];
    assert rest == digits + "/" + filename;
    assert forall j :: 0 <= j < |digits| ==> rest[j] == digits[j] && PyStr.IsDigit(digits[j]);
    assert rest[|digits|] == '/';
    IndexOfFirst(rest, '/', |digits|);
    assert rest[..|digits|] == digits;
    assert rest[|digits| + 1..] == filename;
    PyStr.DecimalRoundTrip(id);
  }

  lemma IndexOfFirst(s: string, c: char, i: nat)
    requires i < |s| && s[i] == c
    requires forall j :: 0 <= j < i ==> s[j] != c
    ensures IndexOf(s, c) == i
  {
  }

  /** Different owners never share an upload path. */
  lemma UploadPathsSeparateOwners(a: nat, b: nat, f: string, g: string)
    requires a != b
    ensures UploadPath(Some(a), f).value != UploadPath(Some(b), g).value
  {
    UploadPathRoundTrip(a, f);
    UploadPathRoundTrip(b, g);
  }

  // ------------------------------------------------------------------
  // The upload form's file check
  // ------------------------------------------------------------------

  /** An uploaded file: its client-side name and its size in bytes. */
  datatype UploadedFile = UploadedFile(name: string, size: nat)

  const AllowedExtensions: seq<string> := ["pkl", "joblib", "h5", "keras"]
  const MaxUploadBytes: nat := 100 * 1024 * 1024
  const ExtensionError: string := "Only .pkl, .joblib, .h5, and .keras files are allowed."
  const SizeError: string := "File size cannot exceed 100MB."

  /** `name.split('.')[-1].lower()`. */
  function Extension(name: string): (ext: string)
    ensures '.' !in ext
    ensures PyStr.Lower(ext) == ext
    ensures |ext| <= |name|
  {
    var piece := PyStr.LastPiece(name, '.');
    PyStr.LastPieceShorter(name, '.');
    PyStr.LowerTwice(piece);
    PyStr.Lower(PyStr.LastPiece(name, '.'))
  }

  /** `MLModelForm.clean_model_file`: no file (or one whose name is empty,
      which Django treats as no file) is returned as is; otherwise the
      extension is checked before the size, and an accepted file is
      returned unchanged. */
  function CleanModelFile(f: Option<UploadedFile>): (r: Result<Option<UploadedFile>, string>)
    ensures r.Success? ==> r.value == f
    ensures f.None? || f.value.name == "" ==> r.Success?
    ensures f.Some? && f.value.name != "" ==>
              (r.Success? <==> Extension(f.value.name) in AllowedExtensions && f.value.size <= MaxUploadBytes)
    ensures f.Some? && f.value.name != "" && Extension(f.value.name) !in AllowedExtensions
            ==> r == Failure(ExtensionError)
    ensures (f.Some? && f.value.name != "" && Extension(f.value.name) in AllowedExtensions
             && f.value.size > MaxUploadBytes) ==> r == Failure(SizeError)
  {
    match f
    case None => Success(f)
    case Some(file) =>
      if file.name == "" then Success(f)
      else if Extension(file.name) !in AllowedExtensions then Failure(ExtensionError)
      else if file.size > MaxUploadBytes then Failure(SizeError)
      else Success(f)
  }

  /** The extension is what follows the last dot, lowercased. */
  lemma ExtensionAfterLastDot(stem: string, ext: string)
    requires '.' !in ext
    ensures Extension(stem + "." + ext) == PyStr.Lower(ext)
  {
    assert stem + "." + ext == stem + ['.'] + ext;
    PyStr.LastPieceAfterSep(stem, ext, '.');
  }

  /** A name without a dot is its own extension. */
  lemma DotlessNameIsExtension(name: string)
    requires '.' !in name
    ensures Extension(name) == PyStr.Lower(name)
  {
    PyStr.SplitWithoutSep(name, '.');
  }

  /** An upper-case extension passes: `m.PKL`. */
  lemma UpperCaseExtensionAccepted()
    ensures CleanModelFile(Some(UploadedFile("m.PKL", 10))).Success?
  {
    assert "m.PKL" == "m" + "." + "PKL";
    ExtensionAfterLastDot("m", "PKL");
    assert PyStr.Lower("PKL") == "pkl";
    assert Extension("m.PKL") == "pkl";
  }

  /** A file named just `pkl` passes: the whole name is the extension. */
  lemma BareExtensionNameAccepted()
    ensures CleanModelFile(Some(UploadedFile("pkl", 10))).Success?
  {
    DotlessNameIsExtension("pkl");
    assert PyStr.Lower("pkl") == "pkl";
    assert Extension("pkl") == "pkl";
  }

  /** Exactly 100 MiB passes and one byte more does not. */
  lemma SizeLimitInclusive()
    ensures CleanModelFile(Some(UploadedFile("m.h5", MaxUploadBytes))).Success?
    ensures CleanModelFile(Some(UploadedFile("m.h5", MaxUploadBytes + 1))) == Failure(SizeError)
  {
    assert "m.h5" == "m" + "." + "h5";
    ExtensionAfterLastDot("m", "h5");
    assert PyStr.Lower("h5") == "h5";
    assert Extension("m.h5") == "h5";
  }

  /** A wrong extension is reported even when the size is also too large. */
  lemma ExtensionErrorFirst()
    ensures CleanModelFile(Some(UploadedFile("m.txt", MaxUploadBytes + 1))) == Failure(ExtensionError)
  {
    assert "m.txt" == "m" + "." + "txt";
    ExtensionAfterLastDot("m", "txt");
    assert PyStr.Lower("txt") == "txt";
    assert Extension("m.txt") == "txt";
  }
}

=== FILE: ml_views.dfy ===
/** The access tests of the model-management views
    (`InsuranceClaimsML/views.py`) and the owner assignment on upload.
    Unlike the account views there is no superuser short-circuit: every
    test is the role check alone. */
module MlViews {
  import opened Results
  import PyStr
  import PermissionMatch
  import opened OrmPermissions
  import MlModels

  datatype MlView = ListModels | UploadModel | UpdateModel | DeleteModel

  /** The key each view's `test_func` checks; deleting is gated on the
      update key. */
  function RequiredKey(view: MlView): (key: string)
    ensures view == ListModels ==> key == "ml.view"
    ensures view == UploadModel ==> key == "ml.upload"
    ensures view == DeleteModel || view == UpdateModel ==> key == "ml.update"
  {
    match view
    case ListModels => "ml.view"
    case UploadModel => "ml.upload"
    case UpdateModel => "ml.update"
    case DeleteModel => "ml.update"
  }

  /** The `test_func` of each view: the role check on its key, nothing
      else, so a user without a role, superuser or not, is refused. */
  function MlViewTest(roles: RoleTable, ghost rank: map<RoleId, nat>, user: User, view: MlView): (ok: bool)
    requires Ranked(roles, rank) && RoleKnown(roles, user)
    ensures user.role.None? ==> !ok
    ensures user.role.Some? && RequiredKey(view) in AllRolePermissions(roles, rank, user.role.value)
            ==> ok == AllRolePermissions(roles, rank, user.role.value)[RequiredKey(view)]
    ensures user.role.Some?
            ==> PermissionMatch.PrefixRule(PyStr.Split(RequiredKey(view), '.'), AllRolePermissions(roles, rank, user.role.value), ok)
  {
    CheckPermission(roles, rank, user, RequiredKey(view))
  }

  /** The superuser flag plays no part in the ML views. */
  lemma NoSuperuserBypass(roles: RoleTable, rank: map<RoleId, nat>, user: User, view: MlView)
    requires Ranked(roles, rank) && RoleKnown(roles, user)
    ensures MlViewTest(roles, rank, user, view)
            == MlViewTest(roles, rank, user.(isSuperuser := !user.isSuperuser), view)
  {
  }

  /** Deleting needs exactly what updating needs. */
  lemma DeleteGatedOnUpdate(roles: RoleTable, rank: map<RoleId, nat>, user: User)
    requires Ranked(roles, rank) && RoleKnown(roles, user)
    ensures MlViewTest(roles, rank, user, DeleteModel) == MlViewTest(roles, rank, user, UpdateModel)
  {
  }

  // ------------------------------------------------------------------
  // A role that holds only `ml.delete`
  // ------------------------------------------------------------------

  function DeleterRoles(): RoleTable
  {
    map[1 := Role("deleter", map["ml.delete" := true], [])]
  }

  function DeleterRank(): map<RoleId, nat>
  {
    map[1 := 0]
  }

  function Deleter(): User
  {
    User(3, "dana", "Dana Cruz", false, false, true, Some(1))
  }

  lemma UpdateSegmentsNotMatched(table: map<string, bool>)
    requires table == map["ml.delete" := true]
    ensures !PermissionMatch.CheckSplit(["ml", "update"], table)
  {
    var segments := ["ml", "update"];
    assert PyStr.Join(segments[1..], '.') == "update";
    assert segments[..1] == ["ml"];
    assert segments[..2] == segments;
    assert PermissionMatch.Prefix(segments, 1) == "ml";
    assert PermissionMatch.Prefix(segments, 2) == "ml.update";
  }

  lemma UpdateKeyNotMatched()
    ensures !PermissionMatch.CheckKey("ml.update", map["ml.delete" := true])
  {
    var segments := ["ml", "update"];
    assert PyStr.Join(segments[1..], '.') == "update";
    assert PyStr.Join(segments, '.') == "ml.update";
    PermissionMatch.CheckJoinedKey(segments, map["ml.delete" := true]);
    UpdateSegmentsNotMatched(map["ml.delete" := true]);
  }

  /** A role holding only `ml.delete` cannot delete a model. */
  lemma DeleteGrantAloneCannotDelete()
    ensures Ranked(DeleterRoles(), DeleterRank())
    ensures !MlViewTest(DeleterRoles(), DeleterRank(), Deleter(), DeleteModel)
  {
    var roles, rank := DeleterRoles(), DeleterRank();
    assert Collect(roles, rank, 1, map[]) == map[] + roles[1].grants;
    assert AllRolePermissions(roles, rank, 1) == map["ml.delete" := true];
    UpdateKeyNotMatched();
  }

  // ------------------------------------------------------------------
  // Upload
  // ------------------------------------------------------------------

  /** `MLModelUploadView.form_valid`: the requesting user becomes the
      owner, then the model is saved under its new key. */
  function UploadFormValid(store: MlModels.Store, newPk: nat, m: MlModels.MlModel, user: User): (r: MlModels.Store)
    ensures newPk in r && r[newPk] == m.(uploadedBy := Some(user.pk))
    ensures MlModels.UploadPath(r[newPk].uploadedBy, m.fileName).Success?
    ensures r.Keys == store.Keys + {newPk}
  {
    MlModels.Save(store, newPk, m.(uploadedBy := Some(user.pk)))
  }

  /** An upload stores the file under its uploader's directory. */
  lemma UploadStoredUnderUploader(store: MlModels.Store, newPk: nat, m: MlModels.MlModel, user: User)
    ensures var r := UploadFormValid(store, newPk, m, user);
            MlModels.ParseUploadPath(MlModels.UploadPath(r[newPk].uploadedBy, m.fileName).value)
              == Some((user.pk, m.fileName))
  {
    MlModels.UploadPathRoundTrip(user.pk, m.fileName);
  }
}

=== FILE: orm_permissions.dfy ===
/** The database-backed permission model (`InsuranceClaimsUser/models.py`):
    roles with their own allow/deny grants and an `extends` list of other
    roles, users holding at most one role, and the resolver that flattens a
    role's ancestry into one table before matching a dotted key. */
module OrmPermissions {
  import opened Results
  import PyStr
  import PermissionMatch

  type RoleId = nat

  /** A role row: its name, its own grants (`Permission` rows, name to
      `is_allowed`), and the roles it extends, in query order. */
  datatype Role = Role(name: string, grants: map<string, bool>, parents: seq<RoleId>)

  type RoleTable = map<RoleId, Role>

  /** A `Permission` row as seen on its own. */
  datatype Grant = Grant(name: string, isAllowed: bool)

  /** The user fields the permission and account code reads. */
  datatype User = User(
    pk: nat,
    username: string,
    fullName: string,
    isStaff: bool,
    isSuperuser: bool,
    isActive: bool,
    role: Option<RoleId>)

  // ------------------------------------------------------------------
  // Acyclicity
  // ------------------------------------------------------------------

  /** Every role in `parents` exists and is ranked strictly below `bound`. */
  ghost predicate ParentsBelow(roles: RoleTable, rank: map<RoleId, nat>, parents: seq<RoleId>, bound: nat)
  {
    forall j :: 0 <= j < |parents| ==>
      parents[j] in roles && parents[j] in rank && rank[parents[j]] < bound
  }

  /** `rank` witnesses that the `extends` graph is closed and acyclic: each
      role is ranked strictly above every role it extends. The source keeps
      no visited set, so on a cycle the walk would not terminate. */
  ghost predicate Ranked(roles: RoleTable, rank: map<RoleId, nat>)
  {
    forall id :: id in roles ==>
      id in rank && ParentsBelow(roles, rank, roles[id].parents, rank[id])
  }

  // ------------------------------------------------------------------
  // Flattening: _get_all_role_permissions
  // ------------------------------------------------------------------

  /** `_get_all_role_permissions(role, acc)`: the role's own grants are
      written into `acc` first, then each extended role is walked into the
      same table, so anything written later overwrites. */
  function Collect(roles: RoleTable, ghost rank: map<RoleId, nat>, id: RoleId, acc: map<string, bool>): (r: map<string, bool>)
    requires Ranked(roles, rank) && id in roles
    ensures acc.Keys <= r.Keys && roles[id].grants.Keys <= r.Keys
    decreases rank[id], 1
  {
    CollectParents(roles, rank, roles[id].parents, acc + roles[id].grants, rank[id])
  }

  /** The loop over `role.extends.all()`. */
  function CollectParents(roles: RoleTable, ghost rank: map<RoleId, nat>, parents: seq<RoleId>,
                          acc: map<string, bool>, ghost bound: nat): (r: map<string, bool>)
    requires Ranked(roles, rank) && ParentsBelow(roles, rank, parents, bound)
    ensures acc.Keys <= r.Keys
    ensures forall j :: 0 <= j < |parents| ==> roles[parents[j]].grants.Keys <= r.Keys
    decreases bound, 0, |parents|
  {
    if |parents| == 0 then acc
    else
      var r := CollectParents(roles, rank, parents[1..], Collect(roles, rank, parents[0], acc), bound);
      assert forall j :: 1 <= j < |parents| ==> parents[j] == parents[1..][j - 1];
      r
  }

  /** The flattened table of a role, started from an empty dict. */
  function AllRolePermissions(roles: RoleTable, ghost rank: map<RoleId, nat>, id: RoleId): (table: map<string, bool>)
    requires Ranked(roles, rank) && id in roles
    ensures roles[id].grants.Keys <= table.Keys
    ensures forall j :: 0 <= j < |roles[id].parents| ==> roles[roles[id].parents[j]].grants.Keys <= table.Keys
  {
    Collect(roles, rank, id, map[])
  }

  /** Walking from any starting table is overlaying the walk from
      an empty one on top of it. */
  lemma {:induction false} CollectFrom(roles: RoleTable, rank: map<RoleId, nat>, id: RoleId, acc: map<string, bool>)
    requires Ranked(roles, rank) && id in roles
    ensures Collect(roles, rank, id, acc) == acc + AllRolePermissions(roles, rank, id)
    decreases rank[id], 1
  {
    var r := roles[id];
    CollectParentsFrom(roles, rank, r.parents, acc + r.grants, rank[id]);
    CollectParentsFrom(roles, rank, r.parents, map[] + r.grants, rank[id]);
    assert map[] + r.grants == r.grants;
  }

  lemma {:induction false} CollectParentsFrom(roles: RoleTable, rank: map<RoleId, nat>, parents: seq<RoleId>,
                                              acc: map<string, bool>, bound: nat)
    requires Ranked(roles, rank) && ParentsBelow(roles, rank, parents, bound)
    ensures CollectParents(roles, rank, parents, acc, bound)
            == acc + CollectParents(roles, rank, parents, map[], bound)
    decreases bound, 0, |parents|
  {
    if |parents| == 0 {
      assert acc + map[] == acc;
    } else {
      var p := parents[0];
      var rest := parents[1..];
      assert ParentsBelow(roles, rank, rest, bound);
      CollectFrom(roles, rank, p, acc);
      CollectFrom(roles, rank, p, map[]);
      assert map[] + AllRolePermissions(roles, rank, p) == AllRolePermissions(roles, rank, p);
      CollectParentsFrom(roles, rank, rest, Collect(roles, rank, p, acc), bound);
      CollectParentsFrom(roles, rank, rest, Collect(roles, rank, p, map[]), bound);
    }
  }

  /** The flattened tables of `parents`, overlaid in `extends` order on `acc`. */
  ghost function OverlayParents(roles: RoleTable, rank: map<RoleId, nat>, parents: seq<RoleId>,
                                acc: map<string, bool>, bound: nat): map<string, bool>
    requires Ranked(roles, rank) && ParentsBelow(roles, rank, parents, bound)
    decreases |parents|
  {
    if |parents| == 0 then acc
    else OverlayParents(roles, rank, parents[1..], acc + AllRolePermissions(roles, rank, parents[0]), bound)
  }

  /** A role's table is its own grants overwritten by each parent's
      flattened table in `extends` order: ancestors win over the role
      itself, and later parents win over earlier ones. */
  lemma ResolvedIsOwnThenParents(roles: RoleTable, rank: map<RoleId, nat>, id: RoleId)
    requires Ranked(roles, rank) && id in roles
    ensures AllRolePermissions(roles, rank, id)
            == OverlayParents(roles, rank, roles[id].parents, roles[id].grants, rank[id])
  {
    assert map[] + roles[id].grants == roles[id].grants;
    CollectParentsIsOverlay(roles, rank, roles[id].parents, roles[id].grants, rank[id]);
  }

  lemma {:induction false} CollectParentsIsOverlay(roles: RoleTable, rank: map<RoleId, nat>, parents: seq<RoleId>,
                                                   acc: map<string, bool>, bound: nat)
    requires Ranked(roles, rank) && ParentsBelow(roles, rank, parents, bound)
    ensures CollectParents(roles, rank, parents, acc, bound) == OverlayParents(roles, rank, parents, acc, bound)
    decreases |parents|
  {
    if |parents| > 0 {
      assert ParentsBelow(roles, rank, parents[1..], bound);
      CollectFrom(roles, rank, parents[0], acc);
      CollectParentsIsOverlay(roles, rank, parents[1..], Collect(roles, rank, parents[0], acc), bound);
    }
  }

  /** The value `OverlayParents` gives a key: the last parent whose table
      holds it, else the starting table. */
  lemma {:induction false} OverlayValue(roles: RoleTable, rank: map<RoleId, nat>, parents: seq<RoleId>,
                                        acc: map<string, bool>, bound: nat, k: string)
    requires Ranked(roles, rank) && ParentsBelow(roles, rank, parents, bound)
    ensures var t := OverlayParents(roles, rank, parents, acc, bound);
            && (k in t <==> k in acc || exists j :: 0 <= j < |parents| && k in AllRolePermissions(roles, rank, parents[j]))
            && (forall j :: 0 <= j < |parents| && k in AllRolePermissions(roles, rank, parents[j])
                  && (forall j' :: j < j' < |parents| ==> k !in AllRolePermissions(roles, rank, parents[j']))
                  ==> t[k] == AllRolePermissions(roles, rank, parents[j])[k])
            && ((forall j :: 0 <= j < |parents| ==> k !in AllRolePermissions(roles, rank, parents[j]))
                ==> (k in acc ==> t[k] == acc[k]))
    decreases |parents|
  {
    if |parents| > 0 {
      var rest := parents[1..];
      var acc' := acc + AllRolePermissions(roles, rank, parents[0]);
      assert ParentsBelow(roles, rank, rest, bound);
      OverlayValue(roles, rank, rest, acc', bound, k);
      assert forall j :: 1 <= j < |parents| ==> parents[j] == rest[j - 1];
    }
  }

  // ------------------------------------------------------------------
  // Reachability and the keys of the flattened table
  // ------------------------------------------------------------------

  /** `target` is `id` itself or reachable from it through `extends`. */
  ghost predicate Reaches(roles: RoleTable, rank: map<RoleId, nat>, id: RoleId, target: RoleId)
    requires Ranked(roles, rank) && id in roles
    decreases rank[id]
  {
    || id == target
    || exists j :: 0 <= j < |roles[id].parents| && Reaches(roles, rank, roles[id].parents[j], target)
  }

  /** The flattened table holds exactly the grant names of the roles
      reachable through `extends`. */
  lemma {:induction false} ResolvedKeys(roles: RoleTable, rank: map<RoleId, nat>, id: RoleId, k: string)
    requires Ranked(roles, rank) && id in roles
    ensures k in AllRolePermissions(roles, rank, id)
            <==> exists r :: r in roles && Reaches(roles, rank, id, r) && k in roles[r].grants
    decreases rank[id]
  {
    var ps := roles[id].parents;
    ResolvedIsOwnThenParents(roles, rank, id);
    OverlayValue(roles, rank, ps, roles[id].grants, rank[id], k);
    forall j | 0 <= j < |ps| {
      ResolvedKeys(roles, rank, ps[j], k);
    }
    if k in AllRolePermissions(roles, rank, id) {
      if k !in roles[id].grants {
        var j :| 0 <= j < |ps| && k in AllRolePermissions(roles, rank, ps[j]);
        var r :| r in roles && Reaches(roles, rank, ps[j], r) && k in roles[r].grants;
        assert Reaches(roles, rank, id, r);
      } else {
        assert Reaches(roles, rank, id, id);
      }
    }
    if exists r :: r in roles && Reaches(roles, rank, id, r) && k in roles[r].grants {
      var r :| r in roles && Reaches(roles, rank, id, r) && k in roles[r].grants;
      if r != id {
        var j :| 0 <= j < |ps| && Reaches(roles, rank, ps[j], r);
        assert k in AllRolePermissions(roles, rank, ps[j]);
      }
    }
  }

  /** A grant of any role reachable through `extends` appears in the
      flattened table. */
  lemma InheritedGrantPresent(roles: RoleTable, rank: map<RoleId, nat>, id: RoleId, ancestor: RoleId, k: string)
    requires Ranked(roles, rank) && id in roles && ancestor in roles
    requires Reaches(roles, rank, id, ancestor) && k in roles[ancestor].grants
    ensures k in AllRolePermissions(roles, rank, id)
  {
    ResolvedKeys(roles, rank, id, k);
  }

  /** For a key present in parent `j`'s flattened table and in no later
      parent's, the role's table takes parent `j`'s value, whatever the role
      grants itself. */
  lemma LaterParentWins(roles: RoleTable, rank: map<RoleId, nat>, id: RoleId, j: nat, k: string)
    requires Ranked(roles, rank) && id in roles
    requires j < |roles[id].parents|
    requires k in AllRolePermissions(roles, rank, roles[id].parents[j])
    requires forall j' :: j < j' < |roles[id].parents| ==> k !in AllRolePermissions(roles, rank, roles[id].parents[j'])
    ensures k in AllRolePermissions(roles, rank, id)
    ensures AllRolePermissions(roles, rank, id)[k] == AllRolePermissions(roles, rank, roles[id].parents[j])[k]
  {
    ResolvedIsOwnThenParents(roles, rank, id);
    OverlayValue(roles, rank, roles[id].parents, roles[id].grants, rank[id], k);
  }

  /** A role's own grant survives only when no parent's table holds the key. */
  lemma OwnGrantKeptWhenUnshadowed(roles: RoleTable, rank: map<RoleId, nat>, id: RoleId, k: string)
    requires Ranked(roles, rank) && id in roles
    requires k in roles[id].grants
    requires forall j :: 0 <= j < |roles[id].parents| ==> k !in AllRolePermissions(roles, rank, roles[id].parents[j])
    ensures k in AllRolePermissions(roles, rank, id)
    ensures AllRolePermissions(roles, rank, id)[k] == roles[id].grants[k]
  {
    ResolvedIsOwnThenParents(roles, rank, id);
    OverlayValue(roles, rank, roles[id].parents, roles[id].grants, rank[id], k);
  }

  // ------------------------------------------------------------------
  // check_permission and raise_without_permission
  // ------------------------------------------------------------------

  /** The user's role, if any, is a row of `roles` (a foreign key). */
  predicate RoleKnown(roles: RoleTable, user: User)
  {
    user.role.Some? ==> user.role.value in roles
  }

  /** `User.check_permission`: refuse outright without a role; otherwise
      flatten the role and match the dotted key against the table. */
  function CheckPermission(roles: RoleTable, ghost rank: map<RoleId, nat>, user: User, permission: string): (allowed: bool)
    requires Ranked(roles, rank) && RoleKnown(roles, user)
    ensures user.role.None? ==> !allowed
    ensures user.role.Some? && permission in AllRolePermissions(roles, rank, user.role.value)
            ==> allowed == AllRolePermissions(roles, rank, user.role.value)[permission]
    ensures user.role.Some?
            ==> PermissionMatch.PrefixRule(PyStr.Split(permission, '.'), AllRolePermissions(roles, rank, user.role.value), allowed)
  {
    if user.role.None? then false
    else
      var table := AllRolePermissions(roles, rank, user.role.value);
      var allowed := PermissionMatch.CheckKey(permission, table);
      assert permission in table ==> allowed == table[permission] by {
        if permission in table {
          PermissionMatch.ExactKeyFirst(permission, table);
        }
      }
      allowed
  }

  /** `raise_without_permission`: a `PermissionError` naming the key exactly
      when the check refuses, and nothing otherwise. */
  function RaiseWithoutPermission(roles: RoleTable, ghost rank: map<RoleId, nat>, user: User, permission: string): (r: Outcome<string>)
    requires Ranked(roles, rank) && RoleKnown(roles, user)
    ensures r.Fail? <==> !CheckPermission(roles, rank, user, permission)
    ensures r.Fail? ==> r.error == "User does not have permission: " + permission
  {
    if !CheckPermission(roles, rank, user, permission) then
      Fail("User does not have permission: " + permission)
    else Pass
  }

  // ------------------------------------------------------------------
  // Permission.__str__ and the user manager
  // ------------------------------------------------------------------

  /** `Permission.__str__`: the name, marked with `~` when denied. */
  function PermissionString(p: Grant): (s: string)
    ensures p.isAllowed ==> s == p.name
    ensures !p.isAllowed ==> |s| == |p.name| + 1 && s[0] == '~' && s[1..] == p.name
  {
    (if p.isAllowed then "" else "~") + p.name
  }

  /** The keyword arguments `create_user` / `create_superuser` look at;
      `None` means the caller did not pass it. */
  datatype ExtraFields = ExtraFields(isStaff: Option<bool>, isSuperuser: Option<bool>, isActive: Option<bool>)

  /** `CustomUserManager.create_user`: an empty username raises `ValueError`;
      otherwise a role-less user with the model's field defaults for
      anything not passed. */
  function CreateUser(pk: nat, username: string, fullName: string, extra: ExtraFields): (r: Result<User, string>)
    ensures r.Failure? <==> username == ""
    ensures r.Failure? ==> r.error == "The Username must be set"
    ensures r.Success? ==> r.value.pk == pk && r.value.username == username
                           && r.value.fullName == fullName && r.value.role.None?
    ensures r.Success? ==> r.value.isStaff == (extra.isStaff == Some(true))
                           && r.value.isSuperuser == (extra.isSuperuser == Some(true))
                           && r.value.isActive == (extra.isActive != Some(false))
  {
    if username == "" then Failure("The Username must be set")
    else Success(User(pk, username, fullName,
                      extra.isStaff.GetOr(false), extra.isSuperuser.GetOr(false),
                      extra.isActive.GetOr(true), None))
  }

  /** `CustomUserManager.create_superuser`: staff, superuser and active
      default to true; an explicit false for staff or superuser raises
      `ValueError` (staff checked first), before the username check. */
  function CreateSuperuser(pk: nat, username: string, fullName: string, extra: ExtraFields): (r: Result<User, string>)
    ensures r.Success? <==> username != "" && extra.isStaff != Some(false) && extra.isSuperuser != Some(false)
    ensures extra.isStaff == Some(false) ==> r == Failure("Superuser must have is_staff=True.")
    ensures extra.isStaff != Some(false) && extra.isSuperuser == Some(false)
            ==> r == Failure("Superuser must have is_superuser=True.")
    ensures r.Success? ==> r.value.isStaff && r.value.isSuperuser && r.value.role.None?
                           && r.value.isActive == (extra.isActive != Some(false))
  {
    var staff := extra.isStaff.GetOr(true);
    var superuser := extra.isSuperuser.GetOr(true);
    var active := extra.isActive.GetOr(true);
    if !staff then Failure("Superuser must have is_staff=True.")
    else if !superuser then Failure("Superuser must have is_superuser=True.")
    else CreateUser(pk, username, fullName, ExtraFields(Some(staff), Some(superuser), Some(active)))
  }
}

=== FILE: orm_scenarios.dfy ===
/** The resolver's behaviour on the concrete role set-ups exercised by the
    account tests, including the precedence case whose test never runs. */
module OrmScenarios {
  import opened Results
  import PyStr
  import PermissionMatch
  import opened OrmPermissions

  const TestRoleId: RoleId := 1
  const ParentRoleId: RoleId := 2

  /** A user holding `TestRole`. */
  function Holder(role: RoleId): User
  {
    User(7, "testuser", "Test User", false, false, true, Some(role))
  }

  /** `TestRole` with one allow, one deny and one nested allow, extending
      `ParentRole`, which allows `parent.permission`. */
  function TestRoles(): RoleTable
  {
    map[
      TestRoleId := Role("TestRole",
                         map["test.permission" := true, "test.denied" := false,
                             "test.nested.permission" := true],
                         [ParentRoleId]),
      ParentRoleId := Role("ParentRole", map["parent.permission" := true], [])
    ]
  }

  function TestRanks(): map<RoleId, nat>
  {
    map[TestRoleId := 1, ParentRoleId := 0]
  }

  lemma TestRolesRanked()
    ensures Ranked(TestRoles(), TestRanks())
  {
  }

  /** The resolved table of `TestRole`: its own three grants and the
      inherited `parent.permission`. */
  lemma TestRoleTable()
    ensures Ranked(TestRoles(), TestRanks())
    ensures var table := AllRolePermissions(TestRoles(), TestRanks(), TestRoleId);
            && "test.permission" in table && table["test.permission"]
            && "test.denied" in table && !table["test.denied"]
            && "test.nested.permission" in table && table["test.nested.permission"]
            && "parent.permission" in table && table["parent.permission"]
  {
    var roles, rank := TestRoles(), TestRanks();
    assert Reaches(roles, rank, TestRoleId, ParentRoleId) by {
      assert roles[TestRoleId].parents[0] == ParentRoleId;
      assert Reaches(roles, rank, ParentRoleId, ParentRoleId);
    }
    InheritedGrantPresent(roles, rank, TestRoleId, ParentRoleId, "parent.permission");
    InheritedGrantPresent(roles, rank, TestRoleId, TestRoleId, "test.permission");
    InheritedGrantPresent(roles, rank, TestRoleId, TestRoleId, "test.denied");
    InheritedGrantPresent(roles, rank, TestRoleId, TestRoleId, "test.nested.permission");
    assert AllRolePermissions(roles, rank, ParentRoleId) == map["parent.permission" := true];
    OwnGrantKeptWhenUnshadowed(roles, rank, TestRoleId, "test.permission");
    OwnGrantKeptWhenUnshadowed(roles, rank, TestRoleId, "test.denied");
    OwnGrantKeptWhenUnshadowed(roles, rank, TestRoleId, "test.nested.permission");
    LaterParentWins(roles, rank, TestRoleId, 0, "parent.permission");
  }

  /** Explicit allow and deny, a nested key, and a grant inherited from
      the extended role all resolve as the tests expect. */
  lemma GrantedDeniedNestedInherited()
    ensures Ranked(TestRoles(), TestRanks())
    ensures CheckPermission(TestRoles(), TestRanks(), Holder(TestRoleId), "test.permission")
    ensures !CheckPermission(TestRoles(), TestRanks(), Holder(TestRoleId), "test.denied")
    ensures CheckPermission(TestRoles(), TestRanks(), Holder(TestRoleId), "test.nested.permission")
    ensures CheckPermission(TestRoles(), TestRanks(), Holder(TestRoleId), "parent.permission")
  {
    TestRoleTable();
  }

  /** A user without a role is refused whatever the key. */
  lemma NoRoleRefused(roles: RoleTable, rank: map<RoleId, nat>, user: User, permission: string)
    requires Ranked(roles, rank) && user.role.None?
    ensures !CheckPermission(roles, rank, user, permission)
  {
  }

  /** A role whose only grant is an allowing `".*"`. */
  function WildcardRoles(): RoleTable
  {
    map[TestRoleId := Role("TestRole", map[PermissionMatch.Wildcard := true], [])]
  }

  function LeafRank(): map<RoleId, nat>
  {
    map[TestRoleId := 0]
  }

  lemma WildcardTable()
    ensures Ranked(WildcardRoles(), LeafRank())
    ensures AllRolePermissions(WildcardRoles(), LeafRank(), TestRoleId) == map[PermissionMatch.Wildcard := true]
  {
    var table := map[PermissionMatch.Wildcard := true];
    assert map[] + table == table;
  }

  lemma ThreeSegmentKey()
    ensures PyStr.Join(["any", "random", "permission"], '.') == "any.random.permission"
  {
    var segments := ["any", "random", "permission"];
    assert PyStr.Join(segments[2..], '.') == "permission";
    assert PyStr.Join(segments[1..], '.') == "random.permission";
  }

  lemma ThreeSegmentPrefixes()
    ensures forall i :: 1 <= i <= 3 ==> PermissionMatch.Prefix(["any", "random", "permission"], i) != PermissionMatch.Wildcard
  {
    var segments := ["any", "random", "permission"];
    assert segments[..1] == ["any"];
    assert segments[..2] == ["any", "random"];
    assert PermissionMatch.Prefix(segments, 1) != PermissionMatch.Wildcard;
    assert PermissionMatch.Prefix(segments, 2) != PermissionMatch.Wildcard;
    assert PermissionMatch.Prefix(segments, 3) != PermissionMatch.Wildcard;
  }

  lemma WildcardMatchesUnlistedKey()
    ensures PermissionMatch.CheckKey("any.random.permission", map[PermissionMatch.Wildcard := true])
  {
    var segments := ["any", "random", "permission"];
    ThreeSegmentKey();
    ThreeSegmentPrefixes();
    PermissionMatch.CheckJoinedKey(segments, map[PermissionMatch.Wildcard := true]);
    PermissionMatch.WildcardOnlyAllows(segments);
  }

  /** The allowing wildcard lets the role through on a three-segment key
      that no grant names. */
  lemma WildcardAllowsUnlistedKey()
    ensures Ranked(WildcardRoles(), LeafRank())
    ensures CheckPermission(WildcardRoles(), LeafRank(), Holder(TestRoleId), "any.random.permission")
  {
    WildcardTable();
    WildcardMatchesUnlistedKey();
  }

  /** The precedence case the test suite means to check (a child's deny
      over its parent's allow for the same key) resolves the other way: the
      parent's value is written last and wins. */
  lemma ParentAllowOverridesChildDeny()
    ensures var roles := map[
              TestRoleId := Role("TestRole", map["shared.permission" := false], [ParentRoleId]),
              ParentRoleId := Role("ParentRole", map["shared.permission" := true], [])];
            && Ranked(roles, TestRanks())
            && CheckPermission(roles, TestRanks(), Holder(TestRoleId), "shared.permission")
  {
    var roles := map[
      TestRoleId := Role("TestRole", map["shared.permission" := false], [ParentRoleId]),
      ParentRoleId := Role("ParentRole", map["shared.permission" := true], [])];
    assert AllRolePermissions(roles, TestRanks(), ParentRoleId) == map["shared.permission" := true];
    LaterParentWins(roles, TestRanks(), TestRoleId, 0, "shared.permission");
  }
}

=== FILE: permission_match.dfy ===
/** The matching step shared by both resolvers: a dotted key is looked up
    in a flat permission table, first as a whole, then with trailing
    segments dropped one at a time, and finally through the literal
    wildcard key `".*"`. Both `User._check_split_permission` and
    `Role._check_split_permission` follow this algorithm. */
module PermissionMatch {
  import PyStr

  /** The literal key consulted when no prefix of the request has an entry.
      It is an ordinary table key, not a pattern. */
  const Wildcard: string := ".*"

  /** The candidate key made of the first `i` segments, joined by dots. */
  function Prefix(segments: seq<string>, i: nat): string
    requires 1 <= i <= |segments|
  {
    PyStr.Join(segments[..i], '.')
  }

  /** The value of the wildcard entry, `False` when there is none. */
  function WildcardValue(table: map<string, bool>): bool
  {
    Wildcard in table && table[Wildcard]
  }

  /** `_check_split_permission`: the whole key, then shorter and shorter
      prefixes down to the first segment; the first entry found decides.
      Only when none is found does the wildcard decide. */
  function CheckSplit(segments: seq<string>, table: map<string, bool>): (allowed: bool)
    requires |segments| >= 1
    ensures Prefix(segments, |segments|) in table ==> allowed == table[Prefix(segments, |segments|)]
    ensures (exists i :: 1 <= i <= |segments| && Prefix(segments, i) in table && allowed == table[Prefix(segments, i)])
            || allowed == WildcardValue(table)
    decreases |segments|
  {
    var n := |segments|;
    assert segments[..n] == segments;
    if n == 1 then
      if segments[0] in table then table[segments[0]] else WildcardValue(table)
    else
      var key := PyStr.Join(segments, '.');
      if key in table then table[key]
      else
        var shorter := segments[..n - 1];
        var allowed := CheckSplit(shorter, table);
        assert (exists i :: 1 <= i <= n && Prefix(segments, i) in table && allowed == table[Prefix(segments, i)])
               || allowed == WildcardValue(table) by {
          if allowed != WildcardValue(table) {
            var i :| 1 <= i <= n - 1 && Prefix(shorter, i) in table && allowed == table[Prefix(shorter, i)];
            PrefixOfPrefix(segments, n - 1, i);
          }
        }
        allowed
  }

  /** `check_permission`'s matching step: split the requested key on `.`
      and match the segments. */
  function CheckKey(permission: string, table: map<string, bool>): (allowed: bool)
    ensures PrefixRule(PyStr.Split(permission, '.'), table, allowed)
  {
    LongestPrefixDecides(PyStr.Split(permission, '.'), table);
    CheckSplit(PyStr.Split(permission, '.'), table)
  }

  lemma PrefixOfPrefix(segments: seq<string>, n: nat, i: nat)
    requires 1 <= i <= n <= |segments|
    ensures Prefix(segments[..n], i) == Prefix(segments, i)
  {
    assert segments[..n][..i] == segments[..i];
  }

  /** The longest prefix that has an entry decides; if none has one, the
      wildcard decides, and a missing wildcard means `False`. */
  lemma {:induction false} LongestPrefixDecides(segments: seq<string>, table: map<string, bool>)
    requires |segments| >= 1
    ensures forall i :: 1 <= i <= |segments| && Prefix(segments, i) in table
                        && (forall j :: i < j <= |segments| ==> Prefix(segments, j) !in table)
                        ==> CheckSplit(segments, table) == table[Prefix(segments, i)]
    ensures (forall i :: 1 <= i <= |segments| ==> Prefix(segments, i) !in table)
            ==> CheckSplit(segments, table) == WildcardValue(table)
    decreases |segments|
  {
    var n := |segments|;
    assert segments[..n] == segments;
    if n == 1 {
      assert Prefix(segments, 1) == segments[0];
    } else {
      var shorter := segments[..n - 1];
      LongestPrefixDecides(shorter, table);
      forall i | 1 <= i <= n - 1 {
        PrefixOfPrefix(segments, n - 1, i);
      }
      var key := PyStr.Join(segments, '.');
      assert Prefix(segments, n) == key;
      if key !in table {
        assert CheckSplit(segments, table) == CheckSplit(shorter, table);
        forall i | 1 <= i <= n && Prefix(segments, i) in table
                   && (forall j :: i < j <= n ==> Prefix(segments, j) !in table)
          ensures CheckSplit(segments, table) == table[Prefix(segments, i)]
        {
          assert i < n;
          assert Prefix(shorter, i) == Prefix(segments, i);
          forall j | i < j <= n - 1
            ensures Prefix(shorter, j) !in table
          {
            assert Prefix(shorter, j) == Prefix(segments, j);
          }
        }
        if forall i :: 1 <= i <= n ==> Prefix(segments, i) !in table {
          forall i | 1 <= i <= n - 1
            ensures Prefix(shorter, i) !in table
          {
            assert Prefix(shorter, i) == Prefix(segments, i);
          }
        }
      }
    }
  }

  /** The matching rule stated without the recursion: the longest prefix
      of the segments that has an entry decides, and when no prefix has
      one the wildcard decides. */
  ghost predicate PrefixRule(segments: seq<string>, table: map<string, bool>, allowed: bool)
  {
    |segments| >= 1
    && (forall i :: 1 <= i <= |segments| && Prefix(segments, i) in table
                    && (forall j :: i < j <= |segments| ==> Prefix(segments, j) !in table)
                    ==> allowed == table[Prefix(segments, i)])
    && ((forall i :: 1 <= i <= |segments| ==> Prefix(segments, i) !in table)
        ==> allowed == WildcardValue(table))
  }

  /** Some prefix up to `n` has an entry and none beyond `n` has: then
      there is a longest one. */
  lemma {:induction false} LongestEntryExists(segments: seq<string>, table: map<string, bool>, n: nat)
    requires 1 <= n <= |segments|
    requires exists i :: 1 <= i <= n && Prefix(segments, i) in table
    requires forall j :: n < j <= |segments| ==> Prefix(segments, j) !in table
    ensures exists i :: 1 <= i <= |segments| && Prefix(segments, i) in table
                        && (forall j :: i < j <= |segments| ==> Prefix(segments, j) !in table)
    decreases n
  {
    if Prefix(segments, n) !in table {
      var i :| 1 <= i <= n && Prefix(segments, i) in table;
      assert i < n;
      LongestEntryExists(segments, table, n - 1);
    }
  }

  /** The rule leaves exactly one answer, so it is a complete description
      of the matching. */
  lemma PrefixRuleDecidesUniquely(segments: seq<string>, table: map<string, bool>, a: bool, b: bool)
    requires PrefixRule(segments, table, a) && PrefixRule(segments, table, b)
    ensures a == b
  {
    if exists i :: 1 <= i <= |segments| && Prefix(segments, i) in table {
      var i :| 1 <= i <= |segments| && Prefix(segments, i) in table;
      LongestEntryExists(segments, table, |segments|);
    }
  }

  /** The table answers for the exact requested key before anything else:
      re-joining the split key gives the key itself. */
  lemma ExactKeyFirst(key: string, table: map<string, bool>)
    requires key in table
    ensures CheckKey(key, table) == table[key]
  {
    var segments := PyStr.Split(key, '.');
    PyStr.JoinSplit(key, '.');
    assert segments[..|segments|] == segments;
    LongestPrefixDecides(segments, table);
  }

  /** A key written as dot-free segments joined by dots is matched
      segment by segment. */
  lemma CheckJoinedKey(segments: seq<string>, table: map<string, bool>)
    requires |segments| >= 1
    requires forall i :: 0 <= i < |segments| ==> '.' !in segments[i]
    ensures CheckKey(PyStr.Join(segments, '.'), table) == CheckSplit(segments, table)
  {
    PyStr.SplitJoin(segments, '.');
  }

  /** An explicit entry for some prefix, allow or deny, beats the wildcard
      provided no longer prefix has an entry. */
  lemma PrefixBeatsWildcard(segments: seq<string>, table: map<string, bool>, i: nat)
    requires 1 <= i <= |segments|
    requires Prefix(segments, i) in table
    requires forall j :: i < j <= |segments| ==> Prefix(segments, j) !in table
    ensures CheckSplit(segments, table) == table[Prefix(segments, i)]
  {
    LongestPrefixDecides(segments, table);
  }

  /** With nothing in the table, every request is refused. */
  lemma EmptyTableRefuses(segments: seq<string>)
    requires |segments| >= 1
    ensures !CheckSplit(segments, map[])
  {
    LongestPrefixDecides(segments, map[]);
  }

  /** A table holding only an allowing wildcard allows every request. */
  lemma WildcardOnlyAllows(segments: seq<string>)
    requires |segments| >= 1
    requires forall i :: 1 <= i <= |segments| ==> Prefix(segments, i) != Wildcard
    ensures CheckSplit(segments, map[Wildcard := true])
  {
    var table := map[Wildcard := true];
    assert WildcardValue(table);
    forall i | 1 <= i <= |segments|
      ensures Prefix(segments, i) !in table
    {
      assert table.Keys == {Wildcard};
    }
  }
}

=== FILE: pystr.dfy ===
/** The parts of Python's `str` behaviour that the application code relies
    on: `split`/`join` on one separator, `split()` on whitespace, `strip`,
    `lower`, and `str()` of a non-negative integer. */
module PyStr {

  // ------------------------------------------------------------------
  // split and join on a one-character separator
  // ------------------------------------------------------------------

  /** `s.split(sep)`: the pieces between separators, in order. Never empty:
      `"".split(".")` is `[""]`, and empty pieces are kept. */
  function Split(s: string, sep: char): (parts: seq<string>)
    ensures |parts| >= 1
    ensures sep in s ==> |parts| >= 2
    ensures forall i :: 0 <= i < |parts| ==> sep !in parts[i]
    decreases |s|
  {
    if |s| == 0 then [""]
    else
      var rest := Split(s[1..], sep);
      assert sep in s && s[0] != sep ==> sep in s[1..];
      if s[0] == sep then [""] + rest
      else [[s[0]] + rest[0]] + rest[1..]
  }

  /** `sep.join(parts)`. */
  function Join(parts: seq<string>, sep: char): (s: string)
    ensures |parts| >= 1 ==> parts[0] <= s
    ensures |parts| >= 2 ==> sep in s
    ensures forall i :: 0 <= i < |parts| ==> |parts[i]| <= |s|
    decreases |parts|
  {
    if |parts| == 0 then ""
    else if |parts| == 1 then parts[0]
    else parts[0] + [sep] + Join(parts[1..], sep)
  }

  /** Joining the pieces of a split gives back the original string. */
  lemma {:induction false} JoinSplit(s: string, sep: char)
    ensures Join(Split(s, sep), sep) == s
    decreases |s|
  {
    if |s| > 0 {
      var rest := Split(s[1..], sep);
      JoinSplit(s[1..], sep);
      assert s == [s[0]] + s[1..];
      if s[0] == sep {
        assert ([""] + rest)[1..] == rest;
      } else if |rest| > 1 {
        assert ([[s[0]] + rest[0]] + rest[1..])[1..] == rest[1..];
      }
    }
  }

  /** A string without the separator splits into itself alone. */
  lemma {:induction false} SplitWithoutSep(s: string, sep: char)
    requires sep !in s
    ensures Split(s, sep) == [s]
    decreases |s|
  {
    if |s| > 0 {
      SplitWithoutSep(s[1..], sep);
      assert [s[0]] + s[1..] == s;
    }
  }

  lemma {:induction false} SplitPrepend(w: string, t: string, sep: char)
    requires sep !in w
    ensures Split(w + t, sep) == [w + Split(t, sep)[0]] + Split(t, sep)[1..]
    decreases |w|
  {
    if |w| == 0 {
      assert w + t == t;
      assert w + Split(t, sep)[0] == Split(t, sep)[0];
    } else {
      assert (w + t)[1..] == w[1..] + t;
      SplitPrepend(w[1..], t, sep);
      assert [w[0]] + (w[1..] + Split(t, sep)[0]) == w + Split(t, sep)[0];
    }
  }

  /** Splitting pieces joined by the separator gives the pieces back,
      provided no piece contains the separator. */
  lemma {:induction false} SplitJoin(parts: seq<string>, sep: char)
    requires |parts| >= 1
    requires forall i :: 0 <= i < |parts| ==> sep !in parts[i]
    ensures Split(Join(parts, sep), sep) == parts
    decreases |parts|
  {
    if |parts| == 1 {
      SplitWithoutSep(parts[0], sep);
    } else {
      var w := parts[0];
      var j := Join(parts[1..], sep);
      SplitJoin(parts[1..], sep);
      assert Split([sep] + j, sep) == [""] + parts[1..] by {
        assert ([sep] + j)[1..] == j;
      }
      assert w + [sep] + j == w + ([sep] + j);
      SplitPrepend(w, [sep] + j, sep);
      assert w + "" == w;
      assert [w] + parts[1..] == parts;
    }
  }

  /** `s.split(sep)[-1]`: the text after the last separator (all of `s`
      when there is none). */
  function LastPiece(s: string, sep: char): string
  {
    var parts := Split(s, sep);
    parts[|parts| - 1]
  }

  /** No piece of a split is longer than the string. */
  lemma {:induction false} SplitPiecesShorter(s: string, sep: char)
    ensures forall i :: 0 <= i < |Split(s, sep)| ==> |Split(s, sep)[i]| <= |s|
    decreases |s|
  {
    if |s| > 0 {
      SplitPiecesShorter(s[1..], sep);
    }
  }

  lemma LastPieceShorter(s: string, sep: char)
    ensures |LastPiece(s, sep)| <= |s|
  {
    SplitPiecesShorter(s, sep);
  }

  lemma {:induction false} LastPieceOfSuffix(a: string, t: string, sep: char)
    requires sep in t
    ensures LastPiece(a + t, sep) == LastPiece(t, sep)
    decreases |a|
  {
    if |a| > 0 {
      var x := a + t;
      assert x[1..] == a[1..] + t;
      LastPieceOfSuffix(a[1..], t, sep);
      assert sep in x[1..] by {
        var k :| 0 <= k < |t| && t[k] == sep;
        assert x[1..][|a| - 1 + k] == sep;
      }
    } else {
      assert a + t == t;
    }
  }

  /** Whatever precedes the last separator, the last piece is what follows it. */
  lemma LastPieceAfterSep(a: string, b: string, sep: char)
    requires sep !in b
    ensures LastPiece(a + [sep] + b, sep) == b
  {
    var t := [sep] + b;
    assert a + [sep] + b == a + t;
    assert sep == t[0];
    LastPieceOfSuffix(a, t, sep);
    SplitWithoutSep(b, sep);
    assert t[1..] == b;
  }

  // ------------------------------------------------------------------
  // whitespace: split(), strip()
  // ------------------------------------------------------------------

  /** Python's `str.isspace()` for a single character. */
  predicate IsSpace(c: char)
  {
    || c == ' '
    || '\t' <= c <= '\r'
    || '\U{1c}' <= c <= '\U{1f}'
    || c == '\U{85}' || c == '\U{a0}' || c == '\U{1680}'
    || '\U{2000}' <= c <= '\U{200a}'
    || c == '\U{2028}' || c == '\U{2029}' || c == '\U{202f}'
    || c == '\U{205f}' || c == '\U{3000}'
  }

  predicate NoSpace(w: string)
  {
    forall i :: 0 <= i < |w| ==> !IsSpace(w[i])
  }

  /** What `s.split()` returns: non-empty words without whitespace. */
  predicate IsWordList(ws: seq<string>)
  {
    forall i :: 0 <= i < |ws| ==> |ws[i]| > 0 && NoSpace(ws[i])
  }

  /** Length of the longest whitespace-free prefix of `s`. */
  function WordLength(s: string): (n: nat)
    ensures n <= |s|
    ensures forall i :: 0 <= i < n ==> !IsSpace(s[i])
    ensures n < |s| ==> IsSpace(s[n])
    decreases |s|
  {
    if |s| == 0 || IsSpace(s[0]) then 0 else 1 + WordLength(s[1..])
  }

  /** `s.split()`: the maximal runs of non-whitespace, in order. */
  function Words(s: string): (ws: seq<string>)
    ensures IsWordList(ws)
    decreases |s|
  {
    if |s| == 0 then []
    else if IsSpace(s[0]) then Words(s[1..])
    else
      var n := WordLength(s);
      [s[..n]] + Words(s[n..])
  }

  lemma {:induction false} WordLengthOfWord(w: string, t: string)
    requires NoSpace(w)
    requires |t| == 0 || IsSpace(t[0])
    ensures WordLength(w + t) == |w|
    decreases |w|
  {
    if |w| == 0 {
      assert w + t == t;
    } else {
      assert (w + t)[1..] == w[1..] + t;
      WordLengthOfWord(w[1..], t);
    }
  }

  /** Leading whitespace contributes no word. */
  lemma WordsSkipSpace(c: char, t: string)
    requires IsSpace(c)
    ensures Words([c] + t) == Words(t)
  {
    assert ([c] + t)[1..] == t;
  }

  /** A word ended by whitespace is the first piece; splitting carries on
      after the whitespace. */
  lemma WordsOfWordThenSpace(w: string, c: char, t: string)
    requires |w| > 0 && NoSpace(w) && IsSpace(c)
    ensures Words(w + [c] + t) == [w] + Words(t)
  {
    WordsSkipSpace(c, t);
    var s := w + [c] + t;
    assert s == w + ([c] + t);
    WordLengthOfWord(w, [c] + t);
    assert s[..|w|] == w;
    assert s[|w|..] == [c] + t;
  }

  /** A string without whitespace is one word. */
  lemma WordsOfWord(w: string)
    requires |w| > 0 && NoSpace(w)
    ensures Words(w) == [w]
  {
    WordLengthOfWord(w, "");
    assert w + "" == w;
    assert w[..|w|] == w && w[|w|..] == "";
  }

  /** Splitting words joined by single spaces gives the words back. */
  lemma {:induction false} WordsOfJoin(ws: seq<string>)
    requires IsWordList(ws)
    ensures Words(Join(ws, ' ')) == ws
    decreases |ws|
  {
    if |ws| == 1 {
      var w := ws[0];
      WordLengthOfWord(w, "");
      assert w + "" == w;
      assert w[..|w|] == w && w[|w|..] == "";
    } else if |ws| > 1 {
      var w := ws[0];
      var j := Join(ws[1..], ' ');
      var s := w + [' '] + j;
      assert s == w + ([' '] + j);
      WordLengthOfWord(w, [' '] + j);
      assert s[..|w|] == w;
      assert s[|w|..] == [' '] + j;
      assert ([' '] + j)[1..] == j;
      WordsOfJoin(ws[1..]);
      assert [w] + ws[1..] == ws;
    }
  }

  /** The first word opens the joined string and the last word closes it. */
  lemma {:induction false} JoinEnds(ws: seq<string>, sep: char)
    requires |ws| > 0
    ensures ws[0] <= Join(ws, sep)
    ensures |Join(ws, sep)| >= |ws[|ws| - 1]|
    ensures Join(ws, sep)[|Join(ws, sep)| - |ws[|ws| - 1]|..] == ws[|ws| - 1]
    decreases |ws|
  {
    if |ws| > 1 {
      JoinEnds(ws[1..], sep);
    }
  }

  /** Whitespace in words joined by single spaces: every whitespace
      character is a plain space, strictly inside, between two
      non-whitespace characters. */
  predicate SingleSpaced(r: string)
  {
    forall i :: 0 <= i < |r| && IsSpace(r[i]) ==>
      r[i] == ' ' && 0 < i < |r| - 1 && !IsSpace(r[i - 1]) && !IsSpace(r[i + 1])
  }

  lemma {:induction false} JoinSingleSpaced(ws: seq<string>)
    requires IsWordList(ws)
    ensures SingleSpaced(Join(ws, ' '))
    decreases |ws|
  {
    if |ws| > 1 {
      var w := ws[0];
      var j := Join(ws[1..], ' ');
      var r := Join(ws, ' ');
      assert r == w + [' '] + j;
      JoinSingleSpaced(ws[1..]);
      JoinEnds(ws[1..], ' ');
      assert ws[1..][0] == ws[1];
      assert |j| > 0 && j[0] == ws[1][0];
      assert forall i :: 0 <= i < |w| ==> r[i] == w[i];
      forall i | 0 <= i < |r| && IsSpace(r[i])
        ensures r[i] == ' ' && 0 < i < |r| - 1 && !IsSpace(r[i - 1]) && !IsSpace(r[i + 1])
      {
        if i < |w| {
          assert false;
        } else if i == |w| {
          assert r[i - 1] == w[|w| - 1];
          assert r[i + 1] == j[0];
        } else {
          var k := i - |w| - 1;
          assert r[i] == j[k];
          if k == 0 {
            assert false;
          }
          assert r[i - 1] == j[k - 1] && r[i + 1] == j[k + 1];
        }
      }
    }
  }

  /** `s.lstrip()`. */
  function TrimStart(s: string): (r: string)
    ensures |r| <= |s| && r == s[|s| - |r|..]
    ensures |r| > 0 ==> !IsSpace(r[0])
    decreases |s|
  {
    if |s| > 0 && IsSpace(s[0]) then TrimStart(s[1..]) else s
  }

  /** `s.rstrip()`. */
  function TrimEnd(s: string): (r: string)
    ensures |r| <= |s| && r == s[..|r|]
    ensures |r| > 0 ==> !IsSpace(r[|r| - 1])
    decreases |s|
  {
    if |s| > 0 && IsSpace(s[|s| - 1]) then TrimEnd(s[..|s| - 1]) else s
  }

  /** `s.strip()`: leading and trailing whitespace removed. */
  function Strip(s: string): (r: string)
    ensures |r| > 0 ==> !IsSpace(r[0]) && !IsSpace(r[|r| - 1])
  {
    TrimEnd(TrimStart(s))
  }

  lemma StripUnpadded(s: string)
    requires |s| > 0 ==> !IsSpace(s[0]) && !IsSpace(s[|s| - 1])
    ensures Strip(s) == s
  {
  }

  // ------------------------------------------------------------------
  // lower()
  // ------------------------------------------------------------------

  function LowerChar(c: char): char
  {
    if 'A' <= c <= 'Z' then (c as int - 'A' as int + 'a' as int) as char else c
  }

  /** `s.lower()` on the ASCII letters (other characters are kept). */
  function Lower(s: string): (r: string)
    ensures |r| == |s|
    ensures forall i :: 0 <= i < |s| ==> r[i] == LowerChar(s[i])
  {
    seq(|s|, i requires 0 <= i < |s| => LowerChar(s[i]))
  }

  /** `s.strip().lower()`, the canonical form of role and group names. */
  function Canonical(s: string): (c: string)
    ensures Lower(c) == c
    ensures |c| > 0 ==> !IsSpace(c[0]) && !IsSpace(c[|c| - 1])
    ensures |c| <= |s|
  {
    var t := Strip(s);
    LowerTwice(t);
    StripShorter(s);
    Lower(t)
  }

  lemma StripShorter(s: string)
    ensures |Strip(s)| <= |s|
  {
  }

  lemma LowerTwice(s: string)
    ensures Lower(Lower(s)) == Lower(s)
  {
  }

  /** Canonicalising an already canonical name changes nothing. */
  lemma CanonicalIdempotent(s: string)
    ensures Canonical(Canonical(s)) == Canonical(s)
  {
    var t := Lower(Strip(s));
    StripUnpadded(t);
    LowerTwice(Strip(s));
  }

  // ------------------------------------------------------------------
  // str(n) for a non-negative integer
  // ------------------------------------------------------------------

  predicate IsDigit(c: char)
  {
    '0' <= c <= '9'
  }

  predicate AllDigits(s: string)
  {
    forall i :: 0 <= i < |s| ==> IsDigit(s[i])
  }

  function DigitChar(d: nat): char
    requires d < 10
  {
    ('0' as int + d) as char
  }

  /** `str(n)`: decimal digits, no sign, no leading zero. */
  function DecimalString(n: nat): (r: string)
    ensures |r| >= 1 && AllDigits(r)
    ensures |r| > 1 ==> r[0] != '0'
    decreases n
  {
    if n < 10 then [DigitChar(n)] else DecimalString(n / 10) + [DigitChar(n % 10)]
  }

  /** `int(s)` for a string of decimal digits. */
  function DecimalValue(s: string): nat
    requires AllDigits(s)
    decreases |s|
  {
    if |s| == 0 then 0
    else DecimalValue(s[..|s| - 1]) * 10 + (s[|s| - 1] as int - '0' as int)
  }

  /** Reading back the decimal form of `n` gives `n`. */
  lemma {:induction false} DecimalRoundTrip(n: nat)
    ensures DecimalValue(DecimalString(n)) == n
    decreases n
  {
    if n >= 10 {
      var s := DecimalString(n);
      assert s[..|s| - 1] == DecimalString(n / 10);
      DecimalRoundTrip(n / 10);
    }
  }

  /** Distinct integers have distinct decimal forms. */
  lemma DecimalInjective(m: nat, n: nat)
    requires DecimalString(m) == DecimalString(n)
    ensures m == n
  {
    DecimalRoundTrip(m);
    DecimalRoundTrip(n);
  }
}

=== FILE: results.dfy ===
/** Optional values and success/failure values, standing in for Python's
    `None` and for raised exceptions. */
module Results {

  /** A value that may be absent (Python `None`). */
  datatype Option<+T> = None | Some(value: T) {

    /** The value, or `default` when absent (Python `d.get(k, default)`). */
    function GetOr(default: T): T {
      match this
      case Some(v) => v
      case None => default
    }
  }

  /** The outcome of a call that either returns a value or raises an error. */
  datatype Result<+R, +E> = Success(value: R) | Failure(error: E)

  /** The outcome of a check that returns nothing or raises an error. */
  datatype Outcome<+E> = Pass | Fail(error: E)
}

=== FILE: role_seeding.dfy ===
/** The role seeding run after every migration
    (`InsuranceClaimsUser/apps.py`): the four configured roles are fetched or
    created by lowercased name, each configured grant is fetched or created
    (allowed when new), and every superuser without a role is given the
    admin role. Grants are per role; role names are not unique in the
    database, so a lookup that finds two roles fails. */
module RoleSeeding {
  import opened Results
  import PyStr
  import PermissionMatch
  import opened OrmPermissions

  // ------------------------------------------------------------------
  // Configuration
  // ------------------------------------------------------------------

  datatype RoleConfig = RoleConfig(name: string, permissions: seq<string>)

  const AdminGrants: seq<string> := ["claims.*", "users.*", "roles.*", "permissions.*", "reports.*", "ml.*"]
  const FinanceGrants: seq<string> := [
    "claims.view", "claims.approve", "claims.reject", "reports.view", "billing.view",
    "billing.create", "billing.edit", "billing.delete", "billing.approve", "billing.reject"]
  const AiEngineerGrants: seq<string> := [
    "claims.view", "claims.predict", "claims.train", "reports.view",
    "ml.view", "ml.upload", "ml.update", "ml.delete"]
  const CustomerGrants: seq<string> := ["claims.view", "claims.create", "claims.edit"]

  /** `roles_config`, in its insertion order. */
  function RolesConfig(): seq<RoleConfig>
  {
    [RoleConfig("admin", AdminGrants), RoleConfig("finance", FinanceGrants),
     RoleConfig("ai engineer", AiEngineerGrants), RoleConfig("customer", CustomerGrants)]
  }

  // ------------------------------------------------------------------
  // The database state the seeding reads and writes
  // ------------------------------------------------------------------

  /** Roles by primary key, the users, and the next key the role sequence
      hands out. */
  datatype SeedState = SeedState(roles: RoleTable, users: seq<User>, nextId: RoleId)

  datatype SeedError =
      /** `get_or_create` or `get` found more than one role with the name. */
    | MultipleRoles(name: string)
      /** `Role.objects.get(name='admin')` found none. */
    | NoAdminRole

  /** Every key the table holds was handed out by the sequence. */
  predicate WellFormed(st: SeedState)
  {
    forall id :: id in st.roles ==> id < st.nextId
  }

  /** The roles carrying `name`. */
  function RolesNamed(roles: RoleTable, name: string): set<RoleId>
  {
    set id | id in roles && roles[id].name == name
  }

  /** The smallest key in `[lo, hi)` of a role named `name`. */
  function FindRole(roles: RoleTable, name: string, lo: nat, hi: nat): (r: Option<RoleId>)
    requires lo <= hi
    ensures r.Some? ==> lo <= r.value < hi && r.value in roles && roles[r.value].name == name
    ensures forall id :: lo <= id < hi && id in roles && roles[id].name == name ==> r.Some? && r.value <= id
    decreases hi - lo
  {
    if lo == hi then None
    else if lo in roles && roles[lo].name == name then Some(lo)
    else FindRole(roles, name, lo + 1, hi)
  }

  /** `Role.objects.get(name=name)`, with "no row" as `None`: fails when two
      roles carry the name. */
  function Lookup(st: SeedState, name: string): (r: Result<Option<RoleId>, SeedError>)
    requires WellFormed(st)
    ensures r.Success? && r.value.Some? ==> RolesNamed(st.roles, name) == {r.value.value}
    ensures r.Success? && r.value.None? ==> RolesNamed(st.roles, name) == {}
    ensures r.Failure? ==> r.error == MultipleRoles(name) && |RolesNamed(st.roles, name)| >= 2
  {
    match FindRole(st.roles, name, 0, st.nextId)
    case None => Success(None)
    case Some(a) =>
      match FindRole(st.roles, name, a + 1, st.nextId)
      case None => Success(Some(a))
      case Some(b) =>
        SubsetSize({a, b}, RolesNamed(st.roles, name));
        Failure(MultipleRoles(name))
  }

  lemma SubsetSize(a: set<RoleId>, b: set<RoleId>)
    requires a <= b
    ensures |a| <= |b|
  {
    assert b == a + (b - a);
  }

  /** Lookups depend only on the names in the table. */
  lemma {:induction false} FindRoleByNames(roles: RoleTable, roles': RoleTable, name: string, lo: nat, hi: nat)
    requires lo <= hi
    requires forall id :: lo <= id < hi ==> (id in roles <==> id in roles')
    requires forall id :: lo <= id < hi && id in roles ==> roles[id].name == roles'[id].name
    ensures FindRole(roles, name, lo, hi) == FindRole(roles', name, lo, hi)
    decreases hi - lo
  {
    if lo < hi {
      FindRoleByNames(roles, roles', name, lo + 1, hi);
    }
  }

  /** `Role.objects.get_or_create(name=name)`: the role found, or a new one
      with no grants and no parents under the next key. */
  function GetOrCreateRole(st: SeedState, name: string): (r: Result<(SeedState, RoleId), SeedError>)
    requires WellFormed(st)
    ensures r.Success? ==> WellFormed(r.value.0) && r.value.1 in r.value.0.roles
                           && r.value.0.roles[r.value.1].name == name
                           && r.value.0.users == st.users
    ensures r.Success? ==> Lookup(r.value.0, name) == Success(Some(r.value.1))
    ensures r.Success? ==> forall id :: id in st.roles ==> id in r.value.0.roles && r.value.0.roles[id] == st.roles[id]
    ensures r.Success? ==> forall id :: id in r.value.0.roles && id !in st.roles ==> r.value.0.roles[id] == Role(name, map[], [])
    ensures r.Failure? <==> Lookup(st, name).Failure?
  {
    match Lookup(st, name)
    case Failure(e) => Failure(e)
    case Success(Some(id)) => Success((st, id))
    case Success(None) =>
      var st' := st.(roles := st.roles[st.nextId := Role(name, map[], [])], nextId := st.nextId + 1);
      assert RolesNamed(st'.roles, name) == {st.nextId};
      assert Lookup(st', name).Success? by {
        var a := FindRole(st'.roles, name, 0, st'.nextId);
        assert a == Some(st.nextId);
        assert FindRole(st'.roles, name, st.nextId + 1, st'.nextId) == None;
      }
      Success((st', st.nextId))
  }

  // ------------------------------------------------------------------
  // Grants
  // ------------------------------------------------------------------

  /** The grant names of a list, as a set. */
  function NameSet(names: seq<string>): set<string>
  {
    set n | n in names
  }

  /** `Permission.objects.get_or_create(name=..., role=role, defaults=
      {'is_allowed': True})` for each listed name in turn: a grant the role
      already has keeps its value; a new one is allowed. */
  function AddGrants(grants: map<string, bool>, names: seq<string>): (r: map<string, bool>)
    ensures r.Keys == grants.Keys + NameSet(names)
    ensures forall k :: k in grants ==> r[k] == grants[k]
    ensures forall k :: k in r && k !in grants ==> r[k]
    decreases |names|
  {
    if |names| == 0 then grants
    else
      var g := if names[0] in grants then grants else grants[names[0] := true];
      var r := AddGrants(g, names[1..]);
      assert NameSet(names) == {names[0]} + NameSet(names[1..]);
      r
  }

  /** Grants already present are not touched again. */
  lemma {:induction false} AddGrantsPresent(grants: map<string, bool>, names: seq<string>)
    requires NameSet(names) <= grants.Keys
    ensures AddGrants(grants, names) == grants
    decreases |names|
  {
    if |names| > 0 {
      assert names[0] in NameSet(names);
      assert NameSet(names[1..]) <= NameSet(names);
      AddGrantsPresent(grants, names[1..]);
    }
  }

  /** Every grant a role is created with is allowed. */
  function AllowAll(names: set<string>): map<string, bool>
  {
    map n | n in names :: true
  }

  lemma AddGrantsToNewRole(names: seq<string>)
    ensures AddGrants(map[], names) == AllowAll(NameSet(names))
  {
  }

  // ------------------------------------------------------------------
  // One configured role, and all of them
  // ------------------------------------------------------------------

  /** One iteration of the role loop: fetch or create the role under its
      lowercased name, then fetch or create each of its grants. */
  function SeedRole(st: SeedState, c: RoleConfig): (r: Result<SeedState, SeedError>)
    requires WellFormed(st)
    ensures r.Success? ==> WellFormed(r.value) && r.value.users == st.users
    ensures r.Failure? <==> Lookup(st, PyStr.Lower(c.name)).Failure?
    ensures r.Success? ==> forall id :: id in st.roles ==> id in r.value.roles
    ensures r.Success? ==> forall id :: id in st.roles ==>
              && r.value.roles[id].name == st.roles[id].name
              && r.value.roles[id].parents == st.roles[id].parents
              && st.roles[id].grants.Keys <= r.value.roles[id].grants.Keys
              && (forall k :: k in st.roles[id].grants ==> r.value.roles[id].grants[k] == st.roles[id].grants[k])
  {
    var name := PyStr.Lower(c.name);
    match GetOrCreateRole(st, name)
    case Failure(e) => Failure(e)
    case Success((st1, id)) =>
      var role := st1.roles[id];
      Success(st1.(roles := st1.roles[id := role.(grants := AddGrants(role.grants, c.permissions))]))
  }

  /** The configured role `c` exists exactly once and holds every grant
      it lists. */
  predicate HasConfigured(st: SeedState, c: RoleConfig)
    requires WellFormed(st)
  {
    && Lookup(st, PyStr.Lower(c.name)).Success?
    && Lookup(st, PyStr.Lower(c.name)).value.Some?
    && NameSet(c.permissions) <= st.roles[Lookup(st, PyStr.Lower(c.name)).value.value].grants.Keys
  }

  /** Two tables with the same keys and the same names answer every
      lookup alike. */
  lemma LookupByNames(st: SeedState, st': SeedState, name: string)
    requires WellFormed(st) && WellFormed(st') && st.nextId == st'.nextId
    requires st.roles.Keys == st'.roles.Keys
    requires forall id :: id in st.roles ==> st.roles[id].name == st'.roles[id].name
    ensures Lookup(st, name) == Lookup(st', name)
  {
    FindRoleByNames(st.roles, st'.roles, name, 0, st.nextId);
    match FindRole(st.roles, name, 0, st.nextId)
    case None =>
    case Some(a) => FindRoleByNames(st.roles, st'.roles, name, a + 1, st.nextId);
  }

  /** Creating a role under another name leaves a lookup as it was. */
  lemma LookupAfterCreate(st: SeedState, created: string, name: string)
    requires WellFormed(st) && created != name
    ensures var st1 := st.(roles := st.roles[st.nextId := Role(created, map[], [])], nextId := st.nextId + 1);
            WellFormed(st1) && Lookup(st1, name) == Lookup(st, name)
  {
    var st1 := st.(roles := st.roles[st.nextId := Role(created, map[], [])], nextId := st.nextId + 1);
    assert FindRole(st1.roles, name, st.nextId, st1.nextId) == None;
    FindRoleByNamesPrefix(st.roles, st1.roles, name, 0, st.nextId, st1.nextId);
    match FindRole(st.roles, name, 0, st.nextId)
    case None =>
    case Some(a) => FindRoleByNamesPrefix(st.roles, st1.roles, name, a + 1, st.nextId, st1.nextId);
  }

  /** A successful step leaves its role present once with all its grants. */
  lemma SeedRoleEstablishes(st: SeedState, c: RoleConfig)
    requires WellFormed(st) && SeedRole(st, c).Success?
    ensures HasConfigured(SeedRole(st, c).value, c)
  {
    var (st1, id) := GetOrCreateRole(st, PyStr.Lower(c.name)).value;
    LookupByNames(st1, SeedRole(st, c).value, PyStr.Lower(c.name));
  }

  /** ... and every lookup of another name answers as before. */
  lemma SeedRoleKeepsOtherLookups(st: SeedState, c: RoleConfig, name: string)
    requires WellFormed(st) && SeedRole(st, c).Success?
    requires name != PyStr.Lower(c.name)
    ensures Lookup(SeedRole(st, c).value, name) == Lookup(st, name)
  {
    var (st1, id) := GetOrCreateRole(st, PyStr.Lower(c.name)).value;
    LookupByNames(st1, SeedRole(st, c).value, name);
    if Lookup(st, PyStr.Lower(c.name)).value.None? {
      LookupAfterCreate(st, PyStr.Lower(c.name), name);
    }
  }

  /** A role added past the old range and not carrying the name leaves the
      search where it was. */
  lemma {:induction false} FindRoleByNamesPrefix(roles: RoleTable, roles': RoleTable, name: string, lo: nat, mid: nat, hi: nat)
    requires lo <= mid <= hi
    requires forall id :: lo <= id < mid ==> (id in roles <==> id in roles')
    requires forall id :: lo <= id < mid && id in roles ==> roles[id] == roles'[id]
    requires FindRole(roles', name, mid, hi) == None
    ensures FindRole(roles, name, lo, mid) == FindRole(roles', name, lo, hi)
    decreases mid - lo
  {
    if lo < mid {
      FindRoleByNamesPrefix(roles, roles', name, lo + 1, mid, hi);
    }
  }

  /** A step for a role not yet in the table creates it under the next key
      with every configured grant allowed. */
  lemma SeedRoleCreates(st: SeedState, c: RoleConfig)
    requires WellFormed(st) && RolesNamed(st.roles, PyStr.Lower(c.name)) == {}
    ensures SeedRole(st, c) == Success(st.(roles := st.roles[st.nextId := Role(PyStr.Lower(c.name), AllowAll(NameSet(c.permissions)), [])],
                                           nextId := st.nextId + 1))
  {
    var name := PyStr.Lower(c.name);
    assert Lookup(st, name) == Success(None);
    var st1 := st.(roles := st.roles[st.nextId := Role(name, map[], [])], nextId := st.nextId + 1);
    assert GetOrCreateRole(st, name) == Success((st1, st.nextId));
    AddGrantsToNewRole(c.permissions);
    var created := Role(name, AllowAll(NameSet(c.permissions)), []);
    assert st1.roles[st.nextId := created] == st.roles[st.nextId := created];
  }

  /** A step whose role already holds its grants changes nothing. */
  lemma SeedRoleConfigured(st: SeedState, c: RoleConfig)
    requires WellFormed(st) && HasConfigured(st, c)
    ensures SeedRole(st, c) == Success(st)
  {
    var id := Lookup(st, PyStr.Lower(c.name)).value.value;
    AddGrantsPresent(st.roles[id].grants, c.permissions);
    assert st.roles[id := st.roles[id].(grants := st.roles[id].grants)] == st.roles;
  }

  /** A step keeps every configured role configured. */
  lemma SeedRoleKeepsConfigured(st: SeedState, c: RoleConfig, c': RoleConfig)
    requires WellFormed(st) && SeedRole(st, c).Success? && HasConfigured(st, c')
    ensures HasConfigured(SeedRole(st, c).value, c')
  {
    var name := PyStr.Lower(c'.name);
    var id := Lookup(st, name).value.value;
    if name != PyStr.Lower(c.name) {
      SeedRoleKeepsOtherLookups(st, c, name);
    } else {
      SeedRoleEstablishes(st, c);
    }
  }

  /** The role loop over `configs`, stopping at the first failure. */
  function SeedRoles(st: SeedState, configs: seq<RoleConfig>): (r: Result<SeedState, SeedError>)
    requires WellFormed(st)
    ensures r.Success? ==> WellFormed(r.value) && r.value.users == st.users
    ensures r.Success? ==> forall id :: id in st.roles ==> id in r.value.roles
    ensures r.Success? ==> forall id :: id in st.roles ==>
              && r.value.roles[id].name == st.roles[id].name
              && r.value.roles[id].parents == st.roles[id].parents
              && (forall k :: k in st.roles[id].grants ==>
                    k in r.value.roles[id].grants && r.value.roles[id].grants[k] == st.roles[id].grants[k])
    decreases |configs|
  {
    if |configs| == 0 then Success(st)
    else
      match SeedRole(st, configs[0])
      case Failure(e) => Failure(e)
      case Success(st1) => SeedRoles(st1, configs[1..])
  }

  /** Every configured role is present. */
  predicate Seeded(st: SeedState, configs: seq<RoleConfig>)
    requires WellFormed(st)
  {
    forall i :: 0 <= i < |configs| ==> HasConfigured(st, configs[i])
  }

  lemma {:induction false} SeedRolesKeepsConfigured(st: SeedState, configs: seq<RoleConfig>, c: RoleConfig)
    requires WellFormed(st) && SeedRoles(st, configs).Success? && HasConfigured(st, c)
    ensures HasConfigured(SeedRoles(st, configs).value, c)
    decreases |configs|
  {
    if |configs| > 0 {
      SeedRoleKeepsConfigured(st, configs[0], c);
      SeedRolesKeepsConfigured(SeedRole(st, configs[0]).value, configs[1..], c);
    }
  }

  /** After the loop every configured role exists once with its grants. */
  lemma {:induction false} SeedRolesEstablishes(st: SeedState, configs: seq<RoleConfig>)
    requires WellFormed(st) && SeedRoles(st, configs).Success?
    ensures Seeded(SeedRoles(st, configs).value, configs)
    decreases |configs|
  {
    if |configs| > 0 {
      var st1 := SeedRole(st, configs[0]).value;
      SeedRoleEstablishes(st, configs[0]);
      SeedRolesKeepsConfigured(st1, configs[1..], configs[0]);
      SeedRolesEstablishes(st1, configs[1..]);
      forall i | 0 <= i < |configs|
        ensures HasConfigured(SeedRoles(st, configs).value, configs[i])
      {
        if i > 0 {
          assert configs[i] == configs[1..][i - 1];
        }
      }
    }
  }

  /** On a seeded table the loop changes nothing. */
  lemma {:induction false} SeedRolesSeeded(st: SeedState, configs: seq<RoleConfig>)
    requires WellFormed(st) && Seeded(st, configs)
    ensures SeedRoles(st, configs) == Success(st)
    decreases |configs|
  {
    if |configs| > 0 {
      SeedRoleConfigured(st, configs[0]);
      assert Seeded(st, configs[1..]) by {
        forall i | 0 <= i < |configs[1..]|
          ensures HasConfigured(st, configs[1..][i])
        {
          assert configs[1..][i] == configs[i + 1];
        }
      }
      SeedRolesSeeded(st, configs[1..]);
    }
  }

  // ------------------------------------------------------------------
  // Superusers and the whole seeding
  // ------------------------------------------------------------------

  /** Every superuser without a role gets `admin`; everyone else is left
      as they are. */
  function AssignAdminTo(users: seq<User>, admin: RoleId): (r: seq<User>)
    ensures |r| == |users|
    ensures forall k :: 0 <= k < |users| && users[k].isSuperuser ==> r[k].role.Some?
    ensures forall k :: 0 <= k < |users| && users[k].isSuperuser && users[k].role.None? ==> r[k].role == Some(admin)
    ensures forall k :: 0 <= k < |users| && !(users[k].isSuperuser && users[k].role.None?) ==> r[k] == users[k]
    ensures forall k :: 0 <= k < |users| ==> r[k] == users[k].(role := r[k].role)
  {
    seq(|users|, k requires 0 <= k < |users| =>
      if users[k].isSuperuser && users[k].role.None? then users[k].(role := Some(admin)) else users[k])
  }

  /** The superuser loop: the admin role is fetched with `get`, which fails
      when there is none or more than one. */
  function AssignAdmin(st: SeedState): (r: Result<SeedState, SeedError>)
    requires WellFormed(st)
    ensures r.Success? ==> r.value.roles == st.roles && r.value.nextId == st.nextId
    ensures r.Success? <==> Lookup(st, "admin").Success? && Lookup(st, "admin").value.Some?
    ensures r.Success? ==> r.value.users == AssignAdminTo(st.users, Lookup(st, "admin").value.value)
  {
    match Lookup(st, "admin")
    case Failure(e) => Failure(e)
    case Success(None) => Failure(NoAdminRole)
    case Success(Some(a)) => Success(st.(users := AssignAdminTo(st.users, a)))
  }

  /** After the superuser loop the admin role is still the one `get`
      finds, and every superuser who had no role now holds it. */
  lemma AssignAdminGivesFoundRole(st: SeedState)
    requires WellFormed(st) && AssignAdmin(st).Success?
    ensures WellFormed(AssignAdmin(st).value)
    ensures Lookup(AssignAdmin(st).value, "admin") == Lookup(st, "admin")
    ensures forall k :: 0 <= k < |st.users| && st.users[k].isSuperuser && st.users[k].role.None?
              ==> AssignAdmin(st).value.users[k].role == Lookup(AssignAdmin(st).value, "admin").value
  {
    LookupByNames(st, AssignAdmin(st).value, "admin");
  }

  lemma ConfiguredNamesLower()
    ensures forall i :: 0 <= i < |RolesConfig()| ==> PyStr.Lower(RolesConfig()[i].name) == RolesConfig()[i].name
  {
    assert PyStr.Lower("admin") == "admin";
    assert PyStr.Lower("finance") == "finance";
    assert PyStr.Lower("ai engineer") == "ai engineer";
    assert PyStr.Lower("customer") == "customer";
  }

  /** The superuser loop after the role loop: the configured roles stay
      in place, and every role-less superuser gets the admin role that
      `get` still finds. */
  lemma AssignAdminKeepsSeeded(st1: SeedState)
    requires WellFormed(st1) && Seeded(st1, RolesConfig())
    ensures var r := AssignAdmin(st1);
            r.Success? ==> WellFormed(r.value) && Seeded(r.value, RolesConfig())
    ensures var r := AssignAdmin(st1);
            r.Success? ==> Lookup(r.value, "admin") == Lookup(st1, "admin")
                           && forall k :: 0 <= k < |st1.users| && st1.users[k].isSuperuser && st1.users[k].role.None?
                                ==> r.value.users[k].role == Lookup(r.value, "admin").value
  {
    var r := AssignAdmin(st1);
    if r.Success? {
      AssignAdminGivesFoundRole(st1);
      forall i | 0 <= i < |RolesConfig()|
        ensures HasConfigured(r.value, RolesConfig()[i])
      {
        assert HasConfigured(st1, RolesConfig()[i]);
        LookupByNames(st1, r.value, PyStr.Lower(RolesConfig()[i].name));
      }
    }
  }

  /** `setup_roles_and_permissions`: the role loop over the configuration,
      then the superuser loop. */
  function Seed(st: SeedState): (r: Result<SeedState, SeedError>)
    requires WellFormed(st)
    ensures r.Success? ==> WellFormed(r.value) && Seeded(r.value, RolesConfig())
    ensures r.Success? ==> forall k :: 0 <= k < |r.value.users| ==> r.value.users[k].isSuperuser ==> r.value.users[k].role.Some?
    ensures r.Success? ==> |r.value.users| == |st.users|
                           && forall k :: 0 <= k < |st.users| && !(st.users[k].isSuperuser && st.users[k].role.None?)
                                ==> r.value.users[k] == st.users[k]
    ensures r.Success? ==> forall id :: id in st.roles ==> id in r.value.roles
    ensures r.Success? ==> Lookup(r.value, "admin").Success? && Lookup(r.value, "admin").value.Some?
                           && forall k :: 0 <= k < |st.users| && st.users[k].isSuperuser && st.users[k].role.None?
                                ==> r.value.users[k].role == Lookup(r.value, "admin").value
  {
    match SeedRoles(st, RolesConfig())
    case Failure(e) => Failure(e)
    case Success(st1) =>
      SeedRolesEstablishes(st, RolesConfig());
      AssignAdminKeepsSeeded(st1);
      AssignAdmin(st1)
  }

  /** Running the seeding again changes nothing. */
  lemma SeedIdempotent(st: SeedState)
    requires WellFormed(st) && Seed(st).Success?
    ensures Seed(Seed(st).value) == Seed(st)
  {
    var st2 := Seed(st).value;
    SeedRolesSeeded(st2, RolesConfig());
    ConfiguredNamesLower();
    assert HasConfigured(st2, RolesConfig()[0]);
    AssignAdminToAssigned(st2.users, Lookup(st2, "admin").value.value);
  }

  /** Once every superuser has a role the superuser loop does nothing. */
  lemma AssignAdminToAssigned(users: seq<User>, admin: RoleId)
    requires forall k :: 0 <= k < |users| ==> users[k].isSuperuser ==> users[k].role.Some?
    ensures AssignAdminTo(users, admin) == users
  {
  }
}

=== FILE: role_sync.dfy ===
/** The role and group synchronisation command
    (`InsuranceClaimsUser/management/commands/sync_roles_and_groups.py`):
    role names and group names are canonicalised (`strip().lower()`), then
    every user with a role is put in exactly the group named after it. Group
    names are unique in the database, so renaming a group onto a name that
    another group already carries fails. */
module RoleSync {
  import opened Results
  import PyStr
  import OrmPermissions

  type RoleId = OrmPermissions.RoleId
  type GroupId = nat

  /** The role names the command knows; others are normalised with a
      warning. */
  const CanonicalRoles: seq<string> := ["admin", "finance", "ai engineer", "customer"]

  predicate IsCanonical(s: string)
  {
    PyStr.Canonical(s) == s
  }

  lemma CanonicalIsCanonical(s: string)
    ensures IsCanonical(PyStr.Canonical(s))
  {
    PyStr.CanonicalIdempotent(s);
  }

  // ------------------------------------------------------------------
  // Role names
  // ------------------------------------------------------------------

  lemma AllRoleNamesCanonicalised(roles: OrmPermissions.RoleTable)
    ensures forall id :: id in roles ==> IsCanonical(PyStr.Canonical(roles[id].name))
  {
    forall id | id in roles
      ensures IsCanonical(PyStr.Canonical(roles[id].name))
    {
      CanonicalIsCanonical(roles[id].name);
    }
  }

  /** The first loop: every role is renamed to its canonical name; nothing
      else about a role changes, and a role already canonical is left as it
      is. */
  function CanonicalRoleNames(roles: OrmPermissions.RoleTable): (r: OrmPermissions.RoleTable)
    ensures r.Keys == roles.Keys
    ensures forall id :: id in r ==> IsCanonical(r[id].name)
    ensures forall id :: id in r ==> r[id] == roles[id].(name := PyStr.Canonical(roles[id].name))
    ensures forall id :: id in r && IsCanonical(roles[id].name) ==> r[id] == roles[id]
  {
    AllRoleNamesCanonicalised(roles);
    map id | id in roles :: roles[id].(name := PyStr.Canonical(roles[id].name))
  }

  /** The roles the command warns about: those whose canonical name is not
      one of the four known names. The warning does not stop the rename. */
  function UnknownRoles(roles: OrmPermissions.RoleTable): (w: set<RoleId>)
    ensures w <= roles.Keys
    ensures forall id :: id in roles && PyStr.Canonical(roles[id].name) in CanonicalRoles ==> id !in w
  {
    set id | id in roles && PyStr.Canonical(roles[id].name) !in CanonicalRoles
  }

  /** A second run warns about the same roles as the first. */
  lemma WarningsStable(roles: OrmPermissions.RoleTable)
    ensures UnknownRoles(CanonicalRoleNames(roles)) == UnknownRoles(roles)
  {
    AllRoleNamesCanonicalised(roles);
  }

  // ------------------------------------------------------------------
  // Group names
  // ------------------------------------------------------------------

  /** A row of the group table, in the order the query returns them. */
  datatype Group = Group(id: GroupId, name: string)

  datatype SyncError = GroupNameClash(name: string)

  predicate DistinctNames(gs: seq<Group>)
  {
    forall i, j :: 0 <= i < |gs| && 0 <= j < |gs| && i != j ==> gs[i].name != gs[j].name
  }

  /** No two groups share a canonical name. */
  predicate CanonicallyDistinct(gs: seq<Group>)
  {
    forall i, j :: 0 <= i < |gs| && 0 <= j < |gs| && i != j ==>
      PyStr.Canonical(gs[i].name) != PyStr.Canonical(gs[j].name)
  }

  /** Some group other than the `i`-th currently carries `name`. */
  predicate NameTaken(gs: seq<Group>, i: nat, name: string)
  {
    exists j :: 0 <= j < |gs| && j != i && gs[j].name == name
  }

  /** The group table with every name canonical: the reference the rename
      loop is measured against. */
  function CanonicalNames(gs: seq<Group>): (r: seq<Group>)
    ensures |r| == |gs|
  {
    seq(|gs|, k requires 0 <= k < |gs| => gs[k].(name := PyStr.Canonical(gs[k].name)))
  }

  /** The second loop from the `i`-th group on: each group whose name is not
      canonical is renamed and saved, which fails when another group already
      has that name. */
  function RenameGroupsFrom(gs: seq<Group>, i: nat): (r: Result<seq<Group>, SyncError>)
    requires i <= |gs|
    ensures r.Success? ==> |r.value| == |gs|
    ensures r.Success? ==> forall k :: 0 <= k < i ==> r.value[k] == gs[k]
    ensures r.Success? ==> forall k :: i <= k < |gs| ==> r.value[k] == gs[k].(name := PyStr.Canonical(gs[k].name))
    ensures r.Failure? ==> !CanonicallyDistinct(gs)
    decreases |gs| - i
  {
    if i == |gs| then Success(gs)
    else
      var c := PyStr.Canonical(gs[i].name);
      if gs[i].name != c && NameTaken(gs, i, c) then
        ClashBreaksDistinct(gs, i);
        Failure(GroupNameClash(c))
      else
        var next := gs[i := gs[i].(name := c)];
        RenameKeepsDistinct(gs, i);
        RenameGroupsFrom(next, i + 1)
  }

  /** A group whose canonical name another group carries shares its
      canonical name with that group. */
  lemma ClashBreaksDistinct(gs: seq<Group>, i: nat)
    requires i < |gs| && NameTaken(gs, i, PyStr.Canonical(gs[i].name))
    ensures !CanonicallyDistinct(gs)
  {
    var j :| 0 <= j < |gs| && j != i && gs[j].name == PyStr.Canonical(gs[i].name);
    PyStr.CanonicalIdempotent(gs[i].name);
    assert PyStr.Canonical(gs[j].name) == PyStr.Canonical(gs[i].name);
  }

  /** Renaming one group to its canonical name changes no canonical name. */
  lemma RenameKeepsDistinct(gs: seq<Group>, i: nat)
    requires i < |gs|
    ensures CanonicallyDistinct(gs[i := gs[i].(name := PyStr.Canonical(gs[i].name))]) == CanonicallyDistinct(gs)
  {
    var next := gs[i := gs[i].(name := PyStr.Canonical(gs[i].name))];
    PyStr.CanonicalIdempotent(gs[i].name);
    assert forall k :: 0 <= k < |gs| ==> PyStr.Canonical(next[k].name) == PyStr.Canonical(gs[k].name);
  }

  /** The group-renaming loop of the command. */
  function RenameGroups(gs: seq<Group>): (r: Result<seq<Group>, SyncError>)
    ensures r.Success? ==> r.value == CanonicalNames(gs)
    ensures r.Failure? ==> !CanonicallyDistinct(gs)
  {
    RenameGroupsFrom(gs, 0)
  }

  /** From unique names, every rename loop that completes leaves unique
      names behind, so it never succeeds on two groups that share a
      canonical name. */
  lemma {:induction false} RenamedNamesDistinct(gs: seq<Group>, i: nat)
    requires i <= |gs|
    requires DistinctNames(gs)
    requires forall k :: 0 <= k < i ==> IsCanonical(gs[k].name)
    requires RenameGroupsFrom(gs, i).Success?
    ensures CanonicallyDistinct(gs)
    decreases |gs| - i
  {
    if i < |gs| {
      var c := PyStr.Canonical(gs[i].name);
      CanonicalIsCanonical(gs[i].name);
      var next := gs[i := gs[i].(name := c)];
      RenameKeepsDistinctNames(gs, i);
      RenameKeepsDistinct(gs, i);
      RenamedNamesDistinct(next, i + 1);
    }
  }

  /** A rename the loop lets through keeps the names unique. */
  lemma RenameKeepsDistinctNames(gs: seq<Group>, i: nat)
    requires i < |gs| && DistinctNames(gs)
    requires !(gs[i].name != PyStr.Canonical(gs[i].name) && NameTaken(gs, i, PyStr.Canonical(gs[i].name)))
    ensures DistinctNames(gs[i := gs[i].(name := PyStr.Canonical(gs[i].name))])
  {
    var c := PyStr.Canonical(gs[i].name);
    var next := gs[i := gs[i].(name := c)];
    forall j, k | 0 <= j < |next| && 0 <= k < |next| && j != k
      ensures next[j].name != next[k].name
    {
      if j == i && c != gs[i].name {
        assert !(gs[k].name == c);
      } else if k == i && c != gs[i].name {
        assert !(gs[j].name == c);
      }
    }
  }

  /** With unique names to start from, renaming succeeds exactly when no
      two groups have the same canonical name. */
  lemma RenameGroupsSucceedsIff(gs: seq<Group>)
    requires DistinctNames(gs)
    ensures RenameGroups(gs).Success? <==> CanonicallyDistinct(gs)
  {
    if RenameGroups(gs).Success? {
      RenamedNamesDistinct(gs, 0);
    }
  }

  /** A table whose names are all canonical is left as it is. */
  lemma {:induction false} RenameCanonicalGroupsFrom(gs: seq<Group>, i: nat)
    requires i <= |gs|
    requires forall k :: 0 <= k < |gs| ==> IsCanonical(gs[k].name)
    ensures RenameGroupsFrom(gs, i) == Success(gs)
    decreases |gs| - i
  {
    if i < |gs| {
      var c := PyStr.Canonical(gs[i].name);
      assert gs[i].name == c;
      assert gs[i := gs[i].(name := c)] == gs;
      RenameCanonicalGroupsFrom(gs, i + 1);
    }
  }

  // ------------------------------------------------------------------
  // Users and their groups
  // ------------------------------------------------------------------

  /** A user as the sync sees it: a role, if any, and the ids of their
      groups. */
  datatype Account = Account(username: string, role: Option<RoleId>, groups: set<GroupId>)

  /** The first group carrying `name` at or after `i`. */
  function FindGroupFrom(gs: seq<Group>, name: string, i: nat): (r: Option<nat>)
    requires i <= |gs|
    ensures r.Some? ==> i <= r.value < |gs| && gs[r.value].name == name
                        && forall k :: i <= k < r.value ==> gs[k].name != name
    ensures r.None? ==> forall k :: i <= k < |gs| ==> gs[k].name != name
    decreases |gs| - i
  {
    if i == |gs| then None
    else if gs[i].name == name then Some(i)
    else FindGroupFrom(gs, name, i + 1)
  }

  /** `Group.objects.get(name=...)`: the position of the group carrying
      `name`, the first one if several do. */
  function FindGroup(gs: seq<Group>, name: string): (r: Option<nat>)
    ensures r.Some? ==> r.value < |gs| && gs[r.value].name == name
                        && forall k :: 0 <= k < r.value ==> gs[k].name != name
    ensures r.None? ==> forall k :: 0 <= k < |gs| ==> gs[k].name != name
  {
    FindGroupFrom(gs, name, 0)
  }

  /** The first match is unchanged by groups added after it. */
  lemma FindGroupInPrefix(gs: seq<Group>, more: seq<Group>, name: string)
    ensures FindGroup(gs, name).Some? ==> FindGroup(gs + more, name) == FindGroup(gs, name)
  {
    if FindGroup(gs, name).Some? {
      var k := FindGroup(gs, name).value;
      assert (gs + more)[k] == gs[k];
    }
  }

  /** An id above every id in the table, for a group that is created. */
  function NextId(gs: seq<Group>): (n: GroupId)
    ensures forall k :: 0 <= k < |gs| ==> gs[k].id < n
    decreases |gs|
  {
    if |gs| == 0 then 0
    else
      var m := NextId(gs[..|gs| - 1]);
      assert forall k :: 0 <= k < |gs| - 1 ==> gs[k] == gs[..|gs| - 1][k];
      if gs[|gs| - 1].id < m then m else gs[|gs| - 1].id + 1
  }

  /** `Group.objects.get_or_create(name=name)`: the table, extended with a
      new group when none carries the name, and the group found. */
  function GetOrCreate(gs: seq<Group>, name: string): (r: (seq<Group>, GroupId))
    ensures r.0 == gs || r.0 == gs + [Group(r.1, name)]
    ensures FindGroup(gs, name).Some? <==> r.0 == gs
    ensures FindGroup(r.0, name).Some? && r.0[FindGroup(r.0, name).value].id == r.1
    ensures r.0 != gs ==> forall k :: 0 <= k < |gs| ==> gs[k].id != r.1
  {
    match FindGroup(gs, name)
    case Some(k) => (gs, gs[k].id)
    case None =>
      var n := NextId(gs);
      var gs' := gs + [Group(n, name)];
      assert gs'[|gs|].name == name;
      (gs', n)
  }

  /** The group a user with a role belongs in: the role's canonical name. */
  function GroupNameOf(roles: OrmPermissions.RoleTable, a: Account): string
    requires a.role.Some? && a.role.value in roles
  {
    PyStr.Canonical(roles[a.role.value].name)
  }

  /** Some role of the table carries `name` once canonicalised. */
  predicate NamesARole(roles: OrmPermissions.RoleTable, name: string)
  {
    exists id :: id in roles && name == PyStr.Canonical(roles[id].name)
  }

  /** One pass of the per-user loop. A user with no role is skipped;
      otherwise the group named after the role is fetched or created and
      becomes the user's only group. */
  function SyncAccount(roles: OrmPermissions.RoleTable, gs: seq<Group>, a: Account): (r: (seq<Group>, Account))
    requires a.role.Some? ==> a.role.value in roles
    ensures |r.0| >= |gs| && r.0[..|gs|] == gs
    ensures a.role.None? ==> r == (gs, a)
    ensures a.role.Some? ==> FindGroup(r.0, GroupNameOf(roles, a)).Some?
                             && r.1 == a.(groups := {r.0[FindGroup(r.0, GroupNameOf(roles, a)).value].id})
    ensures forall k :: |gs| <= k < |r.0| ==> NamesARole(roles, r.0[k].name)
  {
    if a.role.None? then (gs, a)
    else
      var (gs1, g) := GetOrCreate(gs, GroupNameOf(roles, a));
      (gs1, a.(groups := {g}))
  }

  /** The per-user loop from the `i`-th account on. */
  function SyncAccountsFrom(roles: OrmPermissions.RoleTable, gs: seq<Group>, accounts: seq<Account>, i: nat)
    : (r: (seq<Group>, seq<Account>))
    requires i <= |accounts|
    requires forall k :: 0 <= k < |accounts| && accounts[k].role.Some? ==> accounts[k].role.value in roles
    ensures |r.0| >= |gs| && r.0[..|gs|] == gs
    ensures |r.1| == |accounts|
    ensures forall k :: 0 <= k < i ==> r.1[k] == accounts[k]
    ensures forall k :: i <= k < |accounts| && accounts[k].role.None? ==> r.1[k] == accounts[k]
    ensures forall k :: i <= k < |accounts| && accounts[k].role.Some? ==>
              FindGroup(r.0, GroupNameOf(roles, accounts[k])).Some?
              && r.1[k] == accounts[k].(groups := {r.0[FindGroup(r.0, GroupNameOf(roles, accounts[k])).value].id})
    ensures forall k :: |gs| <= k < |r.0| ==> NamesARole(roles, r.0[k].name)
    decreases |accounts| - i
  {
    if i == |accounts| then (gs, accounts)
    else
      var (gs1, a1) := SyncAccount(roles, gs, accounts[i]);
      var accounts1 := accounts[i := a1];
      assert a1.role == accounts[i].role;
      assert forall k :: 0 <= k < |accounts| ==> accounts1[k].role == accounts[k].role;
      var r := SyncAccountsFrom(roles, gs1, accounts1, i + 1);
      assert r.1[i] == a1;
      ExtendTable(roles, gs, gs1, r.0);
      FindGroupInPrefix(gs1, r.0[|gs1|..], if accounts[i].role.Some? then GroupNameOf(roles, accounts[i]) else "");
      r
  }

  /** Two extensions in a row, each adding only groups named after roles,
      make one such extension. */
  lemma ExtendTable(roles: OrmPermissions.RoleTable, gs: seq<Group>, gs1: seq<Group>, gs2: seq<Group>)
    requires |gs1| >= |gs| && gs1[..|gs|] == gs
    requires forall k :: |gs| <= k < |gs1| ==> NamesARole(roles, gs1[k].name)
    requires |gs2| >= |gs1| && gs2[..|gs1|] == gs1
    requires forall k :: |gs1| <= k < |gs2| ==> NamesARole(roles, gs2[k].name)
    ensures gs2[..|gs|] == gs
    ensures gs2 == gs1 + gs2[|gs1|..]
    ensures forall k :: |gs| <= k < |gs2| ==> NamesARole(roles, gs2[k].name)
  {
    forall k | |gs| <= k < |gs2|
      ensures NamesARole(roles, gs2[k].name)
    {
      if k < |gs1| {
        assert gs2[k] == gs1[k];
      }
    }
    assert gs2 == gs2[..|gs1|] + gs2[|gs1|..];
  }

  /** Accounts that already sit in exactly the group named after their
      role, which exists. */
  predicate Synced(roles: OrmPermissions.RoleTable, gs: seq<Group>, accounts: seq<Account>)
    requires forall k :: 0 <= k < |accounts| && accounts[k].role.Some? ==> accounts[k].role.value in roles
  {
    forall k :: 0 <= k < |accounts| && accounts[k].role.Some? ==>
      FindGroup(gs, GroupNameOf(roles, accounts[k])).Some?
      && accounts[k].groups == {gs[FindGroup(gs, GroupNameOf(roles, accounts[k])).value].id}
  }

  /** On synced accounts the loop changes nothing. */
  lemma {:induction false} SyncSyncedAccounts(roles: OrmPermissions.RoleTable, gs: seq<Group>, accounts: seq<Account>, i: nat)
    requires i <= |accounts|
    requires forall k :: 0 <= k < |accounts| && accounts[k].role.Some? ==> accounts[k].role.value in roles
    requires Synced(roles, gs, accounts)
    ensures SyncAccountsFrom(roles, gs, accounts, i) == (gs, accounts)
    decreases |accounts| - i
  {
    if i < |accounts| {
      assert accounts[i := SyncAccount(roles, gs, accounts[i]).1] == accounts;
      SyncSyncedAccounts(roles, gs, accounts, i + 1);
    }
  }

  // ------------------------------------------------------------------
  // The whole command
  // ------------------------------------------------------------------

  datatype SyncState = SyncState(roles: OrmPermissions.RoleTable, groups: seq<Group>, accounts: seq<Account>)

  /** Every account's role is a row of the role table (a foreign key). */
  predicate RolesKnown(s: SyncState)
  {
    forall k :: 0 <= k < |s.accounts| && s.accounts[k].role.Some? ==> s.accounts[k].role.value in s.roles
  }

  /** Renamed groups and groups created for roles all carry canonical
      names. */
  lemma GroupTableCanonical(groups: seq<Group>, gs: seq<Group>, gs': seq<Group>, roles: OrmPermissions.RoleTable)
    requires gs == CanonicalNames(groups)
    requires |gs'| >= |gs| && gs'[..|gs|] == gs
    requires forall k :: |gs| <= k < |gs'| ==> NamesARole(roles, gs'[k].name)
    ensures forall k :: 0 <= k < |gs'| ==> IsCanonical(gs'[k].name)
  {
    forall k | 0 <= k < |gs'|
      ensures IsCanonical(gs'[k].name)
    {
      if k < |gs| {
        assert gs'[k] == gs[k];
        CanonicalIsCanonical(groups[k].name);
      } else {
        assert NamesARole(roles, gs'[k].name);
        var id :| id in roles && gs'[k].name == PyStr.Canonical(roles[id].name);
        CanonicalIsCanonical(roles[id].name);
      }
    }
  }

  /** `Command.handle`: roles, then groups, then users. */
  function Sync(s: SyncState): (r: Result<SyncState, SyncError>)
    requires RolesKnown(s)
    ensures r.Failure? ==> !CanonicallyDistinct(s.groups)
    ensures r.Success? ==> RolesKnown(r.value) && r.value.roles == CanonicalRoleNames(s.roles)
    ensures r.Success? ==> |r.value.groups| >= |s.groups|
    ensures r.Success? ==> r.value.groups[..|s.groups|] == CanonicalNames(s.groups)
    ensures r.Success? ==> Synced(r.value.roles, r.value.groups, r.value.accounts)
    ensures r.Success? ==> forall k :: |s.groups| <= k < |r.value.groups| ==> NamesARole(r.value.roles, r.value.groups[k].name)
    ensures r.Success? ==> |r.value.accounts| == |s.accounts|
    ensures r.Success? ==> forall k :: 0 <= k < |s.accounts| && s.accounts[k].role.None? ==>
                              r.value.accounts[k] == s.accounts[k]
  {
    var roles := CanonicalRoleNames(s.roles);
    match RenameGroups(s.groups)
    case Failure(e) => Failure(e)
    case Success(gs) =>
      var (gs', accounts') := SyncAccountsFrom(roles, gs, s.accounts, 0);
      AccountsLoopSyncs(roles, gs, s.accounts);
      Success(SyncState(roles, gs', accounts'))
  }

  /** The per-user loop leaves every account with a role in the group
      named after it. */
  lemma AccountsLoopSyncs(roles: OrmPermissions.RoleTable, gs: seq<Group>, accounts: seq<Account>)
    requires forall k :: 0 <= k < |accounts| && accounts[k].role.Some? ==> accounts[k].role.value in roles
    ensures var r := SyncAccountsFrom(roles, gs, accounts, 0);
            && (forall k :: 0 <= k < |r.1| && r.1[k].role.Some? ==> r.1[k].role.value in roles)
            && Synced(roles, r.0, r.1)
  {
    var r := SyncAccountsFrom(roles, gs, accounts, 0);
    forall k | 0 <= k < |r.1|
      ensures r.1[k].role == accounts[k].role
    {
    }
    forall k | 0 <= k < |r.1| && r.1[k].role.Some?
      ensures GroupNameOf(roles, r.1[k]) == GroupNameOf(roles, accounts[k])
    {
    }
  }

  /** After a run every group name is canonical: renamed groups and the
      groups created for roles alike. */
  lemma SyncedGroupsCanonical(s: SyncState)
    requires RolesKnown(s) && Sync(s).Success?
    ensures forall k :: 0 <= k < |Sync(s).value.groups| ==> IsCanonical(Sync(s).value.groups[k].name)
  {
    var t := Sync(s).value;
    GroupTableCanonical(s.groups, CanonicalNames(s.groups), t.groups, t.roles);
  }

  /** Only group memberships change, and only for users with a role. */
  lemma SyncChangesOnlyGroups(s: SyncState, k: nat)
    requires RolesKnown(s) && Sync(s).Success?
    requires k < |s.accounts|
    ensures Sync(s).value.accounts[k] == s.accounts[k].(groups := Sync(s).value.accounts[k].groups)
  {
  }

  /** Every user with a role ends in exactly one group, and that group
      carries the role's canonical name. */
  lemma OneGroupPerUser(s: SyncState, k: nat)
    requires RolesKnown(s) && Sync(s).Success?
    requires k < |s.accounts| && s.accounts[k].role.Some?
    ensures var t := Sync(s).value;
            exists g :: 0 <= g < |t.groups| && t.accounts[k].groups == {t.groups[g].id}
                        && t.groups[g].name == PyStr.Canonical(s.roles[s.accounts[k].role.value].name)
  {
    var t := Sync(s).value;
    assert t.accounts[k].role == s.accounts[k].role;
    var g := FindGroup(t.groups, GroupNameOf(t.roles, t.accounts[k])).value;
    CanonicalIsCanonical(s.roles[s.accounts[k].role.value].name);
    assert t.groups[g].name == PyStr.Canonical(s.roles[s.accounts[k].role.value].name);
  }

  /** Running the command a second time changes nothing. */
  lemma SyncIdempotent(s: SyncState)
    requires RolesKnown(s) && Sync(s).Success?
    ensures Sync(Sync(s).value) == Sync(s)
  {
    var t := Sync(s).value;
    assert CanonicalRoleNames(t.roles) == t.roles;
    SyncedGroupsCanonical(s);
    RenameCanonicalGroupsFrom(t.groups, 0);
    SyncSyncedAccounts(t.roles, t.groups, t.accounts, 0);
  }
}

=== FILE: seeding_scenarios.dfy ===
/** The seeding on an empty database, and what the seeded roles allow: the
    admin grants are literal keys such as `claims.*`, not the wildcard
    entry `".*"`, so they match only a request for that very key. */
module SeedingScenarios {
  import opened Results
  import PyStr
  import PermissionMatch
  import opened OrmPermissions
  import opened RoleSeeding

  function AdminTable(): map<string, bool>
  {
    map["claims.*" := true, "users.*" := true, "roles.*" := true, "permissions.*" := true,
        "reports.*" := true, "ml.*" := true]
  }

  function FinanceTable(): map<string, bool>
  {
    map["claims.view" := true, "claims.approve" := true, "claims.reject" := true,
        "reports.view" := true, "billing.view" := true, "billing.create" := true,
        "billing.edit" := true, "billing.delete" := true, "billing.approve" := true,
        "billing.reject" := true]
  }

  /** The `k`-th configured role as a fresh database gets it. */
  function FreshRole(k: nat): Role
    requires k < 4
  {
    Role(RolesConfig()[k].name, AllowAll(NameSet(RolesConfig()[k].permissions)), [])
  }

  /** The table after the first `n` roles were created. */
  function Stage(n: nat): RoleTable
    requires n <= 4
  {
    if n == 0 then map[] else Stage(n - 1)[n - 1 := FreshRole(n - 1)]
  }

  lemma {:induction false} StageShape(n: nat)
    requires n <= 4
    ensures forall id: RoleId :: id in Stage(n) <==> id < n
    ensures forall id :: id in Stage(n) ==> Stage(n)[id] == FreshRole(id)
  {
    if n > 0 {
      StageShape(n - 1);
      assert Stage(n) == Stage(n - 1)[n - 1 := FreshRole(n - 1)];
    }
  }

  lemma ConfigNamesDistinct()
    ensures forall i, j :: 0 <= i < 4 && 0 <= j < 4 && i != j ==> RolesConfig()[i].name != RolesConfig()[j].name
  {
  }

  lemma StageStep(n: nat, users: seq<User>)
    requires n < 4
    ensures WellFormed(SeedState(Stage(n), users, n))
    ensures SeedRole(SeedState(Stage(n), users, n), RolesConfig()[n]) == Success(SeedState(Stage(n + 1), users, n + 1))
  {
    var c := RolesConfig()[n];
    ConfiguredNamesLower();
    ConfigNamesDistinct();
    StageShape(n);
    assert RolesNamed(Stage(n), PyStr.Lower(c.name)) == {};
    SeedRoleCreates(SeedState(Stage(n), users, n), c);
  }

  lemma {:induction false} StagesSeed(n: nat, users: seq<User>)
    requires n <= 4
    ensures WellFormed(SeedState(Stage(n), users, n))
    ensures SeedRoles(SeedState(Stage(n), users, n), RolesConfig()[n..]) == Success(SeedState(Stage(4), users, 4))
    decreases 4 - n
  {
    if n < 4 {
      StageStep(n, users);
      assert RolesConfig()[n..][1..] == RolesConfig()[n + 1..];
      StagesSeed(n + 1, users);
    } else {
      StageShape(4);
      assert RolesConfig()[4..] == [];
    }
  }

  lemma SeededTables()
    ensures AllowAll(NameSet(AdminGrants)) == AdminTable()
    ensures AllowAll(NameSet(FinanceGrants)) == FinanceTable()
  {
    assert NameSet(AdminGrants) == AdminTable().Keys;
    assert NameSet(FinanceGrants) == FinanceTable().Keys;
  }

  /** The four roles a fresh database ends up with, keyed in creation
      order. */
  function FreshRoles(): RoleTable
  {
    Stage(4)
  }

  lemma FreshRolesShape()
    ensures FreshRoles().Keys == {0, 1, 2, 3}
    ensures FreshRoles()[0] == Role("admin", AdminTable(), [])
    ensures FreshRoles()[1] == Role("finance", FinanceTable(), [])
  {
    StageShape(4);
    SeededTables();
  }

  lemma AdminNamedOnce()
    ensures RolesNamed(FreshRoles(), "admin") == {0}
  {
    StageShape(4);
    ConfigNamesDistinct();
    assert FreshRoles()[0].name == "admin";
    forall id | id in RolesNamed(FreshRoles(), "admin")
      ensures id == 0
    {
      assert FreshRoles()[id] == FreshRole(id);
    }
  }

  /** The role loop on an empty database creates the four roles. */
  lemma FreshRolesSeeded(users: seq<User>)
    ensures WellFormed(SeedState(map[], users, 0))
    ensures SeedRoles(SeedState(map[], users, 0), RolesConfig()) == Success(SeedState(FreshRoles(), users, 4))
  {
    StagesSeed(0, users);
    assert Stage(0) == map[];
    assert RolesConfig()[0..] == RolesConfig();
  }

  /** The fresh table has exactly one role named `admin`, the first. */
  lemma FreshAdminLookup(users: seq<User>)
    ensures WellFormed(SeedState(FreshRoles(), users, 4))
    ensures Lookup(SeedState(FreshRoles(), users, 4), "admin") == Success(Some(0))
  {
    StageShape(4);
    AdminNamedOnce();
  }

  /** On an empty database the four roles are created in configuration
      order with all their grants allowed, and every superuser gets the
      admin role. */
  lemma SeedFreshDatabase(users: seq<User>)
    ensures WellFormed(SeedState(map[], users, 0))
    ensures Seed(SeedState(map[], users, 0)) == Success(SeedState(FreshRoles(), AssignAdminTo(users, 0), 4))
  {
    FreshRolesSeeded(users);
    FreshAdminLookup(users);
  }

  function FreshRank(): map<RoleId, nat>
  {
    map[0 := 0, 1 := 0, 2 := 0, 3 := 0]
  }

  function Holder(role: RoleId): User
  {
    User(1, "holder", "Role Holder", false, false, true, Some(role))
  }

  lemma FreshTables()
    ensures Ranked(FreshRoles(), FreshRank())
    ensures AllRolePermissions(FreshRoles(), FreshRank(), 0) == AdminTable()
    ensures AllRolePermissions(FreshRoles(), FreshRank(), 1) == FinanceTable()
  {
    FreshRolesShape();
    assert map[] + AdminTable() == AdminTable();
    assert map[] + FinanceTable() == FinanceTable();
  }

  /** The admin table refuses `claims.view`: neither `claims` nor
      `claims.view` has an entry, and there is no `".*"` entry. */
  lemma AdminTableRefusesClaimsView()
    ensures !PermissionMatch.CheckKey("claims.view", AdminTable())
  {
    assert "claims" !in AdminTable() && "claims.view" !in AdminTable() && PermissionMatch.Wildcard !in AdminTable();
    ClaimsViewRefused(AdminTable());
  }

  /** A table with no entry for `claims`, `claims.view` or `".*"` refuses
      `claims.view`. */
  lemma ClaimsViewRefused(table: map<string, bool>)
    requires "claims" !in table && "claims.view" !in table && PermissionMatch.Wildcard !in table
    ensures !PermissionMatch.CheckKey("claims.view", table)
  {
    var segments := ["claims", "view"];
    ClaimsViewSegments();
    PermissionMatch.CheckJoinedKey(segments, table);
    PermissionMatch.LongestPrefixDecides(segments, table);
  }

  /** `claims.view` splits into `claims` and `view`, with prefixes
      `claims` and `claims.view`. */
  lemma ClaimsViewSegments()
    ensures forall i :: 0 <= i < 2 ==> '.' !in ["claims", "view"][i]
    ensures PyStr.Join(["claims", "view"], '.') == "claims.view"
    ensures PermissionMatch.Prefix(["claims", "view"], 1) == "claims"
    ensures PermissionMatch.Prefix(["claims", "view"], 2) == "claims.view"
  {
    var segments := ["claims", "view"];
    assert PyStr.Join(segments[1..], '.') == "view";
    assert segments[..1] == ["claims"];
    assert segments[..2] == segments;
  }

  /** `claims.view.all` splits into three segments, with prefixes
      `claims.view` and `claims.view.all` at lengths two and three. */
  lemma ClaimsViewAllSegments()
    ensures forall i :: 0 <= i < 3 ==> '.' !in ["claims", "view", "all"][i]
    ensures PyStr.Join(["claims", "view", "all"], '.') == "claims.view.all"
    ensures PermissionMatch.Prefix(["claims", "view", "all"], 2) == "claims.view"
    ensures PermissionMatch.Prefix(["claims", "view", "all"], 3) == "claims.view.all"
  {
    var segments := ["claims", "view", "all"];
    assert PyStr.Join(segments[2..], '.') == "all";
    assert PyStr.Join(segments[1..], '.') == "view.all";
    assert segments[..2] == ["claims", "view"];
    assert PyStr.Join(["claims", "view"][1..], '.') == "view";
    assert segments[..3] == segments;
  }

  /** The admin role alone refuses `claims.view`. */
  lemma AdminRoleRefusesClaimsView()
    ensures Ranked(FreshRoles(), FreshRank())
    ensures !CheckPermission(FreshRoles(), FreshRank(), Holder(0), "claims.view")
  {
    FreshTables();
    AdminTableRefusesClaimsView();
  }

  /** ... while the literal key `claims.*` is allowed. */
  lemma AdminRoleAllowsLiteralClaimsStar()
    ensures Ranked(FreshRoles(), FreshRank())
    ensures CheckPermission(FreshRoles(), FreshRank(), Holder(0), "claims.*")
  {
    FreshTables();
    assert "claims.*" in AdminTable();
  }

  /** The finance table allows `claims.view.all` through its `claims.view`
      entry, the request's two-segment prefix. */
  lemma FinanceTableAllowsClaimsViewAll()
    ensures PermissionMatch.CheckKey("claims.view.all", FinanceTable())
  {
    assert "claims.view.all" !in FinanceTable() && FinanceTable()["claims.view"];
    ClaimsViewAllByPrefix(FinanceTable());
  }

  /** A table without a `claims.view.all` entry decides that request by
      its `claims.view` entry. */
  lemma ClaimsViewAllByPrefix(table: map<string, bool>)
    requires "claims.view.all" !in table && "claims.view" in table
    ensures PermissionMatch.CheckKey("claims.view.all", table) == table["claims.view"]
  {
    var segments := ["claims", "view", "all"];
    ClaimsViewAllSegments();
    PermissionMatch.CheckJoinedKey(segments, table);
    assert forall j :: 2 < j <= |segments| ==> PermissionMatch.Prefix(segments, j) !in table by {
      forall j | 2 < j <= |segments|
        ensures PermissionMatch.Prefix(segments, j) !in table
      {
        assert j == 3;
      }
    }
    PermissionMatch.PrefixBeatsWildcard(segments, table, 2);
  }

  /** The finance role allows `claims.view.all`. */
  lemma FinanceRoleAllowsClaimsViewAll()
    ensures Ranked(FreshRoles(), FreshRank())
    ensures CheckPermission(FreshRoles(), FreshRank(), Holder(1), "claims.view.all")
  {
    FreshTables();
    FinanceTableAllowsClaimsViewAll();
  }
}

=== FILE: user_forms.dfy ===
/** The role rules of the user change form and the password change of the
    profile form (`InsuranceClaimsUser/forms.py`). Roles are identified by
    primary key; `None` stands for "no role" and for "no admin role
    exists", and — as in Python — `None == None` holds. */
module UserForms {
  import opened Results
  import PyStr
  import Validators

  type RoleId = nat

  /** A row of the role table, in primary-key order. */
  datatype RoleRow = RoleRow(id: RoleId, name: string)

  /** The user doing the editing (`current_user`). */
  datatype Editor = Editor(isSuperuser: bool, role: Option<RoleId>)

  /** `Role.objects.filter(name='admin').first()`: the first row, in key
      order, named exactly `admin`. */
  function FirstAdmin(rows: seq<RoleRow>): (a: Option<RoleId>)
    ensures a.Some? <==> exists i :: 0 <= i < |rows| && rows[i].name == "admin"
    ensures a.Some? ==> exists i :: 0 <= i < |rows| && rows[i].name == "admin" && rows[i].id == a.value
                          && forall j :: 0 <= j < i ==> rows[j].name != "admin"
    decreases |rows|
  {
    if |rows| == 0 then None
    else if rows[0].name == "admin" then Some(rows[0].id)
    else
      var a := FirstAdmin(rows[1..]);
      assert a.Some? <==> exists i :: 0 <= i < |rows| && rows[i].name == "admin" by {
        if exists i :: 0 <= i < |rows| && rows[i].name == "admin" {
          var i :| 0 <= i < |rows| && rows[i].name == "admin";
          assert rows[1..][i - 1] == rows[i];
        }
      }
      assert a.Some? ==> exists i :: 0 <= i < |rows| && rows[i].name == "admin" && rows[i].id == a.value
                          && forall j :: 0 <= j < i ==> rows[j].name != "admin" by {
        if a.Some? {
          var i :| 0 <= i < |rows[1..]| && rows[1..][i].name == "admin" && rows[1..][i].id == a.value
                   && forall j :: 0 <= j < i ==> rows[1..][j].name != "admin";
          assert rows[i + 1] == rows[1..][i];
          forall j | 0 <= j < i + 1
            ensures rows[j].name != "admin"
          {
            if j > 0 {
              assert rows[j] == rows[1..][j - 1];
            }
          }
        }
      }
      a
  }

  // ------------------------------------------------------------------
  // CustomUserChangeForm.__init__
  // ------------------------------------------------------------------

  /** The role field as the form offers it. */
  datatype RoleField = RoleField(disabled: bool, choices: seq<RoleRow>)

  /** Every row not named exactly `admin`, in order. */
  function WithoutAdmin(rows: seq<RoleRow>): (r: seq<RoleRow>)
    ensures forall i :: 0 <= i < |r| ==> r[i].name != "admin"
    ensures forall x :: x in r <==> x in rows && x.name != "admin"
    decreases |rows|
  {
    if |rows| == 0 then []
    else if rows[0].name == "admin" then WithoutAdmin(rows[1..])
    else [rows[0]] + WithoutAdmin(rows[1..])
  }

  /** The role field set up for an editor and an edited user: for a
      non-superuser editor the field is disabled when the edited user's
      role equals the admin role, and otherwise every role named admin is
      removed from the choices; a superuser (or no editor) sees all roles. */
  function RoleFieldFor(rows: seq<RoleRow>, editor: Option<Editor>, instanceRole: Option<RoleId>): (f: RoleField)
    ensures editor.None? || editor.value.isSuperuser ==> f == RoleField(false, rows)
    ensures editor.Some? && !editor.value.isSuperuser ==>
              (f.disabled <==> instanceRole == FirstAdmin(rows))
    ensures editor.Some? && !editor.value.isSuperuser && !f.disabled ==>
              forall x :: x in f.choices <==> x in rows && x.name != "admin"
  {
    if editor.Some? && !editor.value.isSuperuser then
      if instanceRole == FirstAdmin(rows) then RoleField(true, rows)
      else RoleField(false, WithoutAdmin(rows))
    else RoleField(false, rows)
  }

  /** Where no admin role exists, a non-superuser editing a user without a
      role finds the field disabled: `None == None`. */
  lemma NoAdminRoleDisablesFieldForRoleless(rows: seq<RoleRow>, editor: Editor)
    requires forall i :: 0 <= i < |rows| ==> rows[i].name != "admin"
    requires !editor.isSuperuser
    ensures RoleFieldFor(rows, Some(editor), None).disabled
  {
  }

  // ------------------------------------------------------------------
  // CustomUserChangeForm.clean_role
  // ------------------------------------------------------------------

  datatype RoleError =
    | PromotionRefused
      /** `current_user` was not passed and a branch reads it. */
    | NoEditor

  const PromotionMessage: string := "Only superusers and admins can promote users to admin role."

  /** `clean_role`: the role the form saves. An empty selection keeps the
      old role; an admin's role is kept unchanged for a non-superuser
      editor; promoting to admin needs a superuser or admin editor. */
  function CleanRole(submitted: Option<RoleId>, oldRole: Option<RoleId>, admin: Option<RoleId>,
                     editor: Option<Editor>): (r: Result<Option<RoleId>, RoleError>)
    ensures submitted.None? ==> r == Success(oldRole)
    ensures r.Success? ==> r.value == oldRole || r.value == submitted
    ensures submitted.Some? && oldRole == admin && editor.Some? && !editor.value.isSuperuser
            ==> r == Success(oldRole)
    ensures (submitted.Some? && submitted == admin && oldRole != admin && editor.Some?)
            ==> (r == Failure(PromotionRefused) <==> !(editor.value.isSuperuser || editor.value.role == admin))
    ensures (submitted.Some? && submitted != admin && oldRole != admin) ==> r == Success(submitted)
    ensures submitted.Some? && oldRole == admin && editor.Some? && editor.value.isSuperuser
            ==> r == Success(submitted)
    ensures submitted.Some? && submitted == admin && oldRole != admin && editor.Some?
            && (editor.value.isSuperuser || editor.value.role == admin)
            ==> r == Success(submitted)
    ensures submitted.Some? && editor.None? && (oldRole == admin || submitted == admin) ==> r == Failure(NoEditor)
  {
    if submitted.None? then Success(oldRole)
    else if oldRole == admin && editor.None? then Failure(NoEditor)
    else if oldRole == admin && !editor.value.isSuperuser then Success(oldRole)
    else if submitted == admin && editor.None? then Failure(NoEditor)
    else if submitted == admin && !(editor.value.isSuperuser || editor.value.role == admin) then
      Failure(PromotionRefused)
    else Success(submitted)
  }

  /** An editor who is neither a superuser nor an admin never makes anyone
      admin who was not admin before. */
  lemma OnlyAdminsPromote(submitted: Option<RoleId>, oldRole: Option<RoleId>, admin: Option<RoleId>, editor: Editor)
    requires admin.Some?
    requires !editor.isSuperuser && editor.role != admin
    requires CleanRole(submitted, oldRole, admin, Some(editor)).Success?
    requires CleanRole(submitted, oldRole, admin, Some(editor)).value == admin
    ensures oldRole == admin
  {
  }

  /** Only a superuser changes the role of an admin. */
  lemma OnlySuperusersDemote(submitted: Option<RoleId>, oldRole: Option<RoleId>, admin: Option<RoleId>, editor: Editor)
    requires oldRole == admin
    requires CleanRole(submitted, oldRole, admin, Some(editor)).Success?
    requires CleanRole(submitted, oldRole, admin, Some(editor)).value != oldRole
    ensures editor.isSuperuser
  {
  }

  /** Where no admin role exists, a non-superuser cannot give a role-less
      user any role: the "edited user is admin" branch fires on
      `None == None`. */
  lemma NoAdminRoleFreezesRoleless(submitted: RoleId, editor: Editor)
    requires !editor.isSuperuser
    ensures CleanRole(Some(submitted), None, None, Some(editor)) == Success(None)
  {
  }

  // ------------------------------------------------------------------
  // clean_full_name of both forms
  // ------------------------------------------------------------------

  /** The forms' `clean_full_name`: the submitted name is validated, and
      the cleaned (single-spaced) name is what is saved. */
  function CleanFullNameField(s: string): (r: Result<string, string>)
    ensures r.Success? <==> Validators.ValidateFullName(s).Pass?
    ensures r.Failure? ==> r.error == Validators.ValidateFullName(s).error
    ensures r.Success? ==> PyStr.Words(r.value) == PyStr.Words(s) && PyStr.SingleSpaced(r.value)
  {
    match Validators.ValidateFullName(s)
    case Fail(e) => Failure(e)
    case Pass => Success(Validators.CleanFullName(s))
  }

  /** A name that passes is saved with its inner runs of spaces reduced to
      one, e.g. `"Test   User"` becomes `"Test User"`. */
  lemma SavedNameIsCleanedOnce(s: string)
    requires CleanFullNameField(s).Success?
    ensures CleanFullNameField(s).value == Validators.CleanFullName(CleanFullNameField(s).value)
  {
    Validators.CleanFullNameIdempotent(s);
  }

  // ------------------------------------------------------------------
  // ProfileUpdateForm.clean
  // ------------------------------------------------------------------

  /** What the profile form does with the password: nothing, or set a new
      one. */
  datatype PasswordChange = KeepPassword | SetPassword(password: string)

  const MissingFieldMessage: string := "All password fields are required when changing password."
  const WrongCurrentMessage: string := "Current password is incorrect."
  const MismatchMessage: string := "New passwords do not match."

  /** `ProfileUpdateForm.clean`, password part: empty fields are `""`;
      `currentCorrect` is the (opaque) outcome of `check_password` on the
      current-password field. Errors in order: a missing field, a wrong
      current password, a mismatch, then the strength rules. */
  function CleanProfilePassword(current: string, newPassword: string, confirm: string, currentCorrect: bool)
    : (r: Result<PasswordChange, string>)
    ensures current == "" && newPassword == "" && confirm == "" ==> r == Success(KeepPassword)
    ensures r == Success(KeepPassword) ==> current == "" && newPassword == "" && confirm == ""
    ensures (current != "" || newPassword != "" || confirm != "") && (current == "" || newPassword == "" || confirm == "")
            ==> r == Failure(MissingFieldMessage)
    ensures r.Success? && r.value.SetPassword?
            ==> currentCorrect && newPassword == confirm && r.value.password == newPassword
                && Validators.ValidatePassword(newPassword).Pass?
    ensures current != "" && newPassword != "" && confirm != "" ==>
              (r.Success? <==> currentCorrect && newPassword == confirm && Validators.ValidatePassword(newPassword).Pass?)
    ensures current != "" && newPassword != "" && confirm != "" && !currentCorrect ==> r == Failure(WrongCurrentMessage)
    ensures current != "" && newPassword != "" && confirm != "" && currentCorrect && newPassword != confirm
            ==> r == Failure(MismatchMessage)
  {
    if current == "" && newPassword == "" && confirm == "" then Success(KeepPassword)
    else if current == "" || newPassword == "" || confirm == "" then Failure(MissingFieldMessage)
    else if !currentCorrect then Failure(WrongCurrentMessage)
    else if newPassword != confirm then Failure(MismatchMessage)
    else
      match Validators.ValidatePassword(newPassword)
      case Fail(e) => Failure(e)
      case Pass => Success(SetPassword(newPassword))
  }

  /** A weak new password is reported with the strength message only once
      every earlier check has passed. */
  lemma WeakPasswordReportedLast(current: string)
    requires current != ""
    ensures CleanProfilePassword(current, "weak", "weak", true) == Failure(Validators.PasswordShortError)
    ensures CleanProfilePassword(current, "weak", "weak!", true) == Failure(MismatchMessage)
    ensures CleanProfilePassword(current, "weak", "weak", false) == Failure(WrongCurrentMessage)
  {
  }
}

=== FILE: validators.dfy ===
/** The account field validators and the full-name normaliser
    (`InsuranceClaimsUser/utils.py`). Each regular expression is modelled
    the way `re.match` runs it: character runs are taken greedily and `$`
    matches at the end of the text or just before a final newline. */
module Validators {
  import opened Results
  import PyStr

  // ------------------------------------------------------------------
  // Character classes and the `$` anchor
  // ------------------------------------------------------------------

  predicate IsAsciiLetter(c: char)
  {
    'a' <= c <= 'z' || 'A' <= c <= 'Z'
  }

  /** `[a-zA-Z0-9-_]`. */
  predicate IsUsernameChar(c: char)
  {
    IsAsciiLetter(c) || PyStr.IsDigit(c) || c == '-' || c == '_'
  }

  /** `[@$!%*#?&]`. */
  predicate IsSpecial(c: char)
  {
    c == '@' || c == '$' || c == '!' || c == '%' || c == '*' || c == '#' || c == '?' || c == '&'
  }

  /** `[a-zA-Z\d@$!%*#?&]`. */
  predicate IsPasswordChar(c: char)
  {
    IsAsciiLetter(c) || PyStr.IsDigit(c) || IsSpecial(c)
  }

  /** `[a-zA-Z -]`. */
  predicate IsNameChar(c: char)
  {
    IsAsciiLetter(c) || c == ' ' || c == '-'
  }

  predicate IsLower(c: char)
  {
    'a' <= c <= 'z'
  }

  predicate IsUpper(c: char)
  {
    'A' <= c <= 'Z'
  }

  /** Where `$` matches: the end, or just before a final newline. */
  predicate AtDollar(s: string, i: nat)
  {
    i == |s| || (i == |s| - 1 && s[i] == '\n')
  }

  /** The text up to where `$` matches last: `s` without one final newline. */
  function Core(s: string): (c: string)
    ensures c <= s && |s| - 1 <= |c|
    ensures |c| < |s| ==> s[|c|] == '\n'
  {
    if |s| > 0 && s[|s| - 1] == '\n' then s[..|s| - 1] else s
  }

  /** Length of the longest prefix of `s` whose characters satisfy `p`. */
  function RunLength(s: string, p: char -> bool): (n: nat)
    ensures n <= |s|
    ensures forall i :: 0 <= i < n ==> p(s[i])
    ensures n < |s| ==> !p(s[n])
    decreases |s|
  {
    if |s| == 0 || !p(s[0]) then 0 else 1 + RunLength(s[1..], p)
  }

  predicate All(s: string, p: char -> bool)
  {
    forall i :: 0 <= i < |s| ==> p(s[i])
  }

  predicate Exists(s: string, p: char -> bool)
  {
    exists i :: 0 <= i < |s| && p(s[i])
  }

  /** A run that stops where `$` can match covers the core exactly. */
  lemma RunToDollar(s: string, p: char -> bool)
    requires !p('\n')
    ensures AtDollar(s, RunLength(s, p)) <==> All(Core(s), p)
  {
    var n := RunLength(s, p);
    var c := Core(s);
    if All(c, p) {
      if |c| == |s| {
        assert n == |s|;
      } else {
        assert n >= |c|;
      }
    }
  }

  // ------------------------------------------------------------------
  // validate_username
  // ------------------------------------------------------------------

  const UsernameMinLen: nat := 2
  const UsernameMaxLen: nat := 15
  const UsernameTypeError: string := "Username must be a string"
  const UsernameShortError: string := "Username must be at least 2 characters long."
  const UsernameLongError: string := "Username must be at most 15 characters long."
  const UsernamePatternError: string :=
    "Username must start with a letter and only contain letters, numbers, hyphens, and underscores."

  /** The accepted usernames, stated directly: 2 to 15 characters, an
      ASCII letter first, then only letters, digits, `-` and `_`. */
  predicate UsernameAccepted(s: string)
  {
    UsernameMinLen <= |s| <= UsernameMaxLen && IsAsciiLetter(s[0])
    && forall i :: 1 <= i < |s| ==> IsUsernameChar(s[i])
  }

  /** `re.match(r"^[a-zA-Z][a-zA-Z0-9-_]*$", s)`. */
  function UsernamePatternMatch(s: string): (m: bool)
    ensures m ==> |s| >= 1 && IsAsciiLetter(s[0])
    ensures |s| >= 1 && IsAsciiLetter(s[0]) && (forall i :: 1 <= i < |s| ==> IsUsernameChar(s[i])) ==> m
  {
    assert |s| >= 1 && (forall i :: 1 <= i < |s| ==> IsUsernameChar(s[i]))
           ==> RunLength(s[1..], IsUsernameChar) == |s| - 1 by {
      if |s| >= 1 && (forall i :: 1 <= i < |s| ==> IsUsernameChar(s[i])) {
        forall i | 0 <= i < |s| - 1
          ensures IsUsernameChar(s[1..][i])
        {
          assert s[1..][i] == s[i + 1];
        }
      }
    }
    |s| >= 1 && IsAsciiLetter(s[0]) && AtDollar(s, 1 + RunLength(s[1..], IsUsernameChar))
  }

  /** `re.search(r'[^a-zA-Z0-9-_]', s)`: some character outside the class. */
  function HasForbiddenChar(s: string): bool
  {
    RunLength(s, IsUsernameChar) < |s|
  }

  /** `validate_username`; `None` stands for a value that is not a string.
      The checks run in order: type, too short, too long, pattern. */
  function ValidateUsername(u: Option<string>): (r: Outcome<string>)
    ensures r.Pass? <==> u.Some? && UsernameAccepted(u.value)
    ensures u.None? ==> r == Fail(UsernameTypeError)
    ensures u.Some? && |u.value| < UsernameMinLen ==> r == Fail(UsernameShortError)
    ensures u.Some? && |u.value| > UsernameMaxLen ==> r == Fail(UsernameLongError)
    ensures u.Some? && UsernameMinLen <= |u.value| <= UsernameMaxLen && !r.Pass? ==> r == Fail(UsernamePatternError)
  {
    match u
    case None => Fail(UsernameTypeError)
    case Some(s) =>
      if |s| < UsernameMinLen then Fail(UsernameShortError)
      else if |s| > UsernameMaxLen then Fail(UsernameLongError)
      else
        var r := if !UsernamePatternMatch(s) || HasForbiddenChar(s) then Fail(UsernamePatternError) else Pass;
        assert r.Pass? <==> UsernameAccepted(s) by {
          UsernameCheckMeaning(s);
        }
        r
  }

  /** The pattern and the search together accept exactly the direct
      description; the search is what rejects a final newline, which the
      pattern alone would let through. */
  lemma UsernameCheckMeaning(s: string)
    requires |s| >= 1
    ensures (UsernamePatternMatch(s) && !HasForbiddenChar(s))
            <==> (IsAsciiLetter(s[0]) && forall i :: 1 <= i < |s| ==> IsUsernameChar(s[i]))
  {
    var n := RunLength(s, IsUsernameChar);
    if IsAsciiLetter(s[0]) && forall i :: 1 <= i < |s| ==> IsUsernameChar(s[i]) {
      assert n == |s|;
      var m := RunLength(s[1..], IsUsernameChar);
      assert m == |s| - 1;
    }
    if UsernamePatternMatch(s) && !HasForbiddenChar(s) {
      assert n == |s|;
      forall i | 1 <= i < |s|
        ensures IsUsernameChar(s[i])
      {
        assert IsUsernameChar(s[i]);
      }
    }
  }

  /** A final newline passes the pattern but not the search. */
  lemma UsernameRejectsTrailingNewline()
    ensures UsernamePatternMatch("alice\n")
    ensures ValidateUsername(Some("alice\n")) == Fail(UsernamePatternError)
  {
    var s := "alice\n";
    assert s[1..] == "lice\n";
    assert RunLength("\n", IsUsernameChar) == 0;
    assert RunLength("e\n", IsUsernameChar) == 1;
    assert RunLength("ce\n", IsUsernameChar) == 2;
    assert RunLength("ice\n", IsUsernameChar) == 3;
    assert RunLength("lice\n", IsUsernameChar) == 4;
    assert !IsUsernameChar(s[5]);
    UsernameCheckMeaning(s);
  }

  // ------------------------------------------------------------------
  // validate_password
  // ------------------------------------------------------------------

  const PasswordMinLen: nat := 8
  const PasswordMaxLen: nat := 100
  const PasswordShortError: string := "Password must be at least 8 characters long."
  const PasswordLongError: string := "Password must be at most 100 characters long."
  const PasswordPatternError: string :=
    "Password must contain at least one uppercase letter, one lowercase letter, one number, and one special character."

  /** The accepted passwords, stated directly: 8 to 100 characters
      (a final newline included), and apart from such a newline only
      letters, digits and `@$!%*#?&`, with at least one of each of lower
      case, upper case, digit and special. */
  predicate PasswordAccepted(s: string)
  {
    var c := Core(s);
    PasswordMinLen <= |s| <= PasswordMaxLen
    && All(c, IsPasswordChar)
    && Exists(c, IsLower) && Exists(c, IsUpper) && Exists(c, PyStr.IsDigit) && Exists(c, IsSpecial)
  }

  /** `(?=.*X)`: some character satisfying `p` before the first newline
      (`.` does not match a newline). */
  predicate LookaheadFinds(s: string, p: char -> bool)
  {
    exists i :: 0 <= i < RunLength(s, c => c != '\n') && p(s[i])
  }

  /** `PASSWORD_REGEX.match(s)`: the four lookaheads at the start, then a
      greedy run of password characters, then `$`. */
  function PasswordPatternMatch(s: string): (m: bool)
    ensures m ==> (exists i :: 0 <= i < |s| && IsLower(s[i])) && (exists i :: 0 <= i < |s| && IsUpper(s[i]))
    ensures m ==> (exists i :: 0 <= i < |s| && PyStr.IsDigit(s[i])) && (exists i :: 0 <= i < |s| && IsSpecial(s[i]))
  {
    && LookaheadFinds(s, IsLower) && LookaheadFinds(s, IsUpper)
    && LookaheadFinds(s, PyStr.IsDigit) && LookaheadFinds(s, IsSpecial)
    && AtDollar(s, RunLength(s, IsPasswordChar))
  }

  /** When the run reaches `$`, the first line is exactly the core, so each
      lookahead searches the core. */
  lemma LookaheadOnCore(s: string, p: char -> bool)
    requires All(Core(s), IsPasswordChar)
    ensures LookaheadFinds(s, p) <==> Exists(Core(s), p)
  {
    var c := Core(s);
    var line := RunLength(s, c => c != '\n');
    assert line == |c|;
    if LookaheadFinds(s, p) {
      var i :| 0 <= i < line && p(s[i]);
      assert c[i] == s[i];
    }
    if Exists(c, p) {
      var i :| 0 <= i < |c| && p(c[i]);
      assert s[i] == c[i];
    }
  }

  lemma PasswordPatternMeaning(s: string)
    ensures PasswordPatternMatch(s)
            <==> All(Core(s), IsPasswordChar)
                 && Exists(Core(s), IsLower) && Exists(Core(s), IsUpper)
                 && Exists(Core(s), PyStr.IsDigit) && Exists(Core(s), IsSpecial)
  {
    RunToDollar(s, IsPasswordChar);
    if All(Core(s), IsPasswordChar) {
      LookaheadOnCore(s, IsLower);
      LookaheadOnCore(s, IsUpper);
      LookaheadOnCore(s, PyStr.IsDigit);
      LookaheadOnCore(s, IsSpecial);
    }
  }

  /** `validate_password`: length first (short, then long), then the
      pattern. */
  function ValidatePassword(s: string): (r: Outcome<string>)
    ensures r.Pass? <==> PasswordAccepted(s)
    ensures |s| < PasswordMinLen ==> r == Fail(PasswordShortError)
    ensures |s| > PasswordMaxLen ==> r == Fail(PasswordLongError)
    ensures PasswordMinLen <= |s| <= PasswordMaxLen && !r.Pass? ==> r == Fail(PasswordPatternError)
  {
    if |s| < PasswordMinLen then Fail(PasswordShortError)
    else if |s| > PasswordMaxLen then Fail(PasswordLongError)
    else
      var r := if !PasswordPatternMatch(s) then Fail(PasswordPatternError) else Pass;
      assert r.Pass? <==> PasswordAccepted(s) by {
        PasswordPatternMeaning(s);
      }
      r
  }

  /** The test suite's strong password passes, `weak` does not, and a
      strong password followed by a newline passes too. */
  lemma PasswordExamples()
    ensures ValidatePassword("TestPass123!").Pass?
    ensures ValidatePassword("TestPass123!\n").Pass?
    ensures ValidatePassword("weak") == Fail(PasswordShortError)
  {
    var s := "TestPass123!";
    assert Core(s) == s;
    assert Core(s + "\n") == s;
    assert "TestPass123!\n" == s + "\n";
    assert All(s, IsPasswordChar);
    assert IsLower(s[1]) && IsUpper(s[0]) && PyStr.IsDigit(s[8]) && IsSpecial(s[11]);
  }

  // ------------------------------------------------------------------
  // validate_full_name
  // ------------------------------------------------------------------

  const FullNameMinLen: nat := 2
  const FullNameMaxLen: nat := 50
  const FullNameShortError: string := "Full name must be at least 2 characters long."
  const FullNameLongError: string := "Full name must be at most 50 characters long."
  const FullNamePatternError: string :=
    "Full name must start and end with a letter and only contain letters and spaces."

  /** `s.replace("  ", " ")`: each double space, scanning left to right
      without overlap, becomes one space (so three spaces become two). */
  function CollapseDoubleSpaces(s: string): (r: string)
    ensures |r| <= |s|
    decreases |s|
  {
    if |s| >= 2 && s[0] == ' ' && s[1] == ' ' then " " + CollapseDoubleSpaces(s[2..])
    else if |s| == 0 then ""
    else [s[0]] + CollapseDoubleSpaces(s[1..])
  }

  /** Collapsing only ever removes spaces: the other characters are kept
      in order. */
  lemma {:induction false} CollapseKeepsOthers(s: string)
    ensures NonSpaces(CollapseDoubleSpaces(s)) == NonSpaces(s)
    decreases |s|
  {
    if |s| >= 2 && s[0] == ' ' && s[1] == ' ' {
      CollapseKeepsOthers(s[2..]);
      assert NonSpaces(s) == NonSpaces(s[1..]);
      assert s[1..][1..] == s[2..];
      assert NonSpaces(" " + CollapseDoubleSpaces(s[2..])) == NonSpaces(CollapseDoubleSpaces(s[2..]));
    } else if |s| > 0 {
      CollapseKeepsOthers(s[1..]);
      assert ([s[0]] + CollapseDoubleSpaces(s[1..]))[1..] == CollapseDoubleSpaces(s[1..]);
    }
  }

  /** A run of `n` plain spaces. */
  function Spaces(n: nat): (s: string)
    ensures |s| == n && forall i :: 0 <= i < n ==> s[i] == ' '
  {
    if n == 0 then "" else [' '] + Spaces(n - 1)
  }

  /** A run of `n` spaces keeps half of them, rounded up: four become two,
      three become two. */
  lemma {:induction false} CollapseSpacesRun(n: nat)
    ensures CollapseDoubleSpaces(Spaces(n)) == Spaces((n + 1) / 2)
    decreases n
  {
    if n >= 2 {
      assert Spaces(n)[2..] == Spaces(n - 2);
      CollapseSpacesRun(n - 2);
      assert Spaces((n + 1) / 2) == [' '] + Spaces((n - 1) / 2);
    } else if n == 1 {
      assert Spaces(1)[1..] == "";
    }
  }

  /** A character other than a space ends every run: the replacement works
      on each side of it on its own. */
  lemma {:induction false} CollapseSplitsAtNonSpace(a: string, c: char, b: string)
    requires c != ' '
    ensures CollapseDoubleSpaces(a + [c] + b) == CollapseDoubleSpaces(a) + [c] + CollapseDoubleSpaces(b)
    decreases |a|
  {
    var s := a + [c] + b;
    if |a| == 0 {
      assert s == [c] + b;
      assert s[1..] == b;
    } else if |a| >= 2 && a[0] == ' ' && a[1] == ' ' {
      assert s[2..] == a[2..] + [c] + b;
      CollapseSplitsAtNonSpace(a[2..], c, b);
    } else if |a| == 1 {
      assert s[1..] == [c] + b;
      assert ([c] + b)[1..] == b;
      assert a[1..] == "";
    } else {
      assert s[1..] == a[1..] + [c] + b;
      CollapseSplitsAtNonSpace(a[1..], c, b);
    }
  }

  /** The characters of `s` other than plain spaces. */
  function NonSpaces(s: string): string
    decreases |s|
  {
    if |s| == 0 then "" else (if s[0] == ' ' then "" else [s[0]]) + NonSpaces(s[1..])
  }

  /** Three spaces become two, not one. */
  lemma CollapseIsSinglePass()
    ensures CollapseDoubleSpaces("A   B") == "A  B"
  {
    assert CollapseDoubleSpaces("B") == "B";
    assert CollapseDoubleSpaces(" B") == " B";
    assert CollapseDoubleSpaces("   B") == "  B";
  }

  /** The accepted full names once collapsed, stated directly: at least two
      characters before any final newline, a letter first and last, and
      only letters, spaces and `-` in between. */
  predicate NameShapeOk(c: string)
  {
    |c| >= 2 && IsAsciiLetter(c[0]) && IsAsciiLetter(c[|c| - 1])
    && forall i :: 1 <= i < |c| - 1 ==> IsNameChar(c[i])
  }

  /** The engine's backtracking over the middle run for
      `^[a-zA-Z][a-zA-Z -]*[a-zA-Z]$`: with the middle holding `m`
      characters, the next must be a letter and `$` must follow; otherwise
      give one back. */
  function NameBacktrack(t: string, m: nat): (found: bool)
    requires 1 + m <= |t|
    ensures found ==> |t| >= 2
    decreases m
  {
    if 1 + m < |t| && IsAsciiLetter(t[1 + m]) && AtDollar(t, 2 + m) then true
    else if m == 0 then false
    else NameBacktrack(t, m - 1)
  }

  /** `FULL_NAME_REGEX.match(t)`: a letter, the greedy middle run, then
      backtracking. */
  function FullNamePatternMatch(t: string): (m: bool)
    ensures m ==> |t| >= 2 && IsAsciiLetter(t[0])
  {
    |t| >= 1 && IsAsciiLetter(t[0]) && NameBacktrack(t, RunLength(t[1..], IsNameChar))
  }

  /** A middle of `k` characters can be followed by the final letter and `$`. */
  predicate EndsAfterMiddle(t: string, k: nat)
  {
    1 + k < |t| && IsAsciiLetter(t[1 + k]) && AtDollar(t, 2 + k)
  }

  /** Backtracking from `m` succeeds iff some middle length up to `m` is
      followed by a letter and then `$`. */
  lemma {:induction false} NameBacktrackMeaning(t: string, m: nat)
    requires 1 + m <= |t|
    ensures NameBacktrack(t, m)
            <==> exists k: nat :: k <= m && EndsAfterMiddle(t, k)
    decreases m
  {
    if EndsAfterMiddle(t, m) {
      assert NameBacktrack(t, m);
    } else if m == 0 {
      assert !NameBacktrack(t, m);
      assert forall k: nat :: k <= m && EndsAfterMiddle(t, k) ==> k == m;
    } else {
      NameBacktrackMeaning(t, m - 1);
      assert forall k: nat :: k <= m && EndsAfterMiddle(t, k) ==> k <= m - 1;
    }
  }

  lemma FullNamePatternMeaning(t: string)
    ensures FullNamePatternMatch(t) <==> NameShapeOk(Core(t))
  {
    var c := Core(t);
    if |t| >= 1 {
      var run := RunLength(t[1..], IsNameChar);
      NameBacktrackMeaning(t, run);
      if NameShapeOk(c) {
        var k := |c| - 2;
        assert EndsAfterMiddle(t, k);
        assert k <= run;
      }
      if FullNamePatternMatch(t) {
        var k: nat :| k <= run && EndsAfterMiddle(t, k);
        assert |c| == 2 + k;
        forall i | 1 <= i < |c| - 1
          ensures IsNameChar(c[i])
        {
          assert t[1..][i - 1] == t[i];
        }
      }
    }
  }

  /** `validate_full_name`: the name is collapsed first; then length
      (short, then long) and the pattern are checked on the collapsed text. */
  function ValidateFullName(s: string): (r: Outcome<string>)
    ensures var t := CollapseDoubleSpaces(s);
            r.Pass? <==> FullNameMinLen <= |t| <= FullNameMaxLen && NameShapeOk(Core(t))
    ensures |CollapseDoubleSpaces(s)| < FullNameMinLen ==> r == Fail(FullNameShortError)
    ensures |CollapseDoubleSpaces(s)| > FullNameMaxLen ==> r == Fail(FullNameLongError)
    ensures FullNameMinLen <= |CollapseDoubleSpaces(s)| <= FullNameMaxLen && !r.Pass? ==> r == Fail(FullNamePatternError)
  {
    var t := CollapseDoubleSpaces(s);
    if |t| < FullNameMinLen then Fail(FullNameShortError)
    else if |t| > FullNameMaxLen then Fail(FullNameLongError)
    else
      var r := if !FullNamePatternMatch(t) then Fail(FullNamePatternError) else Pass;
      assert r.Pass? <==> NameShapeOk(Core(t)) by {
        FullNamePatternMeaning(t);
      }
      r
  }

  /** Text without two spaces in a row is left as it is by the collapse. */
  lemma {:induction false} CollapseWithoutDoubleSpace(s: string)
    requires forall i :: 0 <= i < |s| - 1 ==> !(s[i] == ' ' && s[i + 1] == ' ')
    ensures CollapseDoubleSpaces(s) == s
    decreases |s|
  {
    if |s| > 0 {
      CollapseWithoutDoubleSpace(s[1..]);
      assert [s[0]] + s[1..] == s;
    }
  }

  lemma CollapseTestUser()
    ensures CollapseDoubleSpaces("Test User") == "Test User"
  {
    CollapseWithoutDoubleSpace("Test User");
  }

  lemma CollapseTestUserNewline()
    ensures CollapseDoubleSpaces("Test User\n") == "Test User\n"
  {
    CollapseWithoutDoubleSpace("Test User\n");
  }

  lemma CollapseTestUserLeadingSpace()
    ensures CollapseDoubleSpaces(" Test User") == " Test User"
  {
    CollapseWithoutDoubleSpace(" Test User");
  }

  lemma CoreTestUser()
    ensures Core("Test User") == "Test User"
    ensures Core("Test User\n") == "Test User"
    ensures Core(" Test User") == " Test User"
  {
  }

  lemma ShapeTestUser()
    ensures NameShapeOk("Test User")
    ensures !NameShapeOk(" Test User")
  {
  }

  /** The test suite's name passes. */
  lemma PlainFullNameAccepted()
    ensures ValidateFullName("Test User").Pass?
  {
    CollapseTestUser();
    CoreTestUser();
    ShapeTestUser();
  }

  /** A final newline passes the full-name pattern. */
  lemma FullNameTrailingNewlineAccepted()
    ensures ValidateFullName("Test User\n").Pass?
  {
    CollapseTestUserNewline();
    CoreTestUser();
    ShapeTestUser();
  }

  /** A leading space does not. */
  lemma FullNameLeadingSpaceRejected()
    ensures !ValidateFullName(" Test User").Pass?
  {
    CollapseTestUserLeadingSpace();
    CoreTestUser();
    ShapeTestUser();
  }

  // ------------------------------------------------------------------
  // clean_full_name
  // ------------------------------------------------------------------

  /** `clean_full_name`: `' '.join(s.split())` — the words of `s` separated
      by single spaces, with no whitespace at either end. */
  function CleanFullName(s: string): (r: string)
    ensures PyStr.SingleSpaced(r)
    ensures PyStr.Words(r) == PyStr.Words(s)
  {
    var ws := PyStr.Words(s);
    PyStr.JoinSingleSpaced(ws);
    PyStr.WordsOfJoin(ws);
    PyStr.Join(ws, ' ')
  }

  /** Cleaning a cleaned name changes nothing. */
  lemma CleanFullNameIdempotent(s: string)
    ensures CleanFullName(CleanFullName(s)) == CleanFullName(s)
  {
  }

  /** No whitespace at either end and no two whitespace characters in a
      row: in particular no run of two spaces. */
  lemma CleanFullNameHasNoDoubleSpace(s: string, i: nat)
    requires i + 1 < |CleanFullName(s)|
    ensures !(CleanFullName(s)[i] == ' ' && CleanFullName(s)[i + 1] == ' ')
    ensures |CleanFullName(s)| > 0 ==> !PyStr.IsSpace(CleanFullName(s)[0])
  {
  }
}

=== FILE: yaml_roles.dfy ===
/** The file-configured role registry (`src/user/Role.py`) after each role
    file has been parsed: a role's permission list is turned into a dict,
    `~name` meaning deny; a role that extends others gets their key names
    appended to its own list before the dict is built. File scanning and
    YAML parsing are not part of this model. */
module YamlRoles {
  import opened Results
  import PyStr
  import PermissionMatch
  import OrmPermissions

  // ------------------------------------------------------------------
  // The permission dict
  // ------------------------------------------------------------------

  /** A Python dict from permission name to allowed flag: `order` lists the
      keys in first-insertion order, which is what `keys()` returns. */
  datatype Dict = Dict(order: seq<string>, entries: map<string, bool>)

  ghost predicate Valid(d: Dict)
  {
    && (forall i, j :: 0 <= i < j < |d.order| ==> d.order[i] != d.order[j])
    && (forall k :: k in d.entries <==> k in d.order)
  }

  const Empty: Dict := Dict([], map[])

  /** `d[k] = v`: a new key goes to the end, an existing key keeps its place. */
  function Put(d: Dict, k: string, v: bool): (r: Dict)
    requires Valid(d)
    ensures Valid(r)
    ensures r.entries == d.entries[k := v]
    ensures d.order <= r.order
  {
    if k in d.entries then Dict(d.order, d.entries[k := v])
    else Dict(d.order + [k], d.entries[k := v])
  }

  // ------------------------------------------------------------------
  // Building a role's dict from its list
  // ------------------------------------------------------------------

  /** An entry written with the deny marker. */
  predicate IsDenyEntry(e: string)
  {
    |e| > 0 && e[0] == '~'
  }

  /** The key an entry names: the entry without its deny marker. */
  function EntryKey(e: string): string
  {
    if IsDenyEntry(e) then e[1..] else e
  }

  /** `_add_permission`: `"~k"` stores `k -> False`, anything else stores
      itself `-> True`. */
  function AddPermission(d: Dict, e: string): (r: Dict)
    requires Valid(d)
    ensures Valid(r) && d.order <= r.order
  {
    if IsDenyEntry(e) then Put(d, e[1..], false) else Put(d, e, true)
  }

  /** `_add_permission_list`: the entries applied in list order. */
  function AddPermissionList(d: Dict, entries: seq<string>): (r: Dict)
    requires Valid(d)
    ensures Valid(r) && d.order <= r.order
    decreases |entries|
  {
    if |entries| == 0 then d
    else AddPermissionList(AddPermission(d, entries[0]), entries[1..])
  }

  /** A key is present after a list iff the starting dict or some entry
      names it. */
  lemma {:induction false} ListPresence(d: Dict, entries: seq<string>, k: string)
    requires Valid(d)
    ensures k in AddPermissionList(d, entries).entries
            <==> k in d.entries || exists i :: 0 <= i < |entries| && EntryKey(entries[i]) == k
    decreases |entries|
  {
    if |entries| > 0 {
      ListPresence(AddPermission(d, entries[0]), entries[1..], k);
      assert forall i :: 1 <= i < |entries| ==> entries[i] == entries[1..][i - 1];
    }
  }

  /** A list none of whose entries names `k` leaves its value alone. */
  lemma {:induction false} UnnamedKeyKept(d: Dict, entries: seq<string>, k: string)
    requires Valid(d) && k in d.entries
    requires forall i :: 0 <= i < |entries| ==> EntryKey(entries[i]) != k
    ensures k in AddPermissionList(d, entries).entries
    ensures AddPermissionList(d, entries).entries[k] == d.entries[k]
    decreases |entries|
  {
    if |entries| > 0 {
      assert EntryKey(entries[0]) != k;
      UnnamedKeyKept(AddPermission(d, entries[0]), entries[1..], k);
    }
  }

  /** The last entry naming `k` decides its value: deny iff that entry
      carries the marker. */
  lemma {:induction false} LastEntryValue(d: Dict, entries: seq<string>, k: string, i: nat)
    requires Valid(d)
    requires i < |entries| && EntryKey(entries[i]) == k
    requires forall j :: i < j < |entries| ==> EntryKey(entries[j]) != k
    ensures k in AddPermissionList(d, entries).entries
    ensures AddPermissionList(d, entries).entries[k] == !IsDenyEntry(entries[i])
    decreases |entries|
  {
    var d' := AddPermission(d, entries[0]);
    if i == 0 {
      assert d'.entries[k] == !IsDenyEntry(entries[0]);
      UnnamedKeyKept(d', entries[1..], k);
    } else {
      LastEntryValue(d', entries[1..], k, i - 1);
    }
  }

  /** What a list does to one key: it is present iff the starting dict or
      some entry names it; the last entry naming it decides its value (deny
      iff that entry carries the marker); with no such entry the starting
      value stays. */
  lemma LastEntryDecides(d: Dict, entries: seq<string>, k: string)
    requires Valid(d)
    ensures var r := AddPermissionList(d, entries);
            && (k in r.entries <==> k in d.entries || exists i :: 0 <= i < |entries| && EntryKey(entries[i]) == k)
            && (forall i :: 0 <= i < |entries| && EntryKey(entries[i]) == k
                  && (forall j :: i < j < |entries| ==> EntryKey(entries[j]) != k)
                  ==> r.entries[k] == !IsDenyEntry(entries[i]))
            && ((forall i :: 0 <= i < |entries| ==> EntryKey(entries[i]) != k)
                ==> (k in d.entries ==> r.entries[k] == d.entries[k]))
  {
    ListPresence(d, entries, k);
    forall i | 0 <= i < |entries| && EntryKey(entries[i]) == k
                 && (forall j :: i < j < |entries| ==> EntryKey(entries[j]) != k)
      ensures AddPermissionList(d, entries).entries[k] == !IsDenyEntry(entries[i])
    {
      LastEntryValue(d, entries, k, i);
    }
    if k in d.entries && forall i :: 0 <= i < |entries| ==> EntryKey(entries[i]) != k {
      UnnamedKeyKept(d, entries, k);
    }
  }

  // ------------------------------------------------------------------
  // Roles
  // ------------------------------------------------------------------

  datatype Role = Role(id: int, name: string, permissions: Dict)

  /** `Role.__init__`: the dict built from the (already extended) list. */
  function NewRole(id: int, name: string, entries: seq<string>): (r: Role)
    ensures Valid(r.permissions)
    ensures r.id == id && r.name == name
    ensures forall k :: k in r.permissions.entries <==> exists i :: 0 <= i < |entries| && EntryKey(entries[i]) == k
  {
    var r := Role(id, name, AddPermissionList(Empty, entries));
    assert forall k :: k in r.permissions.entries <==> exists i :: 0 <= i < |entries| && EntryKey(entries[i]) == k by {
      forall k {
        LastEntryDecides(Empty, entries, k);
      }
    }
    r
  }

  /** `Role.check_permission`: split on `.` and match against the role's
      own dict; the exact key answers first, a missing or denying `".*"`
      means `False`. */
  function CheckPermission(role: Role, permission: string): (allowed: bool)
    ensures permission in role.permissions.entries ==> allowed == role.permissions.entries[permission]
    ensures PermissionMatch.PrefixRule(PyStr.Split(permission, '.'), role.permissions.entries, allowed)
  {
    var table := role.permissions.entries;
    var allowed := PermissionMatch.CheckKey(permission, table);
    assert permission in table ==> allowed == table[permission] by {
      if permission in table {
        PermissionMatch.ExactKeyFirst(permission, table);
      }
    }
    allowed
  }

  /** `get_all_permissions`: exactly the dict's keys, once each, without
      any allow/deny marker. */
  function GetAllPermissions(role: Role): (keys: seq<string>)
    requires Valid(role.permissions)
    ensures forall k :: k in keys <==> k in role.permissions.entries
    ensures forall i, j :: 0 <= i < j < |keys| ==> keys[i] != keys[j]
  {
    role.permissions.order
  }

  // ------------------------------------------------------------------
  // The registry and `extends`
  // ------------------------------------------------------------------

  /** `Role._roles`: registered roles by id. */
  type Registry = map<int, Role>

  ghost predicate ValidRegistry(reg: Registry)
  {
    forall id :: id in reg ==> Valid(reg[id].permissions)
  }

  /** `get_by_id`: `None` for an id nobody registered. */
  function GetById(reg: Registry, id: int): (r: Option<Role>)
    ensures r.Some? <==> id in reg
    ensures r.Some? ==> r.value == reg[id]
  {
    if id in reg then Some(reg[id]) else None
  }

  /** The `extends` value of a role file: absent (or null), one id, or a list. */
  datatype Extends = NoExtends | OneParent(parent: int) | ParentList(parents: seq<int>)

  /** A parsed role file. */
  datatype RoleFile = RoleFile(id: int, name: string, permissions: seq<string>, parentSpec: Extends)

  /** An unregistered parent: the source prints a warning and then fails
      calling `get_all_permissions` on `None`. */
  datatype LoadError = UnknownParent(id: int)

  /** The parents' key names, concatenated in `extends` order. */
  ghost function InheritedNames(reg: Registry, parents: seq<int>): seq<string>
    requires forall j :: 0 <= j < |parents| ==> parents[j] in reg
    decreases |parents|
  {
    if |parents| == 0 then []
    else reg[parents[0]].permissions.order + InheritedNames(reg, parents[1..])
  }

  /** `_extend_permissions` over a list of parents: each parent's keys are
      appended after what is already there; the first unknown parent stops
      the load. */
  function ExtendAll(reg: Registry, parents: seq<int>, entries: seq<string>): (r: Result<seq<string>, LoadError>)
    ensures r.Success? <==> forall j :: 0 <= j < |parents| ==> parents[j] in reg
    ensures r.Failure? ==>
              exists j :: 0 <= j < |parents| && parents[j] !in reg && r.error == UnknownParent(parents[j])
                          && forall k :: 0 <= k < j ==> parents[k] in reg
    ensures r.Success? ==> r.value == entries + InheritedNames(reg, parents)
    decreases |parents|
  {
    if |parents| == 0 then Success(entries)
    else if parents[0] !in reg then Failure(UnknownParent(parents[0]))
    else
      var r := ExtendAll(reg, parents[1..], entries + reg[parents[0]].permissions.order);
      assert r.Failure? ==>
               exists j :: 0 <= j < |parents| && parents[j] !in reg && r.error == UnknownParent(parents[j])
                           && forall k :: 0 <= k < j ==> parents[k] in reg by {
        if r.Failure? {
          var j :| 0 <= j < |parents[1..]| && parents[1..][j] !in reg && r.error == UnknownParent(parents[1..][j])
                   && forall k :: 0 <= k < j ==> parents[1..][k] in reg;
          assert parents[j + 1] == parents[1..][j];
          forall k | 0 <= k < j + 1
            ensures parents[k] in reg
          {
            if k > 0 {
              assert parents[k] == parents[1..][k - 1];
            }
          }
        }
      }
      r
  }

  /** The parent ids an `extends` value names, in order. */
  function ParentIds(ext: Extends): seq<int>
  {
    match ext
    case NoExtends => []
    case OneParent(p) => [p]
    case ParentList(ps) => ps
  }

  /** `_handle_extends`: a list is applied element by element, a single id
      on its own. */
  function HandleExtends(reg: Registry, ext: Extends, entries: seq<string>): (r: Result<seq<string>, LoadError>)
    ensures ext.NoExtends? ==> r == Success(entries)
    ensures ext.OneParent? ==> (r.Success? <==> ext.parent in reg)
    ensures r.Success? <==> forall j :: 0 <= j < |ParentIds(ext)| ==> ParentIds(ext)[j] in reg
    ensures r.Success? ==> r.value == entries + InheritedNames(reg, ParentIds(ext))
  {
    ExtendAll(reg, ParentIds(ext), entries)
  }

  /** The registry update of `_load_role_file` once the file is parsed:
      extend the list, build the role, and register it under its id,
      replacing any role registered there before. Fails, registering
      nothing, when a parent is not registered yet. */
  function LoadRoleFile(reg: Registry, file: RoleFile): (r: Result<Registry, LoadError>)
    ensures r.Success? <==> forall j :: 0 <= j < |ParentIds(file.parentSpec)| ==> ParentIds(file.parentSpec)[j] in reg
    ensures r.Success? ==> r.value.Keys == reg.Keys + {file.id}
    ensures r.Success? ==> forall id :: id in reg && id != file.id ==> r.value[id] == reg[id]
    ensures r.Success? ==>
              r.value[file.id] == NewRole(file.id, file.name, file.permissions + InheritedNames(reg, ParentIds(file.parentSpec)))
  {
    var extended := HandleExtends(reg, file.parentSpec, file.permissions);
    if extended.Failure? then Failure(extended.error)
    else Success(reg[file.id := NewRole(file.id, file.name, extended.value)])
  }

  /** File `i` is the last in the list that names its id. */
  ghost predicate LastNaming(files: seq<RoleFile>, i: int)
  {
    0 <= i < |files| && forall k :: i < k < |files| ==> files[k].id != files[i].id
  }

  /** The registry holds, under the file's id, a role with that id and name. */
  ghost predicate HoldsRoleOf(reg: Registry, file: RoleFile)
  {
    file.id in reg && reg[file.id].id == file.id && reg[file.id].name == file.name
  }

  /** `load_roles` over the files in name order: each file is loaded into
      the registry the previous ones built; the first failure stops it. */
  function LoadRoles(reg: Registry, files: seq<RoleFile>): (r: Result<Registry, LoadError>)
    ensures |files| > 0 && LoadRoleFile(reg, files[0]).Failure? ==> r == Failure(LoadRoleFile(reg, files[0]).error)
    ensures r.Success? ==> forall i :: 0 <= i < |files| ==> files[i].id in r.value
    ensures r.Success? ==> forall id :: id in r.value ==> id in reg || exists i :: 0 <= i < |files| && files[i].id == id
    ensures r.Success? ==> reg.Keys <= r.value.Keys
    ensures r.Success? ==>
              forall id :: id in reg && (forall i :: 0 <= i < |files| ==> files[i].id != id) ==> r.value[id] == reg[id]
    ensures r.Success? ==> forall i :: LastNaming(files, i) ==> HoldsRoleOf(r.value, files[i])
    decreases |files|
  {
    if |files| == 0 then Success(reg)
    else
      var first := LoadRoleFile(reg, files[0]);
      if first.Failure? then Failure(first.error)
      else
        var r := LoadRoles(first.value, files[1..]);
        if r.Failure? then r
        else
          LoadStepIds(reg, files, first.value, r.value);
          LoadStepUntouched(reg, files, first.value, r.value);
          LoadStepLast(reg, files, first.value, r.value);
          r
  }

  /** One file's step of LoadRoles: the ids registered after the run. */
  lemma LoadStepIds(reg: Registry, files: seq<RoleFile>, mid: Registry, out: Registry)
    requires |files| > 0
    requires mid.Keys == reg.Keys + {files[0].id}
    requires mid.Keys <= out.Keys
    requires forall i :: 0 <= i < |files[1..]| ==> files[1..][i].id in out
    requires forall id :: id in out ==> id in mid || exists i :: 0 <= i < |files[1..]| && files[1..][i].id == id
    ensures forall i :: 0 <= i < |files| ==> files[i].id in out
    ensures forall id :: id in out ==> id in reg || exists i :: 0 <= i < |files| && files[i].id == id
  {
    forall i | 0 < i < |files|
      ensures files[i].id in out
    {
      assert files[i] == files[1..][i - 1];
    }
    forall id | id in out && id !in reg
      ensures exists i :: 0 <= i < |files| && files[i].id == id
    {
      if id !in mid {
        var i :| 0 <= i < |files[1..]| && files[1..][i].id == id;
        assert files[i + 1] == files[1..][i];
      } else {
        assert files[0].id == id;
      }
    }
  }

  /** One file's step of LoadRoles: ids no file names keep their role. */
  lemma LoadStepUntouched(reg: Registry, files: seq<RoleFile>, mid: Registry, out: Registry)
    requires |files| > 0
    requires forall id :: id in reg && id != files[0].id ==> id in mid && mid[id] == reg[id]
    requires mid.Keys <= out.Keys
    requires forall id :: id in mid && (forall i :: 0 <= i < |files[1..]| ==> files[1..][i].id != id) ==> out[id] == mid[id]
    ensures forall id :: id in reg && (forall i :: 0 <= i < |files| ==> files[i].id != id) ==> out[id] == reg[id]
  {
    forall id | id in reg && (forall i :: 0 <= i < |files| ==> files[i].id != id)
      ensures out[id] == reg[id]
    {
      assert files[0].id != id;
      forall i | 0 <= i < |files[1..]|
        ensures files[1..][i].id != id
      {
        assert files[1..][i] == files[i + 1];
      }
    }
  }

  /** One file's step of LoadRoles: the last file naming an id names the
      role registered there. */
  lemma LoadStepLast(reg: Registry, files: seq<RoleFile>, mid: Registry, out: Registry)
    requires |files| > 0
    requires HoldsRoleOf(mid, files[0])
    requires mid.Keys <= out.Keys
    requires forall id :: id in mid && (forall i :: 0 <= i < |files[1..]| ==> files[1..][i].id != id) ==> out[id] == mid[id]
    requires forall i :: LastNaming(files[1..], i) ==> HoldsRoleOf(out, files[1..][i])
    ensures forall i :: LastNaming(files, i) ==> HoldsRoleOf(out, files[i])
  {
    var rest := files[1..];
    forall i | LastNaming(files, i)
      ensures HoldsRoleOf(out, files[i])
    {
      if i == 0 {
        forall k | 0 <= k < |rest|
          ensures rest[k].id != files[0].id
        {
          assert rest[k] == files[k + 1];
        }
      } else {
        assert files[i] == rest[i - 1];
        forall k | i - 1 < k < |rest|
          ensures rest[k].id != rest[i - 1].id
        {
          assert rest[k] == files[k + 1];
        }
        assert LastNaming(rest, i - 1);
      }
    }
  }

  /** Loading a list of files in two parts is loading the first part, then
      the second part into what the first part built. */
  lemma {:induction false} LoadRolesAppend(reg: Registry, a: seq<RoleFile>, b: seq<RoleFile>)
    ensures LoadRoles(reg, a).Failure? ==> LoadRoles(reg, a + b) == LoadRoles(reg, a)
    ensures LoadRoles(reg, a).Success? ==> LoadRoles(reg, a + b) == LoadRoles(LoadRoles(reg, a).value, b)
    decreases |a|
  {
    if |a| == 0 {
      assert a + b == b;
    } else {
      assert (a + b)[0] == a[0];
      assert (a + b)[1..] == a[1..] + b;
      var first := LoadRoleFile(reg, a[0]);
      if first.Success? {
        LoadRolesAppend(first.value, a[1..], b);
      }
    }
  }

  /** When the files after the first never name its id again, the first
      file decides the role under that id. */
  lemma LoadRolesFirstFileKept(reg: Registry, file: RoleFile, rest: seq<RoleFile>)
    requires forall k :: 0 <= k < |rest| ==> rest[k].id != file.id
    requires LoadRoles(reg, [file] + rest).Success?
    ensures LoadRoleFile(reg, file).Success?
    ensures LoadRoles(reg, [file] + rest).value[file.id] == LoadRoleFile(reg, file).value[file.id]
  {
    assert ([file] + rest)[0] == file;
    assert ([file] + rest)[1..] == rest;
  }

  /** The last file naming an id decides its role: the role that file builds
      from the registry the files before it left. */
  lemma LoadRolesLastFileDecides(reg: Registry, files: seq<RoleFile>, before: seq<RoleFile>, file: RoleFile, after: seq<RoleFile>)
    requires files == before + ([file] + after)
    requires forall k :: 0 <= k < |after| ==> after[k].id != file.id
    requires LoadRoles(reg, files).Success?
    ensures LoadRoles(reg, before).Success?
    ensures var earlier := LoadRoles(reg, before).value;
            var parents := ParentIds(file.parentSpec);
            && (forall j :: 0 <= j < |parents| ==> parents[j] in earlier)
            && file.id in LoadRoles(reg, files).value
            && LoadRoles(reg, files).value[file.id]
               == NewRole(file.id, file.name, file.permissions + InheritedNames(earlier, parents))
  {
    LoadRolesAppend(reg, before, [file] + after);
    LoadRolesFirstFileKept(LoadRoles(reg, before).value, file, after);
  }




  // ------------------------------------------------------------------
  // What inheritance means for the child's dict
  // ------------------------------------------------------------------

  /** No key of the role carries the deny marker itself (a key `~x` can only
      come from an entry `~~x`). */
  predicate PlainKeys(role: Role)
  {
    forall i :: 0 <= i < |role.permissions.order| ==> !IsDenyEntry(role.permissions.order[i])
  }

  lemma {:induction false} InheritedNamesMembers(reg: Registry, parents: seq<int>, k: string)
    requires forall j :: 0 <= j < |parents| ==> parents[j] in reg
    ensures k in InheritedNames(reg, parents)
            <==> exists j :: 0 <= j < |parents| && k in reg[parents[j]].permissions.order
    decreases |parents|
  {
    if |parents| > 0 {
      InheritedNamesMembers(reg, parents[1..], k);
      assert forall j :: 1 <= j < |parents| ==> parents[j] == parents[1..][j - 1];
    }
  }

  /** Every name a parent holds is allowed in the child, even where the
      parent or the child itself denies it: the parent's names are appended
      after the child's own list as bare names, and the last entry wins. */
  lemma ParentKeysAllowed(reg: Registry, file: RoleFile, p: int, k: string)
    requires ValidRegistry(reg)
    requires LoadRoleFile(reg, file).Success?
    requires p in ParentIds(file.parentSpec) && p in reg && k in reg[p].permissions.entries
    requires forall j :: 0 <= j < |ParentIds(file.parentSpec)| ==> PlainKeys(reg[ParentIds(file.parentSpec)[j]])
    ensures k in LoadRoleFile(reg, file).value[file.id].permissions.entries
    ensures LoadRoleFile(reg, file).value[file.id].permissions.entries[k]
  {
    var ps := ParentIds(file.parentSpec);
    InheritedPlain(reg, ps);
    var pj :| 0 <= pj < |ps| && ps[pj] == p;
    assert k in reg[ps[pj]].permissions.order;
    InheritedNamesMembers(reg, ps, k);
    PlainSuffixAllows(file.permissions, InheritedNames(reg, ps), k);
  }

  /** A plain name in the appended part of a list is allowed: the last
      entry naming it lies in that part and carries no marker. */
  lemma PlainSuffixAllows(own: seq<string>, inherited: seq<string>, k: string)
    requires forall i :: 0 <= i < |inherited| ==> !IsDenyEntry(inherited[i]) && EntryKey(inherited[i]) == inherited[i]
    requires k in inherited
    ensures k in AddPermissionList(Empty, own + inherited).entries
    ensures AddPermissionList(Empty, own + inherited).entries[k]
  {
    var entries := own + inherited;
    var i0 :| 0 <= i0 < |inherited| && inherited[i0] == k;
    assert entries[|own| + i0] == k;
    var last := LastIndexNaming(entries, k, |own| + i0);
    assert entries[last] == inherited[last - |own|];
    LastEntryValue(Empty, entries, k, last);
  }

  /** The names a role inherits are plain: none carries the deny marker. */
  lemma InheritedPlain(reg: Registry, ps: seq<int>)
    requires forall j :: 0 <= j < |ps| ==> ps[j] in reg
    requires forall j :: 0 <= j < |ps| ==> PlainKeys(reg[ps[j]])
    ensures forall i :: 0 <= i < |InheritedNames(reg, ps)| ==>
              !IsDenyEntry(InheritedNames(reg, ps)[i]) && EntryKey(InheritedNames(reg, ps)[i]) == InheritedNames(reg, ps)[i]
  {
    var inherited := InheritedNames(reg, ps);
    forall i | 0 <= i < |inherited|
      ensures !IsDenyEntry(inherited[i]) && EntryKey(inherited[i]) == inherited[i]
    {
      InheritedNamesMembers(reg, ps, inherited[i]);
      var j :| 0 <= j < |ps| && inherited[i] in reg[ps[j]].permissions.order;
      var m :| 0 <= m < |reg[ps[j]].permissions.order| && reg[ps[j]].permissions.order[m] == inherited[i];
    }
  }

  /** The index of the last entry naming `k`, at or after `start`. */
  lemma LastIndexNaming(entries: seq<string>, k: string, start: nat) returns (last: nat)
    requires start < |entries| && EntryKey(entries[start]) == k
    ensures start <= last < |entries| && EntryKey(entries[last]) == k
    ensures forall j :: last < j < |entries| ==> EntryKey(entries[j]) != k
    decreases |entries| - start
  {
    if exists j :: start < j < |entries| && EntryKey(entries[j]) == k {
      var j :| start < j < |entries| && EntryKey(entries[j]) == k;
      last := LastIndexNaming(entries, k, j);
    } else {
      last := start;
    }
  }

  /** For a key no parent holds, the child's own list decides: the last
      own entry naming it. */
  lemma OwnEntryDecidesUninheritedKey(reg: Registry, file: RoleFile, k: string, i: nat)
    requires ValidRegistry(reg)
    requires LoadRoleFile(reg, file).Success?
    requires forall j :: 0 <= j < |ParentIds(file.parentSpec)| ==> k !in reg[ParentIds(file.parentSpec)[j]].permissions.entries
    requires forall j :: 0 <= j < |ParentIds(file.parentSpec)| ==> PlainKeys(reg[ParentIds(file.parentSpec)[j]])
    requires i < |file.permissions| && EntryKey(file.permissions[i]) == k
    requires forall j :: i < j < |file.permissions| ==> EntryKey(file.permissions[j]) != k
    ensures k in LoadRoleFile(reg, file).value[file.id].permissions.entries
    ensures LoadRoleFile(reg, file).value[file.id].permissions.entries[k] == !IsDenyEntry(file.permissions[i])
  {
    var ps := ParentIds(file.parentSpec);
    var inherited := InheritedNames(reg, ps);
    var entries := file.permissions + inherited;
    forall m | 0 <= m < |inherited|
      ensures EntryKey(inherited[m]) != k
    {
      InheritedNamesMembers(reg, ps, inherited[m]);
      var j :| 0 <= j < |ps| && inherited[m] in reg[ps[j]].permissions.order;
      var n :| 0 <= n < |reg[ps[j]].permissions.order| && reg[ps[j]].permissions.order[n] == inherited[m];
      assert !IsDenyEntry(inherited[m]);
      assert Valid(reg[ps[j]].permissions);
      assert inherited[m] in reg[ps[j]].permissions.entries;
    }
    assert forall j :: i < j < |entries| ==> EntryKey(entries[j]) != k by {
      forall j | i < j < |entries|
        ensures EntryKey(entries[j]) != k
      {
        if j >= |file.permissions| {
          assert entries[j] == inherited[j - |file.permissions|];
        }
      }
    }
    assert entries[i] == file.permissions[i];
    LastEntryValue(Empty, entries, k, i);
  }

  /** Inheritance is transitive: a role loaded after its parent, which was
      itself loaded extending a grandparent, allows every plain name of the
      grandparent. */
  lemma TransitiveInheritance(reg: Registry, parentFile: RoleFile, childFile: RoleFile, g: int, k: string)
    requires ValidRegistry(reg)
    requires LoadRoleFile(reg, parentFile).Success?
    requires g in ParentIds(parentFile.parentSpec) && g in reg && k in reg[g].permissions.entries
    requires forall j :: 0 <= j < |ParentIds(parentFile.parentSpec)| ==> PlainKeys(reg[ParentIds(parentFile.parentSpec)[j]])
    requires ParentIds(childFile.parentSpec) == [parentFile.id]
    requires PlainKeys(LoadRoleFile(reg, parentFile).value[parentFile.id])
    ensures LoadRoleFile(LoadRoleFile(reg, parentFile).value, childFile).Success?
    ensures k in LoadRoleFile(LoadRoleFile(reg, parentFile).value, childFile).value[childFile.id].permissions.entries
    ensures LoadRoleFile(LoadRoleFile(reg, parentFile).value, childFile).value[childFile.id].permissions.entries[k]
  {
    var reg' := LoadRoleFile(reg, parentFile).value;
    ParentKeysAllowed(reg, parentFile, g, k);
    assert ValidRegistry(reg');
    ParentKeysAllowed(reg', childFile, parentFile.id, k);
  }

  /** A parent key that itself begins with `~` (written `~~x` in its file)
      is re-read as a deny entry when appended to a child: the child gets
      `x -> False` and no `~x` key. */
  lemma DenyShapedParentKeyFlips()
    ensures var reg := LoadRoleFile(map[], RoleFile(1, "parent", ["~~x"], NoExtends)).value;
            var child := LoadRoleFile(reg, RoleFile(2, "child", [], OneParent(1)));
            && reg[1].permissions.entries == map["~x" := false]
            && child.Success?
            && child.value[2].permissions.entries == map["x" := false]
  {
    var reg := LoadRoleFile(map[], RoleFile(1, "parent", ["~~x"], NoExtends)).value;
    assert "~~x"[1..] == "~x";
    assert reg[1].permissions == Dict(["~x"], map["~x" := false]);
    assert InheritedNames(reg, [1]) == ["~x"];
    assert "~x"[1..] == "x";
  }

  // ------------------------------------------------------------------
  // Agreement with the database variant's notation
  // ------------------------------------------------------------------

  /** The text `Permission.__str__` gives a grant reads back, as a role-file
      entry, as the same grant (for names not themselves starting with `~`). */
  lemma GrantTextRoundTrip(g: OrmPermissions.Grant)
    requires !IsDenyEntry(g.name)
    ensures EntryKey(OrmPermissions.PermissionString(g)) == g.name
    ensures !IsDenyEntry(OrmPermissions.PermissionString(g)) == g.isAllowed
    ensures AddPermission(Empty, OrmPermissions.PermissionString(g)).entries == map[g.name := g.isAllowed]
  {
  }
}
